=== FILE: README.md ===
# Disease-diagnosis knowledge base, modelled in Dafny

The system is a rule-based disease diagnoser. Its knowledge base is a CLIPS
rule file in which every disease `d` has two rules:
- `(defrule d …)` prints the disease's name;
- `(defrule is_it_d (has_symptom s) … => (assert (disease_is d)))` lists its
  required symptoms.

Beside the rule file sit three more data files:
- a symptom vocabulary (`symptoms.txt`);
- a description table;
- a precaution table.

Three kinds of services work on these files:
- two diagnosis services that read the rule file and narrow candidates down as
  symptoms are selected;
- an engine and two web front ends that add diseases and symptoms to the files;
- a CSV service that compiles a disease/symptom table into rules and patches
  rules from user feedback.

This project models, as pure functions and small methods over strings,
sequences, sets and maps:
- **the rule-text codec.** This covers:
  - the reader of `is_it_` blocks;
  - the three writers of the two-rule fragment;
  - the `(defrule <d>` duplicate check.

  Proofs show that what a writer appends reads back as exactly the new
  disease with its symptom set.
- **both diagnosis matchers.** The first is the superset/final composition.
  The second ranks candidates by match percentage, using a stable descending
  sort.
- **the text mutators.** These are:
  - the line-by-line edit that inserts `(has_symptom s)` before the next `=>`
    after a rule mention;
  - the vocabulary append, with and without its dedupe;
  - the guarded four-file append of a new disease;
  - the rule splice of the feedback endpoint.
- **the CSV compiler, the metadata readers and `detail`, and the CLIPS
  fact-string reader** that turns `(disease_is flu_a)` into `Flu A`.

Modules follow the program's structure:

| module | file | what it holds |
|---|---|---|
| Wrappers, Strings, Order | wrappers.dfy, strings.dfy, order.dfy | `Option`; the Python string operations used (ASCII `strip`, `split`, `join`, `replace`, `title`, `capitalize`, `rfind`, line iteration); ordinal string order and sorting a set |
| Names | names.dfy | the key normalisations (`strip → space→_ → lower`) and the shown name (`_`→space, title case) |
| Rules, RoundTrip | rules.dfy, roundtrip.dfy | `parse_rules`, the fragment writers, and the parse-after-append theorems |
| Matcher, RankedMatcher | matcher.dfy, ranked_matcher.dfy | `data/rules_helper.py` and `rules_helper1.py` |
| LineEdit | line_edit.dfy | `update_clips_file` and its two copies |
| Tables, Info | tables.dfy, info.dfy | the description and precaution readers (last line wins) and `detail` |
| Facts | facts.dfy | `get_diseases` / `getDiseases` / `getSymptoms` |
| Engine | engine.dfy | `DiseaseDiagnosis` of `disease_diagnosis/diagnosis_engine.py` as a write log over four files |
| Frontend | frontend.dfy | `index.py` / `disease_diagnosis.py`: `add_new_symptom` and the `addNewDisease` handler |
| CsvCompiler, Feedback | csv_compiler.dfy, feedback.dfy | `convert_csv_to_clp` and `process_feedback` of `csv-to-clp/index1.py` |

A file is its content as a string, and a missing file is `None`. An append is
recorded as an `Engine.Append(target, text)`. A file's lines are what Python
iteration yields: each piece keeps its `\n`, as `Strings.SplitLines` does. The
regular expressions are written out as scanners over ASCII, where `\w` means
letters, digits and `_`.

## Model

| member | source | states |
|---|---|---|
| Strings.Strip | disease_info.py:22 | `str.strip()`: empty exactly when the input is all whitespace, and otherwise the result has no whitespace at either end |
| Strings.LeadingSpaces | disease_info.py:22 | the whitespace run the input starts with: every character before it is whitespace and the one at it is not |
| Strings.TrailingSpaces | disease_info.py:22 | the whitespace run the input ends with: every character after it is whitespace and the one before it is not |
| Strings.StripContent | disease_info.py:22 | the result is exactly the slice of the input that starts right after its leading whitespace |
| Strings.StripLengths | disease_info.py:22 | for a non-blank input, its leading whitespace, the result and its trailing whitespace make up the whole input, so only the two whitespace runs are removed |
| Strings.StripNoop | index.py:69 | stripping text that has no whitespace at either end gives it back |
| Strings.IndexOf | csv-to-clp/index1.py:67 | the first occurrence of a pattern, with no earlier one; `None` only when it occurs nowhere |
| Strings.Contains | disease_diagnosis/diagnosis_engine.py:93 | Python's `in` on strings: true exactly when the pattern occurs at some position |
| Strings.RFindIsLast | csv-to-clp/index1.py:214 | `rfind` finds the character, and no later position holds it |
| Strings.RFindLast | csv-to-clp/index1.py:214 | the last `)` of a text ending in `)` followed by a `)`-free tail is that final `)` |
| Strings.ReplaceAll | csv-to-clp/index1.py:218 | `str.replace`: text without the pattern is returned unchanged; a longer replacement never shrinks the text |
| Strings.ReplaceKeepsPrefix | csv-to-clp/index1.py:218 | replacing leaves untouched every character before the first occurrence |
| Strings.ReplaceFirst | csv-to-clp/index1.py:218 | the first occurrence is replaced and the scan resumes right after it |
| Strings.JoinSplit | disease_info.py:24 | joining the pieces of a split with the same separator restores the text |
| Strings.SplitJoin | csv-to-clp/index1.py:67 | splitting a join of separator-free parts gives the parts back |
| Strings.SplitWithoutSeparator | disease_info.py:22 | text that does not contain the separator splits into itself alone |
| Strings.SplitPiecesFree | disease_info.py:22 | no piece of a split contains the separator |
| Strings.SplitLines | disease_diagnosis/diagnosis_engine.py:59 | `readlines()`: the lines concatenate to the text, none is empty, and there are none exactly when the text is empty |
| Strings.SplitLinesAppend | disease_diagnosis/diagnosis_engine.py:99-101 | appending to a text that ends in a line break adds the appended lines after the old ones |
| Strings.SplitLinesAppendLine | disease_diagnosis/diagnosis_engine.py:50-51 | appending one break-free line to such a text adds exactly that line |
| Strings.RemoveChar | disease_info.py:24 | `replace('"', '')`: the character is gone, every other character is still present, and text without it comes back unchanged |
| Strings.RemoveCharCount | disease_info.py:24 | every other character is kept as often as it occurs: the result's multiset is the input's with the removed character's count set to zero |
| Strings.RemoveCharAppend | disease_info.py:24 | deleting from two texts laid end to end deletes from each in place, so the kept characters stay in order |
| Strings.TitleChars | disease_diagnosis/diagnosis_engine.py:32 | `title()` changes letter case only, and leaves every non-letter in place |
| Strings.TitleHasUpper | index.py:42 | a title-cased text with a letter holds an upper-case letter |
| Strings.Capitalize | disease_info.py:33 | `capitalize()`: the first character upper-cased, every later character lower-cased, nothing else changed |
| Order.LessTotal | data/rules_helper.py:52 | the order `sorted` uses on strings is total |
| Order.LessTransitive | data/rules_helper.py:52 | and transitive |
| Order.Insert | data/rules_helper.py:52 | inserting into a strictly sorted list keeps it strictly sorted, adds exactly the element, and changes nothing when it is already there |
| Order.SortSet | data/rules_helper.py:52 | `sorted(set)`: strictly ascending, holding exactly the set's elements, one each |
| Order.SortedUnique | rules_helper1.py:64 | two strictly sorted lists with the same elements are equal, so `sorted` of a set is determined by the set |
| Order.SortedCard | csv-to-clp/index1.py:147 | a strictly sorted list is as long as its set of elements |
| Names.Normalize | disease_diagnosis/diagnosis_engine.py:101 | the writers' key `strip → space→_ → lower`: no space, no capital, no surrounding whitespace, never longer than the input |
| Names.InfoKeyIsNormalize | disease_info.py:9 | the readers' order `lower → strip → space→_` gives the same key as the writers' order |
| Names.NormalizeIdempotent | index.py:159 | normalising a key again changes nothing |
| Names.StripLower | disease_info.py:9 | stripping and lowering commute |
| Names.InfoKey | disease_info.py:23 | the readers' key `lower → strip → space→_` holds no space and is never longer than the name |
| Names.Display | disease_diagnosis/diagnosis_engine.py:32 | `replace("_", " ").title()`: as long as the key, and no underscore is left |
| Rules.ToMap | data/rules_helper.py:26-28 | the dictionary view: its keys are exactly the listed diseases, each mapped to its entry's set |
| Rules.ToMapCons | data/rules_helper.py:28 | the first entry's set overrides the rest's map for its disease |
| Rules.Upsert | data/rules_helper.py:28 | `dict[d] = s`: the map gains or updates `d`, old keys keep their place, and a new key goes last |
| Rules.WordRun | data/rules_helper.py:23 | `(\w+)`: the longest run of word characters at the front |
| Rules.SymptomTokens | data/rules_helper.py:27 | every token read from `(has_symptom X)` is a word |
| Rules.Scan | data/rules_helper.py:23 | every block read from `(defrule is_it_X … =>` names a word disease |
| Rules.Parse | data/rules_helper.py:21-30 | `parse_rules` yields a dictionary: no disease twice |
| Rules.Build | data/rules_helper.py:26-28 | `disease_symptoms[disease] = set(symptoms)` block by block keeps a dictionary: no disease twice |
| Rules.BuildAppend | data/rules_helper.py:26-28 | reading blocks in two runs equals reading them in one |
| Rules.BuildKeys | data/rules_helper.py:26-28 | the diseases after reading blocks are the earlier ones plus those the blocks name |
| Rules.BuildLastWins | data/rules_helper.py:26-28 | when a disease's block is the last block naming it, that block's symptom set is its value |
| Rules.BuildUntouched | data/rules_helper.py:26-28 | blocks that do not name a disease leave its entry as it was |
| Rules.ParseSemantics | data/rules_helper.py:21-30 | a disease is parsed exactly when some `is_it_` block names it, and it maps to the symptoms of its last such block |
| Rules.SymptomAtoms | csv-to-clp/index1.py:113 | one `(has_symptom k)` atom per key, in order |
| Rules.Fragment | disease_diagnosis/diagnosis_engine.py:113-126 | the two rules every writer appends for one disease (printout rule, then `is_it_` rule); what they read back as is RoundTrip.FragmentClosed |
| Rules.DiseaseBlocks | disease_diagnosis/diagnosis_engine.py:113-126 | the engine's and `addNewDisease`'s fragment, one `(has_symptom k)` line per key; read back by RoundTrip.DiseaseBlocksRoundTrip |
| Rules.CsvFragment | csv-to-clp/index1.py:113-128 | the CSV compiler's fragment, atoms joined by `"\n  "`; read back by RoundTrip.AppendCsvFragment |
| RoundTrip.ScanHeader | data/rules_helper.py:23 | a header `(defrule is_it_key` followed by an `=`-free body and `=>` reads as one block whose symptoms are the body's tokens |
| RoundTrip.NoHeaderParsesEmpty | data/rules_helper.py:12-19 | text without `(defrule is_it_`, such as the empty text a missing file gives, parses to the empty dictionary |
| RoundTrip.DefruleNotHeader | disease_diagnosis/diagnosis_engine.py:115 | the printing rule `(defrule d` of a word `d` not starting with `is_it_` is never read as an `is_it_` header |
| RoundTrip.FragmentClosed | disease_diagnosis/diagnosis_engine.py:113-126 | a written fragment reads as exactly its one `is_it_` block, and text after it reads as if on its own |
| RoundTrip.LinesClosed | disease_diagnosis/diagnosis_engine.py:122-123 | the symptom lines written one per line read back as exactly the keys, in order |
| RoundTrip.AtomsClosed | csv-to-clp/index1.py:113 | the atoms joined by `"\n  "` read back as exactly the keys, in order |
| RoundTrip.DiseaseBlocksRoundTrip | disease_diagnosis/diagnosis_engine.py:113-126 | the fragment the engine writes parses, on its own, to `{d: set of its symptoms}` |
| RoundTrip.AppendDiseaseBlocks | disease_diagnosis/diagnosis_engine.py:113-126 | appending that fragment to a rule file updates the parsed dictionary at `d` only, and keeps the file well delimited |
| RoundTrip.AppendCsvFragment | csv-to-clp/index1.py:116-128 | the same for the CSV compiler's fragment, keyed by the underscored name |
| RoundTrip.ParseAppend | data/rules_helper.py:26-28 | parsing a well-delimited file with text appended applies the appended blocks to the file's dictionary |
| Tables.LastIndex | disease_info.py:21-24 | per key, the last line carrying that key |
| Tables.Table | disease_info.py:18-25 | `data[key] = value` per line: the keys are exactly the lines' keys, and each maps to the value of its last line |
| Tables.TableAppend | disease_info.py:21-24 | a further line overrides its key and leaves the others |
| Tables.AppendKeeps | disease_info.py:21-24 | a line with another key leaves an entry unchanged |
| Tables.AppendSets | disease_info.py:21-24 | a line's key maps to that line's value afterwards |
| Info.Fields | disease_info.py:22 | `line.strip().split(',')` has at least the first field |
| Info.DescriptionOf | disease_info.py:24 | the rejoined tail holds no `"` |
| Info.CleanPrecautions | disease_info.py:33 | at most one precaution per field, each non-empty and starting with no lower-case letter |
| Info.CleanPrecautionsOne | disease_info.py:33 | one field is dropped when blank and otherwise stripped and capitalised |
| Info.CleanPrecautionsAppend | disease_info.py:33 | fields are cleaned one at a time and in place, so with the one-field case the comprehension is determined completely |
| Info.NoPrecautionsIffBlank | disease_info.py:33 | a record has no precautions exactly when every later field is blank |
| Info.AfterHeader | disease_diagnosis/disease_info.py:22 | `next(f)` drops exactly the first line, and an empty file is an error |
| Info.HeaderNotAKey | disease_diagnosis/disease_info.py:22-27 | the header-skipping readers never take the header's key from the header itself |
| Info.Detail | disease_info.py:6-16 | one record per name, in order, with the looked-up description and precautions under the name's key, or the given defaults |
| Info.KeyRoundTrip | disease_diagnosis/diagnosis_engine.py:106 | a key written with `_` turned into spaces is read back as the same key |
| Info.RecordFields | disease_diagnosis/diagnosis_engine.py:106 | a written record is one line whose first field reads back as the key and whose other fields are the written text split at commas |
| Info.DescriptionRoundTrip | disease_diagnosis/diagnosis_engine.py:103-106 | after a description record is appended, the description table maps the key to the written text without `"`, and every other key is unchanged |
| Info.PrecautionRoundTrip | disease_diagnosis/diagnosis_engine.py:108-111 | after a precaution record is appended, the precaution table maps the key to the cleaned written precautions, and every other key is unchanged |
| Info.DescriptionRecord | disease_diagnosis/diagnosis_engine.py:103-106 | the description line written for a key; re-read by Info.RecordFields and Info.DescriptionRoundTrip |
| Info.PrecautionRecord | disease_diagnosis/diagnosis_engine.py:108-111 | the precaution line written for a key; re-read by Info.PrecautionRoundTrip |
| Info.Descriptions | disease_info.py:18-25 | `_getDescriptions` as a table of record lines; its meaning is Tables.Table's contract |
| Info.Precautions | disease_info.py:27-35 | `_getPrecautions` as a table of record lines; its meaning is Tables.Table's contract |
| Info.PiecesReadBack | disease_info.py:31-33 | comma-free precautions joined by commas and split again clean to the same list |
| Info.DetailShowsWrittenDescription | index.py:101-111 | `detail` of a name whose key was just written shows the written description |
| LineEdit.Expected | disease_diagnosis/diagnosis_engine.py:64-70 | reference definition: one output line per input line, edited exactly when it holds `=>` and a mention at or before it has no `=>` line between |
| LineEdit.Edited | disease_diagnosis/diagnosis_engine.py:68 | an edited line always grows |
| LineEdit.ArmedStep | disease_diagnosis/diagnosis_engine.py:65-66 | a line is armed exactly when it mentions the rule itself or a pending mention carries over |
| LineEdit.PendingStep | disease_diagnosis/diagnosis_engine.py:67-69 | the flag survives a line exactly when that line is armed and holds no `=>` |
| LineEdit.FlagPending | disease_diagnosis/diagnosis_engine.py:62-69 | the loop's `found_rule` after `i` lines is exactly the reference definition's pending flag |
| LineEdit.UpdateLines | disease_diagnosis/diagnosis_engine.py:61-70 | the loop computes the reference definition, and changes no more lines than mention the rule |
| LineEdit.UpdateClipsFile | disease_diagnosis/diagnosis_engine.py:57-73 | the rewritten file is the edited lines; a file that never mentions the rule comes back unchanged |
| LineEdit.NeverArmed | disease_diagnosis/diagnosis_engine.py:61-73 | with no mention, no line is edited |
| LineEdit.MentioningArrowLineEdited | index.py:83-86 | a line holding both the mention and `=>` is always edited, whatever atoms the rule already holds, so a repeated call adds the atom again |
| LineEdit.EditsSeparatedByMention | disease_diagnosis/diagnosis_engine.py:67-69 | between any two edited lines there is a fresh mention, because the flag is cleared after each edit |
| Matcher.LoadRules | data/rules_helper.py:12-19 | a missing file reads as the empty text |
| Matcher.Suggest | data/rules_helper.py:32-38 | a disease is possible exactly when its required set includes the selection |
| Matcher.SuggestSpec | data/rules_helper.py:32-38 | the same in dictionary terms |
| Matcher.SuggestAntitone | data/rules_helper.py:36 | selecting more symptoms never makes a disease possible again |
| Matcher.SuggestNothingSelected | data/rules_helper.py:32-38 | with nothing selected every disease is possible, in dictionary order |
| Matcher.FilterSymptoms | data/rules_helper.py:40-52 | no candidates give `[]`; otherwise a strictly sorted list of exactly the candidates' unselected symptoms |
| Matcher.InitialSymptoms | data/rules_helper.py:60-65 | every symptom some disease requires, sorted, once each |
| Matcher.Complete | data/rules_helper.py:78-82 | the final diseases are exactly the candidates whose required set lies within the selection |
| Matcher.Unselected | data/rules_helper.py:88 | the re-filter keeps exactly the unselected symptoms, and changes nothing on a list that holds no selected symptom |
| Matcher.FinalDiseases | data/rules_helper.py:75-82 | the complete candidates are exactly the diseases whose required set equals the selection, so there are some exactly when such a disease exists |
| Matcher.Diagnose | data/rules_helper.py:69-104 | the diagnosis is final exactly when some disease requires exactly the selection; then only those diseases are listed, as the complete ones among the candidates in the candidates' order, and no symptom is offered; otherwise all candidates are listed with their sorted unselected symptoms; per-disease sets are keyed by the candidates |
| Matcher.RemainingKeepsCandidates | data/rules_helper.py:85-88 | selecting any offered symptom leaves at least one disease possible |
| RankedMatcher.MatchOf | rules_helper1.py:71-82 | `matched` is the selected part of the required set, at most `total`; the percentage lies in [0, 100], is 0 for an empty required set, and is 100 exactly when every required symptom is selected |
| RankedMatcher.Percent | rules_helper1.py:75 | `matched / total * 100` in exact arithmetic |
| RankedMatcher.MatchedCount | rules_helper1.py:73-74 | the matched count equals the total exactly when the required set lies within the selection |
| RankedMatcher.Matches | rules_helper1.py:121-125 | one match per candidate, in candidate order |
| RankedMatcher.InsertDesc | rules_helper1.py:83 | inserting into a descending list keeps it descending and adds exactly the element |
| RankedMatcher.InsertDescStable | rules_helper1.py:83 | insertion puts the element after every equal percentage |
| RankedMatcher.SortDesc | rules_helper1.py:83 | `sorted(…, reverse=True)`: a descending permutation |
| RankedMatcher.SortDescStable | rules_helper1.py:83 | entries with equal percentages keep their input order |
| RankedMatcher.FilterRemaining | rules_helper1.py:50-64 | no candidates give `[]`; otherwise a sorted list of exactly the candidates' unselected symptoms |
| RankedMatcher.SameRemaining | rules_helper1.py:128-134 | both services offer the same next symptoms for the same candidates |
| RankedMatcher.AllSymptoms | rules_helper1.py:40-47 | every required symptom, sorted, once each |
| RankedMatcher.MatchedWholeSelection | rules_helper1.py:116 | every candidate's match counts the whole selection |
| RankedMatcher.NothingLeftIff | rules_helper1.py:139 | nothing is left to offer exactly when every candidate's required set is the selection |
| RankedMatcher.Diagnose | rules_helper1.py:106-149 | matches: a descending, stable permutation of the candidates' matches. Remaining symptoms: sorted. Final: exactly when there are candidates and each requires exactly the selection. Per-disease map: keyed by the candidates |
| Facts.InnerUnwraps | disease_diagnosis/diagnosis_engine.py:32 | taking the inside of a fact gives back exactly the text between its outer two characters, whatever that text holds, and a text of two or more characters is its inside wrapped in its outer two; with Facts.AssertedFact, a fact asserted as `(relation value)` reads back as `relation value` |
| Facts.FactName | disease_diagnosis/diagnosis_engine.py:32 | the shown form of a fact's second token; `None` where Python raises `IndexError` |
| Facts.Matching | disease_diagnosis/diagnosis_engine.py:31 | a fact is listed exactly when it is a fact holding the marker |
| Facts.MatchingOne | disease_diagnosis/diagnosis_engine.py:29-31 | one fact is kept exactly when it holds the marker |
| Facts.MatchingAppend | disease_diagnosis/diagnosis_engine.py:29-34 | facts are filtered one at a time and in place, so the facts' order is kept whatever other facts are mixed in |
| Facts.ExtractNames | disease_diagnosis/diagnosis_engine.py:27-34 | one name per matching fact, in order, or failure when a matching fact has no second token |
| Facts.FactNameOfAsserted | index.py:35-44 | the fact `(disease_is k)` names the shown form of `k` |
| Facts.AssertedFact | disease_diagnosis/diagnosis_engine.py:20-22 | the asserted fact is parenthesised, and inside holds the relation, a space and the value |
| Facts.AssertedReadBack | disease_diagnosis.py:30-50 | facts asserted for keys read back as the keys' shown names, in order |
| Engine.Apply | disease_diagnosis/diagnosis_engine.py:97-126 | performing appends extends every file by exactly the texts aimed at it, in order |
| Engine.AnyLineContains | disease_diagnosis/diagnosis_engine.py:92-94 | some line holds the pattern |
| Engine.DiseaseExists | disease_diagnosis/diagnosis_engine.py:90-95 | `check_disease_exists`: some line of the rule file holds `(defrule <name>` |
| Engine.ExistsIffTextContains | disease_diagnosis/diagnosis_engine.py:90-95 | for a break-free name, the line-by-line check agrees with a search of the whole file |
| Engine.Keys | disease_diagnosis/diagnosis_engine.py:101 | one normalised key per symptom |
| Engine.EntriesSplit | disease_diagnosis/diagnosis_engine.py:99-101 | the `key,` entries read back one per line in the order written |
| Engine.Entries | disease_diagnosis/diagnosis_engine.py:97-101 | the `key,` lines written for the keys; read back by Engine.EntriesSplit |
| Engine.AddNewDisease | disease_diagnosis/diagnosis_engine.py:75-88 | an existing disease is refused with its message and no file changes; otherwise one append goes to each file, in the order vocabulary, descriptions, precautions, rules |
| Engine.AddedFiles | disease_diagnosis/diagnosis_engine.py:81-84 | after a successful addition each file is the old content plus its record |
| Engine.AddedDiseaseExists | disease_diagnosis/diagnosis_engine.py:76-79 | once added, a disease exists, and adding it again is refused without writes |
| Engine.AddedDiseaseParses | disease_diagnosis/diagnosis_engine.py:113-126 | after an addition the rule file parses to the old dictionary with the disease mapped to its normalised symptoms |
| Engine.AddedDiseaseDescribed | disease_diagnosis/diagnosis_engine.py:103-106 | after an addition the description table gives the disease its description |
| Engine.AddedDiseasePrecautions | disease_diagnosis/diagnosis_engine.py:108-111 | after an addition the precaution table gives the disease its cleaned precautions |
| Engine.AddedSymptomEntries | disease_diagnosis/diagnosis_engine.py:97-101 | after an addition the vocabulary keeps its lines and gains one `key,` line per symptom |
| Engine.BlocksDeclareDisease | disease_diagnosis/diagnosis_engine.py:115 | the written fragment holds a `(defrule <name>` line |
| Engine.ShowLines | disease_diagnosis.py:55 | each line stripped and shown; with blank lines dropped, only when some line is blank can the list be shorter |
| Engine.ShowLinesOne | disease_diagnosis.py:55 | a blank line contributes nothing when blank lines are dropped; any other line is listed as its stripped, shown form |
| Engine.ShowLinesAppend | disease_diagnosis.py:55 | listing concatenated lines lists each part in turn |
| Engine.SymptomListAppend | disease_diagnosis/diagnosis_engine.py:36-43 | an entry appended to a vocabulary ending in a line break is listed last, shown |
| Engine.SymptomList | disease_diagnosis/diagnosis_engine.py:36-43 | the listed lines of the vocabulary file; appending is Engine.SymptomListAppend |
| Engine.AddNewSymptom | disease_diagnosis/diagnosis_engine.py:45-55 | the vocabulary gains exactly the `symptom,` line; the rule file is the line edit; the other files are unchanged |
| Frontend.StrippedLines | index.py:69 | the stripped lines `add_new_symptom` compares with |
| Frontend.AddToVocabularyAsWritten | index.py:67-73 | the vocabulary is extended, and left as it is exactly when some stripped line equals the symptom |
| Frontend.GluedOntoLastLine | index.py:72-73 | see Findings 1 |
| Frontend.GluedLineNotRecognised | index.py:69-71 | see Findings 1 |
| Frontend.SingleLineNotListed | index.py:69-73 | a one-line vocabulary gains every other symptom on a line of its own |
| Frontend.AsWrittenNotIdempotent | index.py:67-73 | see Findings 1 |
| Frontend.AsWrittenMissesCommaEntry | disease_diagnosis.py:67-72 | see Findings 2 |
| Frontend.EntryName | disease_diagnosis.py:68 | the name a stripped line stands for drops at most one final character |
| Frontend.Terminated | disease_diagnosis.py:71-72 | the text ends in a line break after at most one added character |
| Frontend.AddToVocabulary | disease_diagnosis.py:67-72 | corrected step: the old text is kept as a prefix; it is unchanged exactly when the symptom is already an entry name, and otherwise gains the symptom on a line of its own after a line break is supplied |
| Frontend.AddedIsListed | index.py:67-73 | after the corrected step the symptom is an entry |
| Frontend.AddIdempotent | index.py:67-73 | the corrected step is idempotent |
| Frontend.RecognisesCommaEntry | disease_diagnosis.py:67-72 | the corrected step recognises a `key,` entry |
| Frontend.AddNewSymptom | index.py:63-93 | the vocabulary is the corrected step applied to the old one: the old text is kept, a listed symptom is not appended again, a new one is appended as `symptom\n` on a line of its own, and afterwards the symptom is listed; the rule file gets the line edit and the tables are unchanged |
| Frontend.PrecautionList | index.py:161 | one stripped precaution per comma-separated piece |
| Frontend.EntriesNotIn | index.py:171-174 | every key known: nothing written; no key known: the engine's entries |
| Frontend.EntriesNotInOne | index.py:172-174 | one key is written as a `key,` line exactly when it is not among the compared names |
| Frontend.EntriesNotInAppend | index.py:171-174 | keys are written one at a time and in place, so mixed known and unknown keys give the unknown ones' lines in order |
| Frontend.AsWrittenWritesShownKeys | index.py:171-174 | see Findings 3 |
| Frontend.AsWrittenRewritesCough | index.py:173 | see Findings 3 |
| Frontend.NoDisplayIsAKey | index.py:173 | no shown name equals a lower-case key with a letter |
| Frontend.DisplayNormalizes | index.py:173 | a shown name normalises back to its key |
| Frontend.ShownKeysNotRewritten | index.py:171-174 | see Findings 3 |
| Frontend.AddNewDiseaseRoute | index.py:156-199 | an existing disease gives 409 with no writes; otherwise 201 with one append to each file, in order |
| Frontend.KeysIdempotent | index.py:162 | normalising already normalised symptoms again changes nothing |
| Frontend.RouteAgreesWithEngine | index.py:158-194 | the handler answers as the engine does, and writes what it writes except for the vocabulary, where only keys not yet known are written |
| CsvCompiler.Clean | csv-to-clp/index1.py:94 | the kept cells are non-empty and stripped, and are never more than the row's cells |
| CsvCompiler.CleanMembers | csv-to-clp/index1.py:94 | cleaning keeps exactly the stripped non-blank cells |
| CsvCompiler.SymptomKeys | csv-to-clp/index1.py:104 | no symptom key holds a space |
| CsvCompiler.CleanCellsKept | csv-to-clp/index1.py:104 | on cleaned cells nothing is dropped and no key is empty |
| CsvCompiler.LineDisease | csv-to-clp/index1.py:101-110 | at most four symptoms per disease |
| CsvCompiler.RowDiseaseShape | csv-to-clp/index1.py:94-110 | a row is skipped exactly when it has at most one non-blank cell. Otherwise: the name is the first cell; the key is the name with `_` for spaces; the symptoms are the next at most four cells with spaces removed |
| CsvCompiler.DiseasesMembers | csv-to-clp/index1.py:92-131 | every row that yields a disease contributes it, and nothing else is listed |
| CsvCompiler.DiseasesSnoc | csv-to-clp/index1.py:92-131 | rows are processed in order |
| CsvCompiler.Diseases | csv-to-clp/index1.py:92-110 | the diseases of the rows, never more than the rows; the rows are taken in order by CsvCompiler.DiseasesSnoc |
| CsvCompiler.Fragments | csv-to-clp/index1.py:113-128 | one fragment per disease, in order; what they parse to is CsvCompiler.FragmentsParse |
| CsvCompiler.Assign | csv-to-clp/index1.py:116-128 | reference meaning of the appended fragments: the dictionary with each disease's key set to its symptoms, later rows winning |
| CsvCompiler.FragmentsParse | csv-to-clp/index1.py:86-131 | appending the fragments of readable rows to a well-delimited rule file parses to that reference meaning |
| CsvCompiler.NoteHasNoParen | csv-to-clp/index1.py:52-56 | the header note opens no parenthesis, so the rule reader skips it |
| CsvCompiler.NewRuleFileParse | csv-to-clp/index1.py:74-89 | a rule file the compiler creates reads back as exactly the rows' diseases |
| CsvCompiler.Known | csv-to-clp/index1.py:63-68 | the entries read from the vocabulary are non-empty and hold no separator |
| CsvCompiler.GatheredStep | csv-to-clp/index1.py:133-135 | a disease adds its symptoms to the gathered set |
| CsvCompiler.GatheredWitness | csv-to-clp/index1.py:133-135 | every gathered symptom is some disease's symptom |
| CsvCompiler.VocabularyRereads | csv-to-clp/index1.py:138-142 | the vocabulary written sorted and joined by `",\n"` re-reads as the same entries |
| CsvCompiler.NoEmptySymptom | csv-to-clp/index1.py:104 | no row contributes an empty symptom |
| CsvCompiler.ConvertCsvToClp | csv-to-clp/index1.py:41-156 | an empty CSV is an error. Otherwise: the old rules, or the note for a new file, are followed by one fragment per yielding row; the count is those rows; the vocabulary size is the union of old and new entries; an empty union gives an empty vocabulary, and otherwise the vocabulary is the join of its pieces, strictly sorted, one per entry of the union; the preview is drawn from that union |
| CsvCompiler.WriteVocabulary | csv-to-clp/index1.py:138-149 | the vocabulary text re-reads as the set and is sorted; an empty set gives the empty text, and otherwise the text is the join of its pieces, which are exactly the entries (as many as the set holds). The preview holds the `min(10, size)` smallest entries, in order |
| CsvCompiler.VocabularyTextUnique | csv-to-clp/index1.py:141-142 | those clauses leave one possible text: the entries of the set, sorted, joined by the separator |
| CsvCompiler.WriteDiseases | csv-to-clp/index1.py:92-135 | the loop appends every fragment, counts every disease, and gathers every symptom |
| CsvCompiler.PreviewIsSmallest | csv-to-clp/index1.py:148 | a prefix of a sorted list holds its smallest elements, sorted |
| Feedback.Key | csv-to-clp/index1.py:185 | the rule name has underscores for spaces and the same length |
| Feedback.SymptomsToAdd | csv-to-clp/index1.py:207 | one key per comma-separated piece, none holding a space or comma |
| Feedback.MissedRoundTrip | csv-to-clp/index1.py:207 | words sent joined by commas come back as the same keys |
| Feedback.MatchEnd | csv-to-clp/index1.py:197 | where the pattern matched at a position ends, as a backtracking matcher finds it |
| Feedback.MatchEndSpec | csv-to-clp/index1.py:197 | the matcher finds exactly the matches the pattern describes |
| Feedback.MatchesAt | csv-to-clp/index1.py:197 | the meaning of the pattern at a position: the header with the name, a run without `=`, then `=>`; corrected form: no word character right after the name |
| Feedback.FirstMatch | csv-to-clp/index1.py:198 | `re.search`: the leftmost match, with none before it, or `None` when there is none |
| Feedback.SearchAsWritten | csv-to-clp/index1.py:197-198 | see Findings 4 |
| Feedback.FindRule | csv-to-clp/index1.py:197-198 | the corrected search: the leftmost match of the rule named exactly `name`, or `None` when there is none |
| Feedback.Spliced | csv-to-clp/index1.py:213-215 | the inserted text adds its length plus the newline and indentation |
| Feedback.SpliceExtendsRule | csv-to-clp/index1.py:213-215 | splicing atoms into a compiled rule gives the rule compiled with those symptoms appended |
| Feedback.ProcessFeedback | csv-to-clp/index1.py:166-235 | a satisfied or empty report changes nothing. A missing file is a server error. A reply of `Added` lists the keys and writes the file. Every other reply leaves the file unchanged |
| Feedback.NotFoundIff | csv-to-clp/index1.py:200-204 | 404 exactly when the pattern matches nowhere |
| Feedback.Edited | csv-to-clp/index1.py:218 | the edited file is longer |
| Feedback.FeedbackEdit | csv-to-clp/index1.py:196-222 | when found, the text before the match is kept, the match is spliced, and later copies are replaced |
| Feedback.EditedShape | csv-to-clp/index1.py:218 | `content.replace` of the leftmost match keeps the text before it |
| Feedback.RuleMatchedWhole | csv-to-clp/index1.py:197 | a compiled rule is matched from its header to its `=>` |
| Feedback.LeftmostMatch | csv-to-clp/index1.py:198 | a match with no earlier header for the name is the one found |
| Feedback.CompiledRuleFound | csv-to-clp/index1.py:197-198 | the corrected search finds a compiled rule when no header for the disease precedes it |
| Feedback.FeedbackExtendsRule | csv-to-clp/index1.py:177-222 | feedback on a compiled rule gives the rule compiled with the missed symptoms appended |
| Feedback.ExactMatchNamesRule | csv-to-clp/index1.py:197 | every match of the corrected pattern is a rule the rule reader names exactly `name` |
| Feedback.AsWrittenEditsLongerName | csv-to-clp/index1.py:197 | see Findings 4 |
| Feedback.AsWrittenEditsFluShot | csv-to-clp/index1.py:197 | see Findings 4 |

## Left out

- File I/O, CLIPS, Flask, HTTP and CORS are not modelled:
  - file contents are strings, and a missing file is `None`;
  - the CLIPS `Environment` (`load`, `reset`, `eval`, `run`, `facts`) is a foreign engine. Its fact strings are parameters of `Facts`, and `load_environment` reloads are side effects;
  - Flask routing, `render_template`, redirects, CORS, the upload routes and `routes.py`/`app.py` are HTTP plumbing;
  - the `addNewSymptom` route (index.py:143-153) only normalises its two form fields before calling `add_new_symptom`.
- Debug `print` and `logging` are not modelled. They only print.
- Concurrency is not modelled, because the source has no locking.
- Floating point: a percentage is an exact rational (`real`). Python's float rounding of `matched / total * 100` is not modelled, so ties compare exactly.
- Python `re`: each pattern is modelled as a hand-written scanner over ASCII, with `\w` meaning `[A-Za-z0-9_]`.
  - The disease name in the feedback pattern is taken literally. Names holding regex metacharacters are not modelled.
  - In that pattern, `\s*` followed by `[^=]*` accepts the same texts as `[^=]*` alone, so only the latter is modelled.
- CSV quoting: rows are taken as already split into cells.
- Unicode: case mapping and whitespace are ASCII, and `\r\n` newline translation is not modelled.
- The exception handlers that answer 500 with `str(e)` are not modelled. This covers:
  - a write failure;
  - a `None` disease name in `process_feedback`;
  - a missing key in a request body.
  Modelled instead: the compiler's empty-CSV error, and the feedback endpoint's missing rule file.
- Feedback.ProcessFeedback: the success message `Added n symptoms to …` is not modelled. The reply carries the added keys.
- Feedback.ProcessFeedback: its contract does not restate what is found and how the file is edited. `FeedbackEdit`, `NotFoundIff` and `FeedbackExtendsRule` state that about it.
- CsvCompiler.ConvertCsvToClp: the sortedness and least-elements property of the preview is stated on `WriteVocabulary`, which it calls, not repeated on it; the vocabulary text's order and join form are repeated.
- The compiler does not lowercase names or symptoms. The model follows the code here: symptoms keep their case, with spaces removed.
- `get_known_symptoms` (disease_diagnosis.py:58-61) returns `getSymptomList()` unchanged. It is `Engine.SymptomList` with blank lines dropped, so no separate member exists.
- `getSymptoms` (index.py:46-55, disease_diagnosis.py:41-50) is `Facts.ExtractNames` with the marker `has_symptom`.
- Frontend.AddNewSymptom and Frontend.AddNewDiseaseRoute use the corrected vocabulary step and comparison (Findings 1-3). The steps as written are separate members.
- LineEdit.MentioningArrowLineEdited: the unguarded double insertion is stated only for a line that both mentions the rule and holds `=>`. The usual layout has the mention on the header line and `=>` later. For that layout, no lemma about two successive calls is stated.

## Findings

| source | as written | input that shows it | evidently intended | confidence | as-written member | corrected member |
|---|---|---|---|---|---|---|
| index.py:67-73 | the symptom is appended as `symptom\n` to whatever the file ends with, and the dedupe compares whole stripped lines | a vocabulary `fever` with no final line break, as the CSV compiler writes it, and the symptom `cough`: the result is `fevercough\n`, and a second call appends `cough\n` again | the symptom lands on its own line, and a second call changes nothing | high (not executed) | Frontend.AsWrittenNotIdempotent | Frontend.AddIdempotent |
| disease_diagnosis.py:67-72 | the dedupe compares with the stripped line, but every entry the engine writes, and every one the compiler writes except its last, ends in `,` | a vocabulary `cough,\n` and the symptom `cough`: `cough\n` is appended | an existing `key,` entry counts as present | medium (not executed) | Frontend.AsWrittenMissesCommaEntry | Frontend.RecognisesCommaEntry |
| index.py:173 | normalised keys are compared with the title-cased shown names from `getSymptoms` | the key `cough` against the shown `Cough`: the entry is written again | a key already among the asserted symptoms is not written again | medium (not executed) | Frontend.AsWrittenWritesShownKeys | Frontend.ShownKeysNotRewritten |
| csv-to-clp/index1.py:197 | nothing after the name in `defrule is_it_{name}` requires the name to end | feedback for `flu` on a file holding the compiled rule for `flu_shot`: the `flu_shot` rule gains the symptoms | only the rule named exactly `is_it_{name}` is edited | high (not executed) | Feedback.AsWrittenEditsFluShot | Feedback.ExactMatchNamesRule |

=== FILE: csv_compiler.dfy ===
/** The batch CSV-to-rule compiler (`convert_csv_to_clp`): every data row of a
    disease/symptom table becomes one two-block rule fragment appended to the
    rule file, and the vocabulary file is rewritten as the sorted union of the
    entries it held and every symptom emitted. The CSV reader's quoting is not
    modelled: rows arrive already split into cells, the first being the header. */
module CsvCompiler {
  import opened Wrappers
  import opened Strings
  import opened Rules
  import RoundTrip
  import Order

  const Dashes: string := "---------------------------------------"
  const Ruler: string := "; " + Dashes + Dashes + "\n"
  const Made: string := "; this file is generated using Python\n"
  const Site: string := "https://www.kaggle.com/itachi9604/"
  const Dataset: string := "disease-symptom-description-dataset\n"
  const Source: string := "; dataset: " + Site + Dataset

  /** The comment block a rule file the compiler creates starts with. */
  const Note: string := Ruler + Made + Source + Ruler

  /** What `str(e)` of the exhausted reader gives, wrapped by the handler. */
  const EmptyCsvMessage: string := "Error converting CSV to CLP: "

  /** Vocabulary entries are separated, not terminated, by this. */
  const EntrySep: string := ",\n"

  /** Only the first four symptom cells of a row are read. */
  const MaxSymptoms: nat := 4

  /** The preview holds at most this many symptoms. */
  const PreviewSize: nat := 10

  function Min(a: nat, b: nat): nat {
    if a <= b then a else b
  }

  predicate Blank(cell: string) {
    Strip(cell) == ""
  }

  /** A cell as `Clean` leaves it: non-empty, with no whitespace at either end. */
  predicate CleanCell(c: string) {
    c != "" && Strip(c) == c
  }

  /** The cells of a row, stripped, blank ones dropped, in order. */
  function Clean(row: seq<string>): (line: seq<string>)
    ensures |line| <= |row|
    ensures forall i | 0 <= i < |line| :: CleanCell(line[i])
  {
    if |row| == 0 then []
    else if Blank(row[0]) then Clean(row[1..])
    else
      var x := Strip(row[0]);
      StripNoop(x);
      [x] + Clean(row[1..])
  }

  /** Cleaning keeps exactly the stripped non-blank cells. */
  lemma {:induction false} CleanMembers(row: seq<string>)
    ensures forall c | c in row && !Blank(c) :: Strip(c) in Clean(row)
    ensures forall x | x in Clean(row) :: exists c | c in row :: !Blank(c) && x == Strip(c)
  {
    CleanKeepsCells(row);
    CleanOnlyCells(row);
  }

  /** `Clean` handles the first cell and then the rest. */
  lemma CleanUnfold(row: seq<string>)
    requires |row| > 0
    ensures Clean(row) == (if Blank(row[0]) then [] else [Strip(row[0])]) + Clean(row[1..])
  {
    if Blank(row[0]) {
      assert [] + Clean(row[1..]) == Clean(row[1..]);
    }
  }

  /** Every non-blank cell shows up in `Clean`, stripped. */
  lemma {:induction false} CleanKeepsCells(row: seq<string>)
    ensures forall c | c in row && !Blank(c) :: Strip(c) in Clean(row)
  {
    if |row| > 0 {
      CleanKeepsCells(row[1..]);
      CleanUnfold(row);
      forall c | c in row && !Blank(c)
        ensures Strip(c) in Clean(row)
      {
        if c != row[0] {
          assert c in row[1..];
        }
      }
    }
  }

  /** Everything in `Clean` is some non-blank cell, stripped. */
  lemma {:induction false} CleanOnlyCells(row: seq<string>)
    ensures forall x | x in Clean(row) :: exists c | c in row :: !Blank(c) && x == Strip(c)
  {
    if |row| > 0 {
      CleanOnlyCells(row[1..]);
      CleanUnfold(row);
      forall x | x in Clean(row)
        ensures exists c | c in row :: !Blank(c) && x == Strip(c)
      {
        if x !in Clean(row[1..]) {
          assert row[0] in row && !Blank(row[0]) && x == Strip(row[0]);
        } else {
          var c :| c in row[1..] && !Blank(c) && x == Strip(c);
          assert c in row;
        }
      }
    }
  }

  /** `[s.replace(" ", "") for s in cells if s.strip()]`. */
  function SymptomKeys(cells: seq<string>): (ks: seq<string>)
    ensures |ks| <= |cells|
    ensures forall i | 0 <= i < |ks| :: ' ' !in ks[i]
  {
    if |cells| == 0 then []
    else if Blank(cells[0]) then SymptomKeys(cells[1..])
    else [RemoveChar(cells[0], ' ')] + SymptomKeys(cells[1..])
  }

  /** On cleaned cells the `strip()` filter drops nothing, and no symptom comes out empty. */
  lemma {:induction false} CleanCellsKept(cells: seq<string>)
    requires forall i | 0 <= i < |cells| :: CleanCell(cells[i])
    ensures |SymptomKeys(cells)| == |cells|
    ensures forall i | 0 <= i < |cells| :: SymptomKeys(cells)[i] == RemoveChar(cells[i], ' ')
    ensures forall i | 0 <= i < |cells| :: SymptomKeys(cells)[i] != ""
  {
    if |cells| > 0 {
      var c := cells[0];
      StrippedKeyNotEmpty(c);
      CleanCellsKept(cells[1..]);
      var ks := SymptomKeys(cells);
      assert ks == [RemoveChar(c, ' ')] + SymptomKeys(cells[1..]);
      forall i | 0 < i < |cells|
        ensures ks[i] == RemoveChar(cells[i], ' ') && ks[i] != ""
      {
        assert ks[i] == SymptomKeys(cells[1..])[i - 1];
        assert cells[1..][i - 1] == cells[i];
      }
    }
  }

  /** A stripped non-empty cell keeps its first character when spaces are removed. */
  lemma StrippedKeyNotEmpty(c: string)
    requires CleanCell(c)
    ensures RemoveChar(c, ' ') != ""
  {
    assert !IsSpace(c[0]);
    assert c[0] in RemoveChar(c, ' ');
  }

  /** One disease as a row describes it: the name as written, the rule key, the symptoms. */
  datatype Disease = Disease(name: string, key: string, symptoms: seq<string>)

  /** The disease a cleaned row names, or `None` when it has no symptom cell. */
  function LineDisease(line: seq<string>): (d: Option<Disease>)
    ensures d.Some? ==> |d.value.symptoms| <= MaxSymptoms
  {
    if |line| == 0 then None
    else
      var ks := SymptomKeys(line[1..Min(1 + MaxSymptoms, |line|)]);
      if |ks| == 0 then None
      else Some(Disease(line[0], ReplaceChar(line[0], ' ', '_'), ks))
  }

  /** `{name, nameWithUnderscore, symptoms}` of a data row, or `None` when the
      row is skipped. */
  function RowDisease(row: seq<string>): Option<Disease> {
    LineDisease(Clean(row))
  }

  /** On a cleaned row: skipped exactly when it has one cell or none; the
      name is the first cell, the key that name with spaces turned into
      underscores, and the symptoms the next at most four cells with all
      spaces removed, the `strip()` filter dropping none of them and none
      coming out empty. */
  lemma LineDiseaseShape(line: seq<string>)
    requires forall i | 0 <= i < |line| :: CleanCell(line[i])
    ensures LineDisease(line).None? <==> |line| <= 1
    ensures LineDisease(line).Some? ==> LineDisease(line).value.name == line[0]
    ensures LineDisease(line).Some? ==> LineDisease(line).value.key == ReplaceChar(line[0], ' ', '_')
    ensures LineDisease(line).Some? ==> |LineDisease(line).value.symptoms| + 1 == Min(1 + MaxSymptoms, |line|)
    ensures LineDisease(line).Some? ==> forall i | 0 <= i < |LineDisease(line).value.symptoms| ::
      LineDisease(line).value.symptoms[i] == RemoveChar(line[i + 1], ' ') && LineDisease(line).value.symptoms[i] != ""
  {
    if |line| > 0 {
      var cells := line[1..Min(1 + MaxSymptoms, |line|)];
      SymptomCells(line, cells);
      var ks := SymptomKeys(cells);
      assert LineDisease(line) == if |ks| == 0 then None else Some(Disease(line[0], ReplaceChar(line[0], ' ', '_'), ks));
    }
  }

  /** The symptom cells of a cleaned row all survive as keys, each the cell
      it comes from with its spaces removed. */
  lemma SymptomCells(line: seq<string>, cells: seq<string>)
    requires forall i | 0 <= i < |line| :: CleanCell(line[i])
    requires |line| > 0 && cells == line[1..Min(1 + MaxSymptoms, |line|)]
    ensures |SymptomKeys(cells)| == |cells| == Min(1 + MaxSymptoms, |line|) - 1
    ensures forall i | 0 <= i < |cells| ::
      SymptomKeys(cells)[i] == RemoveChar(line[i + 1], ' ') && SymptomKeys(cells)[i] != ""
  {
    var m := Min(1 + MaxSymptoms, |line|);
    SliceAt(line, 1, cells, m - 1);
    CleanCellsKept(cells);
  }

  /** The same for a raw row, through `Clean`. */
  lemma RowDiseaseShape(row: seq<string>)
    ensures RowDisease(row).None? <==> |Clean(row)| <= 1
    ensures RowDisease(row).Some? ==> RowDisease(row).value.name == Clean(row)[0]
    ensures RowDisease(row).Some? ==> RowDisease(row).value.key == ReplaceChar(Clean(row)[0], ' ', '_')
    ensures RowDisease(row).Some? ==> |RowDisease(row).value.symptoms| + 1 == Min(1 + MaxSymptoms, |Clean(row)|)
    ensures RowDisease(row).Some? ==> forall i | 0 <= i < |RowDisease(row).value.symptoms| ::
      RowDisease(row).value.symptoms[i] == RemoveChar(Clean(row)[i + 1], ' ') && RowDisease(row).value.symptoms[i] != ""
  {
    LineDiseaseShape(Clean(row));
  }

  /** The disease of each data row that yields one, in row order. */
  function Diseases(rows: seq<seq<string>>): (ds: seq<Disease>)
    ensures |ds| <= |rows|
  {
    if |rows| == 0 then []
    else Diseases(rows[..|rows| - 1]) + Listed(RowDisease(rows[|rows| - 1]))
  }

  function Listed(d: Option<Disease>): seq<Disease> {
    if d.Some? then [d.value] else []
  }

  lemma DiseasesSnoc(rows: seq<seq<string>>, row: seq<string>)
    ensures Diseases(rows + [row]) == Diseases(rows) + Listed(RowDisease(row))
  {
    assert (rows + [row])[..|rows|] == rows;
  }

  /** Every row that yields a disease contributes it, and nothing else is listed. */
  lemma {:induction false} DiseasesMembers(rows: seq<seq<string>>)
    ensures forall row | row in rows && RowDisease(row).Some? :: RowDisease(row).value in Diseases(rows)
    ensures forall d | d in Diseases(rows) :: exists row | row in rows :: RowDisease(row) == Some(d)
  {
    if |rows| > 0 {
      var init := rows[..|rows| - 1];
      var last := rows[|rows| - 1];
      DiseasesMembers(init);
      assert rows == init + [last];
      var tail := Listed(RowDisease(last));
      assert Diseases(rows) == Diseases(init) + tail;
      forall row | row in rows && RowDisease(row).Some?
        ensures RowDisease(row).value in Diseases(rows)
      {
        if row != last {
          assert row in init;
        }
      }
      forall d | d in Diseases(rows)
        ensures exists row | row in rows :: RowDisease(row) == Some(d)
      {
        if d in Diseases(init) {
          var row :| row in init && RowDisease(row) == Some(d);
          assert row in rows;
        } else {
          assert d in tail;
          assert last in rows;
        }
      }
    }
  }

  /** The text appended for one disease. */
  function Emitted(d: Disease): string {
    CsvFragment(d.name, d.key, d.symptoms)
  }

  function Fragments(ds: seq<Disease>): string {
    if |ds| == 0 then "" else Fragments(ds[..|ds| - 1]) + Emitted(ds[|ds| - 1])
  }

  /** The rule text before the first row: the old file, or the note for a new one. */
  function Start(rules: Option<string>): string {
    if rules.Some? then rules.value else Note
  }

  /** Reference definition of what the written rule file means: the dictionary
      `m` with each disease's key set, in order, to its symptom set. */
  function Assign(m: map<string, set<string>>, ds: seq<Disease>): (r: map<string, set<string>>)
    ensures r.Keys == m.Keys + set d | d in ds :: d.key
    ensures forall k | k in m && forall d | d in ds :: d.key != k :: r[k] == m[k]
  {
    if |ds| == 0 then m
    else
      var init := ds[..|ds| - 1];
      var last := ds[|ds| - 1];
      assert forall d | d in ds :: d in init || d == last;
      Assign(m, init)[last.key := Order.Elems(last.symptoms)]
  }

  /** The condition under which the parser reads a fragment back: a name
      without an opening parenthesis, and key and symptoms made of `\w`
      characters, the key not itself starting with `is_it_`. */
  predicate Readable(d: Disease) {
    '(' !in d.name && IsWord(d.key) && !("is_it_" <= d.key) && RoundTrip.AllWords(d.symptoms)
  }

  /** Appending the fragments of readable diseases to a closed rule file
      updates the parsed dictionary exactly as `Assign` says. */
  lemma {:induction false} FragmentsParse(prior: string, ds: seq<Disease>)
    requires RoundTrip.Closed(prior)
    requires forall i | 0 <= i < |ds| :: Readable(ds[i])
    ensures ToMap(Parse(prior + Fragments(ds))) == Assign(ToMap(Parse(prior)), ds)
    ensures RoundTrip.Closed(prior + Fragments(ds))
  {
    if |ds| == 0 {
      assert prior + Fragments(ds) == prior;
    } else {
      var init := ds[..|ds| - 1];
      var last := ds[|ds| - 1];
      FragmentsParse(prior, init);
      AppendAssoc(prior, Fragments(init), Emitted(last));
      RoundTrip.AppendCsvFragment(prior + Fragments(init), last.name, last.key, last.symptoms);
    }
  }

  lemma DashesHaveNoParen() ensures '(' !in Dashes { }
  lemma MadeHasNoParen() ensures '(' !in Made { }
  lemma SiteHasNoParen() ensures '(' !in Site { }
  lemma DatasetHasNoParen() ensures '(' !in Dataset { }

  lemma NoParenConcat(a: string, b: string)
    requires '(' !in a && '(' !in b
    ensures '(' !in a + b
  {
  }

  /** The note opens no parenthesis, so the rule reader skips it entirely. */
  lemma NoteHasNoParen()
    ensures '(' !in Note
  {
    DashesHaveNoParen();
    MadeHasNoParen();
    SiteHasNoParen();
    DatasetHasNoParen();
    NoParenConcat("; ", Dashes);
    NoParenConcat("; " + Dashes, Dashes);
    NoParenConcat("; " + Dashes + Dashes, "\n");
    NoParenConcat("; dataset: ", Site);
    NoParenConcat("; dataset: " + Site, Dataset);
    NoParenConcat(Ruler, Made);
    NoParenConcat(Ruler + Made, Source);
    NoParenConcat(Ruler + Made + Source, Ruler);
  }

  /** A rule file the compiler creates reads back as exactly the rows'
      diseases, a later row with the same key replacing an earlier one. */
  lemma NewRuleFileParse(ds: seq<Disease>)
    requires forall i | 0 <= i < |ds| :: Readable(ds[i])
    ensures ToMap(Parse(Start(None) + Fragments(ds))) == Assign(map[], ds)
  {
    NoteHasNoParen();
    RoundTrip.NoParenClosed(Note);
    assert Parse(Note) == [];
    FragmentsParse(Note, ds);
  }

  /** The vocabulary a file holds, as `convert_csv_to_clp` reads it: the
      pieces between separators, empty ones dropped. */
  function Known(vocabulary: Option<string>): (s: set<string>)
    ensures "" !in s
    ensures forall x | x in s :: !Contains(x, EntrySep)
  {
    if vocabulary.None? then {}
    else
      var parts := Split(vocabulary.value, EntrySep);
      SplitPiecesFree(vocabulary.value, EntrySep);
      set i | 0 <= i < |parts| && parts[i] != "" :: parts[i]
  }

  /** Every symptom of the given diseases. */
  function Gathered(ds: seq<Disease>): set<string> {
    if |ds| == 0 then {} else Gathered(ds[..|ds| - 1]) + Order.Elems(ds[|ds| - 1].symptoms)
  }

  lemma GatheredStep(ds: seq<Disease>, d: Disease)
    ensures Gathered(ds + [d]) == Gathered(ds) + Order.Elems(d.symptoms)
  {
    assert (ds + [d])[..|ds|] == ds;
  }

  /** A gathered symptom is some disease's symptom. */
  lemma {:induction false} GatheredWitness(ds: seq<Disease>, x: string) returns (i: nat, j: nat)
    requires x in Gathered(ds)
    ensures i < |ds| && j < |ds[i].symptoms| && ds[i].symptoms[j] == x
  {
    var n := |ds| - 1;
    if x in Order.Elems(ds[n].symptoms) {
      i := n;
      j :| 0 <= j < |ds[n].symptoms| && ds[n].symptoms[j] == x;
    } else {
      i, j := GatheredWitness(ds[..n], x);
    }
  }

  /** The vocabulary file written from a strictly sorted list of non-empty
      entries free of the separator reads back as that list, and as its set. */
  lemma VocabularyRereads(sorted: seq<string>)
    requires forall i | 0 <= i < |sorted| :: sorted[i] != "" && !Contains(sorted[i], EntrySep)
    ensures |sorted| > 0 ==> Split(Join(sorted, EntrySep), EntrySep) == sorted
    ensures Known(Some(Join(sorted, EntrySep))) == Order.Elems(sorted)
  {
    if |sorted| == 0 {
      assert !Contains("", EntrySep);
      assert Split("", EntrySep) == [""];
    } else {
      SplitJoin(sorted, EntrySep);
    }
  }

  /** No row contributes an empty symptom. */
  lemma NoEmptySymptom(rows: seq<seq<string>>)
    ensures "" !in Gathered(Diseases(rows))
  {
    var ds := Diseases(rows);
    DiseasesMembers(rows);
    forall x | x in Gathered(ds)
      ensures x != ""
    {
      var i, j := GatheredWitness(ds, x);
      assert ds[i] in ds;
      var row :| row in rows && RowDisease(row) == Some(ds[i]);
      RowDiseaseShape(row);
    }
  }

  /** `convert_csv_to_clp`'s return value. */
  datatype Report = Report(diseasesCount: nat, symptomsCount: nat, preview: seq<string>)

  /** The written files and the report, or the error an empty CSV raises. */
  datatype Conversion =
    | Failed(message: string)
    | Converted(rules: string, vocabulary: string, report: Report)

  /** No emitted symptom contains the vocabulary separator. */
  predicate SeparatorFree(ds: seq<Disease>) {
    forall x | x in Gathered(ds) :: !Contains(x, EntrySep)
  }

  /** Entries the vocabulary file can hold and give back unchanged. */
  predicate Storable(all: set<string>) {
    "" !in all && forall x | x in all :: !Contains(x, EntrySep)
  }

  /** `convert_csv_to_clp(csv, clp, symptoms)` on the files' contents, `None`
      for a file that does not exist yet. */
  method ConvertCsvToClp(rows: seq<seq<string>>, rules: Option<string>, vocabulary: Option<string>)
    returns (r: Conversion)
    ensures r.Failed? <==> |rows| == 0
    ensures r.Failed? ==> r.message == EmptyCsvMessage
    ensures r.Converted? ==> r.rules == Start(rules) + Fragments(Diseases(rows[1..]))
    ensures r.Converted? ==> r.report.diseasesCount == |Diseases(rows[1..])|
    ensures r.Converted? ==> r.report.symptomsCount == |Known(vocabulary) + Gathered(Diseases(rows[1..]))|
    ensures r.Converted? && SeparatorFree(Diseases(rows[1..])) ==>
      Known(Some(r.vocabulary)) == Known(vocabulary) + Gathered(Diseases(rows[1..]))
    ensures r.Converted? && |Known(vocabulary) + Gathered(Diseases(rows[1..]))| == 0 ==> r.vocabulary == ""
    ensures r.Converted? && SeparatorFree(Diseases(rows[1..])) && |Known(vocabulary) + Gathered(Diseases(rows[1..]))| > 0 ==>
      r.vocabulary == Join(Split(r.vocabulary, EntrySep), EntrySep) &&
      Order.StrictlySorted(Split(r.vocabulary, EntrySep)) &&
      |Split(r.vocabulary, EntrySep)| == |Known(vocabulary) + Gathered(Diseases(rows[1..]))|
    ensures r.Converted? ==> Order.Elems(r.report.preview) <= Known(vocabulary) + Gathered(Diseases(rows[1..]))
  {
    if |rows| == 0 {
      return Failed(EmptyCsvMessage);
    }
    var ds := Diseases(rows[1..]);
    var text, count, all := WriteDiseases(ds, Start(rules), Known(vocabulary));
    NoEmptySymptom(rows[1..]);
    var written, size, preview := WriteVocabulary(all);
    r := Converted(text, written, Report(count, size, preview));
  }

  /** The vocabulary rewrite and the symptom half of the report: the entries
      sorted and joined by the separator, how many there are, and the first
      ten of them. Storable entries read back from the written text as
      exactly the same set, in strictly increasing order; the preview is the
      smallest entries, in order. */
  method WriteVocabulary(all: set<string>) returns (text: string, size: nat, preview: seq<string>)
    ensures size == |all|
    ensures Storable(all) ==> Known(Some(text)) == all
    ensures Storable(all) && |text| > 0 ==> Order.StrictlySorted(Split(text, EntrySep))
    ensures |all| == 0 ==> text == ""
    ensures Storable(all) && |all| > 0 ==>
              text == Join(Split(text, EntrySep), EntrySep) &&
              |Split(text, EntrySep)| == |all| && Order.Elems(Split(text, EntrySep)) == all
    ensures Order.StrictlySorted(preview)
    ensures |preview| == Min(PreviewSize, size)
    ensures Order.Elems(preview) <= all
    ensures forall x, y | x in all && y in preview :: x in preview || Order.Less(y, x)
  {
    var sorted := Order.SortSet(all);
    if Storable(all) {
      forall i | 0 <= i < |sorted|
        ensures sorted[i] != "" && !Contains(sorted[i], EntrySep)
      {
        assert sorted[i] in Order.Elems(sorted);
      }
      VocabularyRereads(sorted);
    }
    var n := Min(PreviewSize, |sorted|);
    PreviewIsSmallest(sorted, n);
    text, size, preview := Join(sorted, EntrySep), |all|, sorted[..n];
  }

  /** The clauses `WriteVocabulary` states of a non-empty text determine it:
      two texts that are the join of their pieces, with the pieces the set
      in strictly increasing order, are the same text. */
  lemma VocabularyTextUnique(all: set<string>, t1: string, t2: string)
    requires t1 == Join(Split(t1, EntrySep), EntrySep) && t2 == Join(Split(t2, EntrySep), EntrySep)
    requires Order.StrictlySorted(Split(t1, EntrySep)) && Order.StrictlySorted(Split(t2, EntrySep))
    requires Order.Elems(Split(t1, EntrySep)) == all && Order.Elems(Split(t2, EntrySep)) == all
    ensures t1 == t2
  {
    Order.SortedUnique(Split(t1, EntrySep), Split(t2, EntrySep));
  }

  /** The text one row contributes. */
  function Piece(d: Option<Disease>): string {
    if d.Some? then Emitted(d.value) else ""
  }

  function SymptomSet(d: Option<Disease>): set<string> {
    if d.Some? then Order.Elems(d.value.symptoms) else {}
  }

  lemma FragmentsStep(ds: seq<Disease>, d: Option<Disease>)
    ensures Fragments(ds + Listed(d)) == Fragments(ds) + Piece(d)
  {
    if d.Some? {
      assert (ds + [d.value])[..|ds|] == ds;
    } else {
      assert ds + Listed(d) == ds;
    }
  }

  lemma GatheredOptStep(ds: seq<Disease>, d: Option<Disease>)
    ensures Gathered(ds + Listed(d)) == Gathered(ds) + SymptomSet(d)
  {
    if d.Some? {
      GatheredStep(ds, d.value);
    } else {
      assert ds + Listed(d) == ds;
    }
  }

  lemma UnionAssoc(a: set<string>, b: set<string>, c: set<string>)
    ensures a + b + c == a + (b + c)
  {
  }

  lemma PrefixStep(ds: seq<Disease>, i: nat)
    requires i < |ds|
    ensures Fragments(ds[..i + 1]) == Fragments(ds[..i]) + Emitted(ds[i])
    ensures Gathered(ds[..i + 1]) == Gathered(ds[..i]) + Order.Elems(ds[i].symptoms)
  {
    assert ds[..i + 1] == ds[..i] + [ds[i]];
    FragmentsStep(ds[..i], Some(ds[i]));
    GatheredStep(ds[..i], ds[i]);
  }

  /** The writing loop over the diseases the rows yield: the rule text grows
      by each disease's fragment, the count by one per disease, and the
      symptom set by its symptoms. */
  method WriteDiseases(ds: seq<Disease>, start: string, known: set<string>)
    returns (text: string, count: nat, all: set<string>)
    ensures text == start + Fragments(ds)
    ensures count == |ds|
    ensures all == known + Gathered(ds)
  {
    text, count, all := start, 0, known;
    for i := 0 to |ds|
      invariant text == start + Fragments(ds[..i])
      invariant count == i
      invariant all == known + Gathered(ds[..i])
    {
      PrefixStep(ds, i);
      AppendAssoc(start, Fragments(ds[..i]), Emitted(ds[i]));
      UnionAssoc(known, Gathered(ds[..i]), Order.Elems(ds[i].symptoms));
      text := text + Emitted(ds[i]);
      count := count + 1;
      all := all + Order.Elems(ds[i].symptoms);
    }
    assert ds[..|ds|] == ds;
  }

  /** A prefix of a strictly sorted list is strictly sorted and below every
      element past it. */
  lemma PreviewIsSmallest(sorted: seq<string>, n: nat)
    requires Order.StrictlySorted(sorted) && n <= |sorted|
    ensures Order.StrictlySorted(sorted[..n])
    ensures forall x, y | x in sorted && y in sorted[..n] :: x in sorted[..n] || Order.Less(y, x)
  {
    forall x, y | x in sorted && y in sorted[..n]
      ensures x in sorted[..n] || Order.Less(y, x)
    {
      var a :| 0 <= a < |sorted| && sorted[a] == x;
      var b :| 0 <= b < n && sorted[..n][b] == y;
      if a < n {
        assert sorted[..n][a] == x;
      } else {
        assert sorted[b] == y;
      }
    }
  }
}

=== FILE: engine.dfy ===
/** The knowledge-base writer of the engine service (`DiseaseDiagnosis` in
    `disease_diagnosis/diagnosis_engine.py`): the duplicate check, the four
    appends that register a new disease, the vocabulary reader and the
    addition of one symptom to a rule. The data files are texts, and a call's
    effect on them is the list of appends it performs, in order. */
module Engine {
  import opened Wrappers
  import opened Strings
  import Names
  import opened Rules
  import RoundTrip
  import Info
  import LineEdit
  import Order

  /** The four data files: the symptom vocabulary, the description and
      precaution tables and the rule file. */
  datatype Artifact = Vocabulary | DescriptionTable | PrecautionTable | RuleFile

  datatype Files = Files(vocabulary: string, descriptions: string, precautions: string, rules: string)

  function Content(files: Files, a: Artifact): string {
    match a
    case Vocabulary => files.vocabulary
    case DescriptionTable => files.descriptions
    case PrecautionTable => files.precautions
    case RuleFile => files.rules
  }

  /** One `open(path, "a").write(text)`. */
  datatype Append = Append(target: Artifact, text: string)

  /** The texts among `writes` aimed at `a`, in order. */
  function Texts(writes: seq<Append>, a: Artifact): string {
    if |writes| == 0 then ""
    else (if writes[0].target == a then writes[0].text else "") + Texts(writes[1..], a)
  }

  function Put(files: Files, w: Append): Files {
    match w.target
    case Vocabulary => files.(vocabulary := files.vocabulary + w.text)
    case DescriptionTable => files.(descriptions := files.descriptions + w.text)
    case PrecautionTable => files.(precautions := files.precautions + w.text)
    case RuleFile => files.(rules := files.rules + w.text)
  }

  /** Performing the appends one after another: every file ends up extended by
      exactly the texts aimed at it, in the order they were written, and a file
      no append aims at is left as it was. */
  function Apply(files: Files, writes: seq<Append>): (r: Files)
    ensures forall a :: Content(r, a) == Content(files, a) + Texts(writes, a)
    decreases |writes|
  {
    if |writes| == 0 then files
    else
      var r := Apply(Put(files, writes[0]), writes[1..]);
      assert forall a :: Content(r, a) == Content(files, a) + Texts(writes, a) by {
        forall a ensures Content(r, a) == Content(files, a) + Texts(writes, a) {
          var t := if writes[0].target == a then writes[0].text else "";
          assert Content(Put(files, writes[0]), a) == Content(files, a) + t;
          AppendAssoc(Content(files, a), t, Texts(writes[1..], a));
        }
      }
      r
  }

  datatype Status = Success | Failure(message: string)

  /** What one call answers and which appends it performed, in order. */
  datatype Outcome = Outcome(status: Status, writes: seq<Append>)

  function Targets(writes: seq<Append>): (ts: seq<Artifact>)
    ensures |ts| == |writes|
    ensures forall i | 0 <= i < |writes| :: ts[i] == writes[i].target
  {
    seq(|writes|, i requires 0 <= i < |writes| => writes[i].target)
  }

  /** `any(pat in line for line in lines)`. */
  function AnyLineContains(lines: seq<string>, pat: string): (b: bool)
    ensures b <==> exists i | 0 <= i < |lines| :: Contains(lines[i], pat)
  {
    if |lines| == 0 then false
    else
      assert forall i | 1 <= i < |lines| :: lines[i] == lines[1..][i - 1];
      Contains(lines[0], pat) || AnyLineContains(lines[1..], pat)
  }

  function DefruleOpen(name: string): string {
    "(defrule " + name
  }

  /** `check_disease_exists`: some line of the rule file contains
      `(defrule <name>`. */
  function DiseaseExists(rules: string, name: string): (b: bool)
    ensures b <==> exists i | 0 <= i < |SplitLines(rules)| :: Contains(SplitLines(rules)[i], DefruleOpen(name))
  {
    AnyLineContains(SplitLines(rules), DefruleOpen(name))
  }

  lemma OccursInSuffix(a: string, b: string, pat: string, k: int)
    requires OccursAt(b, pat, k)
    ensures OccursAt(a + b, pat, |a| + k)
  {
    assert (a + b)[|a| + k..|a| + k + |pat|] == b[k..k + |pat|];
  }

  /** What one line contains, the whole text contains. */
  lemma {:induction false} ContainsInConcat(lines: seq<string>, i: nat, pat: string)
    requires i < |lines| && Contains(lines[i], pat)
    ensures Contains(Concat(lines), pat)
    decreases i
  {
    var k :| OccursAt(lines[i], pat, k);
    if i == 0 {
      OccursInPrefix(lines[0], Concat(lines[1..]), pat, k);
    } else {
      assert lines[1..][i - 1] == lines[i];
      ContainsInConcat(lines[1..], i - 1, pat);
      var k' :| OccursAt(Concat(lines[1..]), pat, k');
      OccursInSuffix(lines[0], Concat(lines[1..]), pat, k');
    }
  }

  /** An occurrence of a pattern without line breaks does not straddle a line break. */
  lemma NotAcrossBreak(s: string, pat: string, j: nat, k: nat)
    requires '\n' !in pat && j < |s| && s[j] == '\n' && OccursAt(s, pat, k)
    ensures k > j || k + |pat| <= j
  {
    forall m | 0 <= m <= j < m + |pat| ensures !OccursAt(s, pat, m) {
      if m + |pat| <= |s| {
        assert s[m..m + |pat|][j - m] == s[j];
      }
    }
  }

  /** An occurrence of a pattern without line breaks lies within one line:
      the one numbered `i`. */
  lemma {:induction false} ContainedInSomeLine(s: string, pat: string, k: nat) returns (i: nat)
    requires |pat| > 0 && '\n' !in pat && OccursAt(s, pat, k)
    ensures i < |SplitLines(s)| && Contains(SplitLines(s)[i], pat)
    decreases |s|
  {
    var idx := IndexOf(s, "\n");
    if idx.None? {
      SplitLinesNone(s);
      i := 0;
    } else {
      var j := idx.value;
      assert s[j..j + 1] == "\n";
      NotAcrossBreak(s, pat, j, k);
      if k + |pat| <= j {
        WithinFirstLine(s, pat, j, k);
        i := 0;
      } else {
        var rest := s[j + 1..];
        assert rest[k - j - 1..k - j - 1 + |pat|] == s[k..k + |pat|];
        var i' := ContainedInSomeLine(rest, pat, k - j - 1);
        WithinLaterLine(s, pat, j, i');
        i := i' + 1;
      }
    }
  }

  lemma WithinFirstLine(s: string, pat: string, j: nat, k: nat)
    requires IndexOf(s, "\n") == Some(j) && k + |pat| <= j && OccursAt(s, pat, k)
    ensures 0 < |SplitLines(s)| && Contains(SplitLines(s)[0], pat)
  {
    SplitLinesSome(s, j);
    assert s[..j + 1][k..k + |pat|] == s[k..k + |pat|];
    assert OccursAt(s[..j + 1], pat, k);
  }

  lemma WithinLaterLine(s: string, pat: string, j: nat, i: nat)
    requires IndexOf(s, "\n") == Some(j)
    requires j + 1 <= |s| && i < |SplitLines(s[j + 1..])| && Contains(SplitLines(s[j + 1..])[i], pat)
    ensures i + 1 < |SplitLines(s)| && Contains(SplitLines(s)[i + 1], pat)
  {
    SplitLinesSome(s, j);
  }

  /** The line-by-line duplicate check finds exactly what a search of the whole
      rule text finds, as long as the name holds no line break. */
  lemma ExistsIffTextContains(rules: string, name: string)
    requires '\n' !in name
    ensures DiseaseExists(rules, name) <==> Contains(rules, DefruleOpen(name))
  {
    var pat := DefruleOpen(name);
    if DiseaseExists(rules, name) {
      var i :| 0 <= i < |SplitLines(rules)| && Contains(SplitLines(rules)[i], pat);
      ContainsInConcat(SplitLines(rules), i, pat);
    }
    if Contains(rules, pat) {
      var k :| OccursAt(rules, pat, k);
      assert '\n' !in pat by {
        assert pat == "(defrule " + name;
      }
      var i := ContainedInSomeLine(rules, pat, k);
    }
  }

  /** The symptom keys the writers use: `strip → space→_ → lower`. */
  function Keys(symptoms: seq<string>): (ks: seq<string>)
    ensures |ks| == |symptoms|
    ensures forall i | 0 <= i < |symptoms| :: ks[i] == Names.Normalize(symptoms[i])
  {
    seq(|symptoms|, i requires 0 <= i < |symptoms| => Names.Normalize(symptoms[i]))
  }

  /** One `key,` line per key. */
  function Entries(ks: seq<string>): string {
    if |ks| == 0 then "" else ks[0] + ",\n" + Entries(ks[1..])
  }

  function EntryLines(ks: seq<string>): (lines: seq<string>)
    ensures |lines| == |ks|
    ensures forall i | 0 <= i < |ks| :: lines[i] == ks[i] + ",\n"
  {
    seq(|ks|, i requires 0 <= i < |ks| => ks[i] + ",\n")
  }

  /** The vocabulary entries read back one per line, in the order written. */
  lemma {:induction false} EntriesSplit(ks: seq<string>)
    requires forall i | 0 <= i < |ks| :: '\n' !in ks[i]
    ensures SplitLines(Entries(ks)) == EntryLines(ks)
  {
    if |ks| > 0 {
      var head := ks[0] + ",\n";
      assert head == (ks[0] + ",") + "\n";
      SplitLinesSingle(ks[0] + ",");
      SplitLinesAppend(head, Entries(ks[1..]));
      EntriesSplit(ks[1..]);
      assert EntryLines(ks) == [head] + EntryLines(ks[1..]);
    }
  }

  /** The message of a rejected addition. */
  function ExistsMessage(name: string): string {
    "Disease '" + Names.Spaced(name) + "' already exists."
  }

  /** One append to each file, in the order vocabulary, description table,
      precaution table, rule file. */
  function FourAppends(texts: seq<string>): (ws: seq<Append>)
    requires |texts| == 4
    ensures Targets(ws) == [Vocabulary, DescriptionTable, PrecautionTable, RuleFile]
    ensures |ws| == 4 && forall i | 0 <= i < 4 :: ws[i].text == texts[i]
  {
    [Append(Vocabulary, texts[0]), Append(DescriptionTable, texts[1]),
     Append(PrecautionTable, texts[2]), Append(RuleFile, texts[3])]
  }

  /** `add_new_disease`: a name whose rule already exists is rejected with no
      file touched; otherwise the vocabulary, the description table, the
      precaution table and the rule file are appended to, in that order. */
  function AddNewDisease(files: Files, name: string, description: string,
                         precautions: seq<string>, symptoms: seq<string>): (o: Outcome)
    ensures o.status.Failure? <==> DiseaseExists(files.rules, name)
    ensures o.status.Failure? ==> o.writes == [] && Apply(files, o.writes) == files
    ensures o.status.Failure? ==> o.status.message == ExistsMessage(name)
    ensures o.status.Success? ==> Targets(o.writes) == [Vocabulary, DescriptionTable, PrecautionTable, RuleFile]
  {
    if DiseaseExists(files.rules, name) then Outcome(Failure(ExistsMessage(name)), [])
    else
      var ks := Keys(symptoms);
      Outcome(Success, FourAppends([Entries(ks), Info.DescriptionRecord(name, description),
                                    Info.PrecautionRecord(name, precautions), DiseaseBlocks(name, ks)]))
  }

  lemma TextsCons(w: Append, ws: seq<Append>, a: Artifact)
    ensures Texts([w] + ws, a) == (if w.target == a then w.text else "") + Texts(ws, a)
  {
    assert ([w] + ws)[1..] == ws;
  }

  /** Four appends to four different files: each file receives its one text. */
  lemma TextsOfFour(v: string, d: string, p: string, r: string)
    ensures var ws := [Append(Vocabulary, v), Append(DescriptionTable, d), Append(PrecautionTable, p), Append(RuleFile, r)];
            Texts(ws, Vocabulary) == v && Texts(ws, DescriptionTable) == d
            && Texts(ws, PrecautionTable) == p && Texts(ws, RuleFile) == r
  {
    var w3 := [Append(RuleFile, r)];
    var w2 := [Append(PrecautionTable, p)] + w3;
    var w1 := [Append(DescriptionTable, d)] + w2;
    var w0 := [Append(Vocabulary, v)] + w1;
    assert w0 == [Append(Vocabulary, v), Append(DescriptionTable, d), Append(PrecautionTable, p), Append(RuleFile, r)];
    forall a ensures Texts(w3, a) == (if a == RuleFile then r else "") {
      TextsCons(Append(RuleFile, r), [], a);
    }
    forall a ensures Texts(w2, a) == (if a == PrecautionTable then p else "") + Texts(w3, a) {
      TextsCons(Append(PrecautionTable, p), w3, a);
    }
    forall a ensures Texts(w1, a) == (if a == DescriptionTable then d else "") + Texts(w2, a) {
      TextsCons(Append(DescriptionTable, d), w2, a);
    }
    forall a ensures Texts(w0, a) == (if a == Vocabulary then v else "") + Texts(w1, a) {
      TextsCons(Append(Vocabulary, v), w1, a);
    }
  }

  /** The files after a successful addition. */
  lemma AddedFiles(files: Files, name: string, description: string, precautions: seq<string>, symptoms: seq<string>)
    requires !DiseaseExists(files.rules, name)
    ensures var after := Apply(files, AddNewDisease(files, name, description, precautions, symptoms).writes);
            after.vocabulary == files.vocabulary + Entries(Keys(symptoms))
            && after.descriptions == files.descriptions + Info.DescriptionRecord(name, description)
            && after.precautions == files.precautions + Info.PrecautionRecord(name, precautions)
            && after.rules == files.rules + DiseaseBlocks(name, Keys(symptoms))
  {
    var ws := AddNewDisease(files, name, description, precautions, symptoms).writes;
    TextsOfFour(Entries(Keys(symptoms)), Info.DescriptionRecord(name, description),
                Info.PrecautionRecord(name, precautions), DiseaseBlocks(name, Keys(symptoms)));
    var after := Apply(files, ws);
    assert Content(after, Vocabulary) == files.vocabulary + Texts(ws, Vocabulary);
    assert Content(after, DescriptionTable) == files.descriptions + Texts(ws, DescriptionTable);
    assert Content(after, PrecautionTable) == files.precautions + Texts(ws, PrecautionTable);
    assert Content(after, RuleFile) == files.rules + Texts(ws, RuleFile);
  }

  /** What follows the first line of a written fragment. */
  function FragmentTail(key: string, shown: string, body: string, trail: string): string {
    "  " + ("(disease_is " + key + ")\n  =>\n  ")
    + ("(printout t \"" + shown + "\" crlf)\n)\n\n")
    + (IsItHeader + key + body + Arrow)
    + "\n  " + "(assert " + ("(disease_is " + key + "))\n)\n") + trail
  }

  /** Every written fragment opens, after a blank line, with the line
      `(defrule <key>`. */
  lemma FragmentFirstLine(key: string, shown: string, body: string, trail: string)
    ensures Fragment(key, shown, body, trail) == "\n" + DefruleOpen(key) + "\n" + FragmentTail(key, shown, body, trail)
  {
    assert "\n  " == "\n" + "  ";
    FragmentRegroup("\n", "(defrule ", key, "\n  ", "\n", "  ",
      "(disease_is " + key + ")\n  =>\n  ", "(printout t \"" + shown + "\" crlf)\n)\n\n",
      IsItHeader + key + body + Arrow, "\n  ", "(assert ", "(disease_is " + key + "))\n)\n", trail);
  }

  lemma FragmentRegroup<T>(x: seq<T>, o: seq<T>, k: seq<T>, ns: seq<T>, n: seq<T>, s: seq<T>,
                           b: seq<T>, c: seq<T>, d: seq<T>, e: seq<T>, f: seq<T>, g: seq<T>, h: seq<T>)
    requires ns == n + s
    ensures x + (o + k + ns) + b + c + d + e + f + g + h == x + (o + k) + n + (s + b + c + d + e + f + g + h)
  {
  }

  /** Past any text, `"\n" + x + "\n" + y` with `x` free of line breaks has
      `x + "\n"` as its line right after the text's own lines. */
  lemma LineAfterBreak(a: string, x: string, y: string)
    requires '\n' !in x
    ensures var lines := SplitLines(a + ("\n" + x + "\n" + y));
            |SplitLines(a + "\n")| < |lines| && lines[|SplitLines(a + "\n")|] == x + "\n"
  {
    var head := a + "\n";
    assert a + ("\n" + x + "\n" + y) == head + (x + "\n" + y);
    SplitLinesAppend(head, x + "\n" + y);
    SplitLinesAppend(x + "\n", y);
    SplitLinesSingle(x);
  }

  /** Text ending in the blocks written for `name` has a line containing
      `(defrule <name>`. */
  lemma BlocksDeclareDisease(prior: string, name: string, ks: seq<string>)
    requires '\n' !in name
    ensures DiseaseExists(prior + DiseaseBlocks(name, ks), name)
  {
    var x := DefruleOpen(name);
    var body := "\n" + SymptomLines(ks) + "  ";
    var y := FragmentTail(name, Names.Spaced(name), body, "");
    FragmentFirstLine(name, Names.Spaced(name), body, "");
    assert '\n' !in x;
    LineAfterBreak(prior, x, y);
    var i := |SplitLines(prior + "\n")|;
    assert OccursAt(x + "\n", x, 0);
    assert Contains(SplitLines(prior + DiseaseBlocks(name, ks))[i], x);
  }

  /** Once added, a disease exists, so adding it again (with any description,
      precautions or symptoms) is rejected and writes nothing. */
  lemma AddedDiseaseExists(files: Files, name: string, description: string, precautions: seq<string>,
                           symptoms: seq<string>, description': string, precautions': seq<string>, symptoms': seq<string>)
    requires !DiseaseExists(files.rules, name) && '\n' !in name
    ensures var after := Apply(files, AddNewDisease(files, name, description, precautions, symptoms).writes);
            DiseaseExists(after.rules, name)
            && AddNewDisease(after, name, description', precautions', symptoms') == Outcome(Failure(ExistsMessage(name)), [])
  {
    AddedFiles(files, name, description, precautions, symptoms);
    BlocksDeclareDisease(files.rules, name, Keys(symptoms));
  }

  /** The rule file read back after an addition maps the new disease to the set
      of its symptom keys and every other disease as before. */
  lemma AddedDiseaseParses(files: Files, name: string, description: string, precautions: seq<string>, symptoms: seq<string>)
    requires !DiseaseExists(files.rules, name)
    requires RoundTrip.Closed(files.rules)
    requires IsWord(name) && !("is_it_" <= name) && RoundTrip.AllWords(Keys(symptoms))
    ensures var after := Apply(files, AddNewDisease(files, name, description, precautions, symptoms).writes);
            ToMap(Parse(after.rules)) == ToMap(Parse(files.rules))[name := Order.Elems(Keys(symptoms))]
  {
    AddedFiles(files, name, description, precautions, symptoms);
    RoundTrip.AppendDiseaseBlocks(files.rules, name, Keys(symptoms));
  }

  /** The description table read back after an addition gives the new disease
      its description (without double quotes) and every other key as before. */
  lemma AddedDiseaseDescribed(files: Files, name: string, description: string, precautions: seq<string>, symptoms: seq<string>)
    requires !DiseaseExists(files.rules, name)
    requires files.descriptions == "" || files.descriptions[|files.descriptions| - 1] == '\n'
    requires Info.KeyLike(name) && '\n' !in description
    requires description == "" || !IsSpace(description[|description| - 1])
    ensures var after := Apply(files, AddNewDisease(files, name, description, precautions, symptoms).writes);
            Info.Descriptions(SplitLines(after.descriptions))
              == Info.Descriptions(SplitLines(files.descriptions))[name := RemoveChar(description, '"')]
  {
    AddedFiles(files, name, description, precautions, symptoms);
    Info.DescriptionRoundTrip(files.descriptions, name, description);
  }

  /** The precaution table read back after an addition gives the new disease
      its non-blank precautions, capitalised, and every other key as before. */
  lemma AddedDiseasePrecautions(files: Files, name: string, description: string, precautions: seq<string>, symptoms: seq<string>)
    requires !DiseaseExists(files.rules, name)
    requires files.precautions == "" || files.precautions[|files.precautions| - 1] == '\n'
    requires Info.KeyLike(name)
    requires forall i | 0 <= i < |precautions| :: Strip(precautions[i]) == precautions[i]
    requires forall i | 0 <= i < |precautions| :: ',' !in precautions[i] && '\n' !in precautions[i]
    ensures var after := Apply(files, AddNewDisease(files, name, description, precautions, symptoms).writes);
            Info.Precautions(SplitLines(after.precautions))
              == Info.Precautions(SplitLines(files.precautions))[name := Info.CleanPrecautions(precautions)]
  {
    AddedFiles(files, name, description, precautions, symptoms);
    Info.PrecautionRoundTrip(files.precautions, name, precautions);
  }

  /** The vocabulary after an addition keeps its lines and gains one `key,`
      line per symptom, in the order given. */
  lemma AddedSymptomEntries(files: Files, name: string, description: string, precautions: seq<string>, symptoms: seq<string>)
    requires !DiseaseExists(files.rules, name)
    requires files.vocabulary == "" || files.vocabulary[|files.vocabulary| - 1] == '\n'
    requires forall i | 0 <= i < |symptoms| :: '\n' !in symptoms[i]
    ensures var after := Apply(files, AddNewDisease(files, name, description, precautions, symptoms).writes);
            SplitLines(after.vocabulary) == SplitLines(files.vocabulary) + EntryLines(Keys(symptoms))
  {
    AddedFiles(files, name, description, precautions, symptoms);
    var ks := Keys(symptoms);
    forall i | 0 <= i < |ks| ensures '\n' !in ks[i] {
      NormalizeKeepsNoBreak(symptoms[i]);
    }
    EntriesSplit(ks);
    SplitLinesAppend(files.vocabulary, Entries(ks));
  }

  lemma NormalizeKeepsNoBreak(s: string)
    requires '\n' !in s
    ensures '\n' !in Names.Normalize(s)
  {
    var t := Strip(s);
    var k := Names.Normalize(s);
    assert k == Lower(ReplaceChar(t, ' ', '_'));
    forall i | 0 <= i < |k| ensures k[i] != '\n' {
      assert t[i] in t;
      StripChars(s, t[i]);
    }
  }

  /** The symptom list shown to users: each line of the vocabulary stripped,
      with `_` shown as a space and title case; the front ends drop blank lines
      (`dropBlank`), the engine keeps them. */
  function ShowLines(lines: seq<string>, dropBlank: bool): (r: seq<string>)
    ensures |r| <= |lines|
    ensures !dropBlank ==> |r| == |lines| && forall i | 0 <= i < |lines| :: r[i] == Names.Display(Strip(lines[i]))
    ensures (forall i | 0 <= i < |lines| :: Strip(lines[i]) != "") ==> |r| == |lines|
  {
    if |lines| == 0 then []
    else
      var rest := ShowLines(lines[1..], dropBlank);
      TailNonBlank(lines);
      if dropBlank && Strip(lines[0]) == "" then rest
      else
        ConsShown(lines, rest);
        [Names.Display(Strip(lines[0]))] + rest
  }

  /** When no line is blank, no line after the first is. */
  lemma TailNonBlank(lines: seq<string>)
    requires |lines| > 0
    ensures (forall i | 0 <= i < |lines| :: Strip(lines[i]) != "")
      ==> forall i | 0 <= i < |lines[1..]| :: Strip(lines[1..][i]) != ""
  {
    var t := lines[1..];
    if forall i | 0 <= i < |lines| :: Strip(lines[i]) != "" {
      forall i | 0 <= i < |t| ensures Strip(t[i]) != "" {
        assert t[i] == lines[i + 1];
      }
    }
  }

  /** The first line shown in front of the others shown is every line shown. */
  lemma ConsShown(lines: seq<string>, rest: seq<string>)
    requires |lines| > 0
    ensures (|rest| == |lines| - 1 && forall i | 0 <= i < |rest| :: rest[i] == Names.Display(Strip(lines[1..][i])))
      ==> forall i | 0 <= i < |lines| :: ([Names.Display(Strip(lines[0]))] + rest)[i] == Names.Display(Strip(lines[i]))
  {
    var t, r := lines[1..], [Names.Display(Strip(lines[0]))] + rest;
    if |rest| == |lines| - 1 && forall i | 0 <= i < |rest| :: rest[i] == Names.Display(Strip(t[i])) {
      forall i | 0 <= i < |lines| ensures r[i] == Names.Display(Strip(lines[i])) {
        if i > 0 { assert r[i] == rest[i - 1] && t[i - 1] == lines[i]; }
      }
    }
  }

  function SymptomList(vocabulary: string, dropBlank: bool): seq<string> {
    ShowLines(SplitLines(vocabulary), dropBlank)
  }

  /** One line: a blank line is listed by the engine as an empty name and dropped
      by the front ends; any other line is listed as its stripped display form. */
  lemma ShowLinesOne(x: string, dropBlank: bool)
    ensures ShowLines([x], dropBlank) == if dropBlank && Strip(x) == "" then [] else [Names.Display(Strip(x))]
  {
    assert [x][1..] == [];
  }

  /** Listing lines one after the other lists them one after the other. */
  lemma {:induction false} ShowLinesAppend(a: seq<string>, b: seq<string>, dropBlank: bool)
    ensures ShowLines(a + b, dropBlank) == ShowLines(a, dropBlank) + ShowLines(b, dropBlank)
  {
    if |a| > 0 {
      assert (a + b)[1..] == a[1..] + b;
      ShowLinesAppend(a[1..], b, dropBlank);
    } else {
      assert a + b == b;
    }
  }

  lemma ShowOneMore(lines: seq<string>, x: string, dropBlank: bool)
    requires |x| > 0 && !IsSpace(x[0]) && !IsSpace(x[|x| - 1])
    ensures ShowLines(lines + [x + "\n"], dropBlank) == ShowLines(lines, dropBlank) + [Names.Display(x)]
  {
    StripNewline(x);
    ShowLinesAppend(lines, [x + "\n"], dropBlank);
  }

  /** An entry written as `x` followed by a line break is listed, last, as the
      display form of `x`. */
  lemma SymptomListAppend(vocabulary: string, x: string, dropBlank: bool)
    requires vocabulary == "" || vocabulary[|vocabulary| - 1] == '\n'
    requires '\n' !in x && |x| > 0 && !IsSpace(x[0]) && !IsSpace(x[|x| - 1])
    ensures SymptomList(vocabulary + x + "\n", dropBlank) == SymptomList(vocabulary, dropBlank) + [Names.Display(x)]
  {
    SplitLinesAppendLine(vocabulary, x);
    ShowOneMore(SplitLines(vocabulary), x, dropBlank);
  }

  /** A `symptom,` line appended to a vocabulary that ends with a line break
      becomes its last line. */
  lemma EntryIsLastLine(vocabulary: string, symptom: string)
    requires vocabulary == "" || vocabulary[|vocabulary| - 1] == '\n'
    requires '\n' !in symptom
    ensures SplitLines(vocabulary + (symptom + ",\n")) == SplitLines(vocabulary) + [symptom + ",\n"]
  {
    var x := symptom + ",";
    assert '\n' !in x by {
      assert forall c | c in x :: c in symptom || c == ',';
    }
    SplitLinesAppendLine(vocabulary, x);
    assert "," + "\n" == ",\n";
    AppendAssoc(symptom, ",", "\n");
    AppendAssoc(vocabulary, x, "\n");
  }

  /** `add_new_symptom` of the engine: the vocabulary gains a `symptom,` line
      whether or not it already lists the symptom, and the rule file is edited
      line by line as `update_clips_file` does; the tables are untouched. */
  method AddNewSymptom(files: Files, ruleName: string, symptom: string) returns (r: Files)
    ensures r.vocabulary == files.vocabulary + (symptom + ",\n")
    ensures (files.vocabulary == "" || files.vocabulary[|files.vocabulary| - 1] == '\n') && '\n' !in symptom ==>
              SplitLines(r.vocabulary) == SplitLines(files.vocabulary) + [symptom + ",\n"]
    ensures r.rules == Concat(LineEdit.Expected(SplitLines(files.rules), ruleName, symptom))
    ensures (forall i | 0 <= i < |SplitLines(files.rules)| :: !LineEdit.Mentions(SplitLines(files.rules)[i], ruleName)) ==>
              r.rules == files.rules
    ensures r.descriptions == files.descriptions && r.precautions == files.precautions
  {
    var entry := symptom + ",\n";
    if (files.vocabulary == "" || files.vocabulary[|files.vocabulary| - 1] == '\n') && '\n' !in symptom {
      EntryIsLastLine(files.vocabulary, symptom);
    }
    var rules := LineEdit.UpdateClipsFile(files.rules, ruleName, symptom);
    r := files.(vocabulary := files.vocabulary + entry, rules := rules);
  }
}

=== FILE: facts.dfy ===
/** Reading names back out of the inference engine's facts: `get_diseases` of
    the engine and `getDiseases` / `getSymptoms` of both front ends. A fact
    prints as `(relation value)`; the value is the second space-separated
    token inside the outer parentheses, shown with spaces and title case. The
    engine itself is not modelled: its facts are an input. */
module Facts {
  import opened Wrappers
  import opened Strings
  import Names

  /** `s[1:-1]`: the text inside the outer characters, empty when there are fewer than two. */
  function Inner(s: string): (r: string)
    ensures |s| >= 2 ==> r == s[1..|s| - 1]
    ensures |s| < 2 ==> r == ""
  {
    if |s| >= 2 then s[1..|s| - 1] else ""
  }

  /** `Inner` undoes wrapping: the text between an opening and a closing
      character reads back unchanged, whatever it holds, and a text of two or
      more characters is its inside wrapped in its outer two. */
  lemma InnerUnwraps(open: char, t: string, close: char, s: string)
    ensures Inner([open] + t + [close]) == t
    ensures |s| >= 2 ==> s == [s[0]] + Inner(s) + [s[|s| - 1]]
  {
  }

  /** The name shown for one fact; `None` where `split(" ")[1]` raises. */
  function FactName(fact: string): (r: Option<string>)
    ensures r.None? <==> |Split(Inner(fact), " ")| < 2
    ensures r.Some? ==> r.value == Names.Display(Split(Inner(fact), " ")[1])
  {
    var parts := Split(Inner(fact), " ");
    if |parts| < 2 then None else Some(Names.Display(parts[1]))
  }

  /** The facts whose text contains `marker`, in order. */
  function Matching(facts: seq<string>, marker: string): (r: seq<string>)
    ensures |r| <= |facts|
    ensures forall x :: x in r <==> x in facts && Contains(x, marker)
  {
    if |facts| == 0 then []
    else (if Contains(facts[0], marker) then [facts[0]] else []) + Matching(facts[1..], marker)
  }

  /** One fact is kept exactly when it contains the marker. */
  lemma MatchingOne(fact: string, marker: string)
    ensures Matching([fact], marker) == if Contains(fact, marker) then [fact] else []
  {
    assert [fact][1..] == [];
  }

  /** Facts are filtered one at a time, in place: the matching facts of two lists
      laid end to end are the first list's, then the second's, so the order of
      the facts is kept. */
  lemma {:induction false} MatchingAppend(a: seq<string>, b: seq<string>, marker: string)
    ensures Matching(a + b, marker) == Matching(a, marker) + Matching(b, marker)
  {
    if |a| == 0 {
      assert a + b == b;
    } else {
      assert (a + b)[0] == a[0] && (a + b)[1..] == a[1..] + b;
      MatchingAppend(a[1..], b, marker);
    }
  }

  /** `getDiseases` (marker `disease_is`) and `getSymptoms` (marker
      `has_symptom`): the name of every matching fact, in order; `None` when a
      matching fact has no second token, which aborts the whole call. */
  function ExtractNames(facts: seq<string>, marker: string): (r: Option<seq<string>>)
    ensures r.None? <==> exists x | x in Matching(facts, marker) :: FactName(x).None?
    ensures r.Some? ==> |r.value| == |Matching(facts, marker)|
    ensures r.Some? ==> forall i | 0 <= i < |r.value| :: FactName(Matching(facts, marker)[i]) == Some(r.value[i])
  {
    if |facts| == 0 then Some([])
    else
      var rest := ExtractNames(facts[1..], marker);
      var m := Matching(facts[1..], marker);
      assert Matching(facts, marker) == (if Contains(facts[0], marker) then [facts[0]] else []) + m;
      if !Contains(facts[0], marker) then rest
      else match FactName(facts[0])
        case None =>
          NamelessIn(facts[0], m, facts[0]);
          None
        case Some(n) =>
          if rest.None? then
            var x :| x in m && FactName(x).None?;
            NamelessIn(facts[0], m, x);
            None
          else
            NamesCons(facts[0], m, n, rest.value);
            Some([n] + rest.value)
  }

  lemma NamelessIn(f: string, m: seq<string>, x: string)
    requires (x == f || x in m) && FactName(x).None?
    ensures exists y | y in [f] + m :: FactName(y).None?
  {
    assert x in [f] + m;
  }

  /** A named first fact in front of named others: the names line up. */
  lemma NamesCons(f: string, m: seq<string>, n: string, names: seq<string>)
    requires FactName(f) == Some(n)
    requires !exists x | x in m :: FactName(x).None?
    requires |names| == |m| && forall i | 0 <= i < |names| :: FactName(m[i]) == Some(names[i])
    ensures !exists x | x in [f] + m :: FactName(x).None?
    ensures forall i | 0 <= i < |[n] + names| :: FactName(([f] + m)[i]) == Some(([n] + names)[i])
  {
    LineUp(FactName, f, m, n, names);
  }

  lemma LineUp<T>(name: T -> Option<string>, f: T, m: seq<T>, n: string, names: seq<string>)
    requires name(f) == Some(n)
    requires !exists x | x in m :: name(x).None?
    requires |names| == |m| && forall i | 0 <= i < |names| :: name(m[i]) == Some(names[i])
    ensures !exists x | x in [f] + m :: name(x).None?
    ensures forall i | 0 <= i < |[n] + names| :: name(([f] + m)[i]) == Some(([n] + names)[i])
  {
    var fm, r := [f] + m, [n] + names;
    forall i | 1 <= i < |r| ensures name(fm[i]) == Some(r[i]) {
      assert fm[i] == m[i - 1] && r[i] == names[i - 1];
    }
  }

  /** The fact `(assert (relation value))` puts into the engine: the relation
      and the value, separated by a space, inside one pair of parentheses. */
  function AssertedFact(relation: string, value: string): (f: string)
    ensures |f| >= 2 && f[0] == '(' && f[|f| - 1] == ')'
    ensures Inner(f) == relation + " " + value
  {
    var f := "(" + relation + " " + value + ")";
    assert f[1..|f| - 1] == relation + " " + value;
    f
  }

  lemma NoSpaceNoContains(x: string)
    requires ' ' !in x
    ensures !Contains(x, " ")
  {
    forall k ensures !OccursAt(x, " ", k) {
      if 0 <= k && k + 1 <= |x| {
        assert x[k..k + 1][0] == x[k];
      }
    }
  }

  /** The name read back from an asserted fact is the value's display form. */
  lemma FactNameOfAsserted(relation: string, value: string)
    requires ' ' !in relation && ' ' !in value
    ensures FactName(AssertedFact(relation, value)) == Some(Names.Display(value))
  {
    var inner := relation + " " + value;
    assert Inner(AssertedFact(relation, value)) == inner;
    NoSpaceNoContains(relation);
    NoSpaceNoContains(value);
    assert Join([relation, value], " ") == inner by {
      assert Join([relation, value][1..], " ") == value;
    }
    SplitJoin([relation, value], " ");
  }

  lemma AssertedFactMatches(relation: string, value: string)
    ensures Contains(AssertedFact(relation, value), relation)
  {
    var f := AssertedFact(relation, value);
    assert f[1..1 + |relation|] == relation;
    assert OccursAt(f, relation, 1);
  }

  /** Facts asserted one per value (`add_symptom` asserts `has_symptom` facts)
      read back, in order, as the values' display names. */
  lemma {:induction false} AssertedReadBack(relation: string, ks: seq<string>, facts: seq<string>, names: seq<string>)
    requires ' ' !in relation
    requires |facts| == |ks| && |names| == |ks|
    requires forall i | 0 <= i < |ks| :: ' ' !in ks[i]
    requires forall i | 0 <= i < |ks| :: facts[i] == AssertedFact(relation, ks[i])
    requires forall i | 0 <= i < |ks| :: names[i] == Names.Display(ks[i])
    ensures ExtractNames(facts, relation) == Some(names)
  {
    if |ks| > 0 {
      AssertedTails(relation, ks, facts, names);
      AssertedReadBack(relation, ks[1..], facts[1..], names[1..]);
      FactNameOfAsserted(relation, ks[0]);
      AssertedFactMatches(relation, ks[0]);
      ReadBackCons(facts, relation, names[0], names[1..]);
      assert names == [names[0]] + names[1..];
    }
  }

  lemma AssertedTails(relation: string, ks: seq<string>, facts: seq<string>, names: seq<string>)
    requires |ks| > 0 && |facts| == |ks| && |names| == |ks|
    requires forall i | 0 <= i < |ks| :: ' ' !in ks[i]
    requires forall i | 0 <= i < |ks| :: facts[i] == AssertedFact(relation, ks[i])
    requires forall i | 0 <= i < |ks| :: names[i] == Names.Display(ks[i])
    ensures forall i | 0 <= i < |ks[1..]| :: ' ' !in ks[1..][i]
    ensures forall i | 0 <= i < |ks[1..]| :: facts[1..][i] == AssertedFact(relation, ks[1..][i])
    ensures forall i | 0 <= i < |ks[1..]| :: names[1..][i] == Names.Display(ks[1..][i])
  {
    var k, f, n := ks[1..], facts[1..], names[1..];
    forall i | 0 <= i < |k| ensures ' ' !in k[i] && f[i] == AssertedFact(relation, k[i]) && n[i] == Names.Display(k[i]) {
      assert k[i] == ks[i + 1] && f[i] == facts[i + 1] && n[i] == names[i + 1];
    }
  }

  /** A matching first fact with a name puts that name in front of the rest's. */
  lemma ReadBackCons(facts: seq<string>, marker: string, n: string, rest: seq<string>)
    requires |facts| > 0 && Contains(facts[0], marker) && FactName(facts[0]) == Some(n)
    requires ExtractNames(facts[1..], marker) == Some(rest)
    ensures ExtractNames(facts, marker) == Some([n] + rest)
  {
  }
}

=== FILE: feedback.dfy ===
/** The feedback endpoint of the CSV service: when a user reports symptoms the
    diagnosis missed, the rule `is_it_<disease>` in the rule file is found with a
    regular expression and the missed symptoms are spliced in as extra
    `(has_symptom k)` conditions just before its `=>`. */
module Feedback {
  import opened Wrappers
  import opened Strings
  import opened Rules
  import RoundTrip

  /** The JSON body of a feedback request. */
  datatype Request = Request(disease: string, isSatisfied: bool, missedSymptoms: string)

  datatype Reply =
    | Recorded
    | NotFound(message: string)
    | Added(symptoms: seq<string>)
    | ServerError

  /** The HTTP status each reply is sent with. */
  function Status(reply: Reply): int {
    match reply
    case Recorded => 200
    case NotFound(_) => 404
    case Added(_) => 200
    case ServerError => 500
  }

  /** The reply and the rule file afterwards (`None`: there is no rule file). */
  datatype Outcome = Outcome(reply: Reply, rules: Option<string>)

  /** The disease as it is spelled in rule names: spaces become underscores. */
  function Key(disease: string): (k: string)
    ensures |k| == |disease| && ' ' !in k
    ensures ' ' !in disease ==> k == disease
  {
    ReplaceChar(disease, ' ', '_')
  }

  /** The missed symptoms, comma separated, each stripped and with spaces turned
      into underscores. Empty pieces are kept. */
  function SymptomsToAdd(missed: string): (ks: seq<string>)
    ensures |ks| == |Split(missed, ",")| && |ks| >= 1
    ensures forall i | 0 <= i < |ks| :: ' ' !in ks[i] && ',' !in ks[i]
  {
    var pieces := Split(missed, ",");
    SplitPiecesFree(missed, ",");
    forall i | 0 <= i < |pieces| ensures ',' !in pieces[i] {
      CharNotContained(pieces[i], ',');
    }
    seq(|pieces|, i requires 0 <= i < |pieces| => Cell(pieces[i]))
  }

  /** One piece of the missed symptoms as a key. */
  function Cell(piece: string): (k: string)
    ensures ' ' !in k
    ensures ',' in k ==> ',' in piece
  {
    var t := Strip(piece);
    if ',' in t then
      StripChars(piece, ',');
      ReplaceChar(t, ' ', '_')
    else
      ReplaceChar(t, ' ', '_')
  }

  lemma CharNotContained(s: string, c: char)
    requires !Contains(s, [c])
    ensures c !in s
  {
    forall j | 0 <= j < |s| ensures s[j] != c {
      assert !OccursAt(s, [c], j);
      assert s[j..j + 1] == [s[j]];
    }
  }

  /** The `(has_symptom k)` conditions for `ks`, one per line. */
  function SymptomText(ks: seq<string>): string {
    Join(SymptomAtoms(ks), "\n  ")
  }

  // ---------------------------------------------------------------------------
  // The rule pattern
  // ---------------------------------------------------------------------------

  /** The language of the rule pattern anchored at `p` and ending at `e`: the
      header `(defrule is_it_` and the rule name, any text without `=`, then `=>`.
      With `exact`, the rule name must also end where the text's name ends. */
  predicate MatchesAt(content: string, name: string, p: nat, e: nat, exact: bool) {
    var h := p + |IsItHeader + name|;
    OccursAt(content, IsItHeader + name, p) && h + 2 <= e <= |content|
    && content[e - 2..e] == Arrow && '=' !in content[h..e - 2]
    && (exact ==> !IsWordChar(content[h]))
  }

  /** Where the pattern matched at `p` ends, found the way a backtracking matcher
      does: the run without `=` stops at the first `=`, which must start `=>`. */
  function MatchEnd(content: string, name: string, p: nat, exact: bool): (e: Option<nat>)
    ensures e.Some? ==> MatchesAt(content, name, p, e.value, exact)
  {
    var h := p + |IsItHeader + name|;
    if !OccursAt(content, IsItHeader + name, p) then None
    else if exact && h < |content| && IsWordChar(content[h]) then None
    else match IndexOf(content[h..], "=")
      case None => None
      case Some(k) =>
        if h + k + 1 < |content| && content[h + k + 1] == '>' then
          assert content[h + k] == content[h..][k];
          assert content[h..h + k] == content[h..][..k];
          assert forall c | c in content[h..][..k] :: c != '=' by {
            forall j | 0 <= j < k ensures content[h..][j] != '=' {
              assert !OccursAt(content[h..], "=", j);
            }
          }
          Some(h + k + 2)
        else None
  }

  /** The matcher finds exactly the matches the pattern describes, so a match at
      `p` is unique. */
  lemma MatchEndSpec(content: string, name: string, p: nat, e: nat, exact: bool)
    ensures MatchEnd(content, name, p, exact) == Some(e) <==> MatchesAt(content, name, p, e, exact)
  {
    if MatchesAt(content, name, p, e, exact) {
      var h := p + |IsItHeader + name|;
      var rest := content[h..];
      var k := e - 2 - h;
      assert content[e - 2] == content[e - 2..e][0] == '=';
      assert rest[k..k + 1] == [content[e - 2]];
      assert OccursAt(rest, "=", k);
      forall j | 0 <= j < k ensures !OccursAt(rest, "=", j) {
        assert rest[j..j + 1] == [content[h..e - 2][j]];
      }
      assert IndexOf(rest, "=") == Some(k);
    } else if MatchEnd(content, name, p, exact).Some? {
      var x := MatchEnd(content, name, p, exact).value;
      assert MatchesAt(content, name, p, x, exact);
      assert x != e;
    }
  }

  /** `re.search`: the leftmost position at or after `from` where the pattern
      matches, and where that match ends. */
  function FirstMatch(content: string, name: string, from: nat, exact: bool): (r: Option<(nat, nat)>)
    decreases |content| - from
    ensures r.Some? ==> from <= r.value.0 && MatchesAt(content, name, r.value.0, r.value.1, exact)
    ensures r.Some? ==> forall q | from <= q < r.value.0 :: MatchEnd(content, name, q, exact).None?
    ensures r.None? ==> forall q: nat | from <= q :: MatchEnd(content, name, q, exact).None?
  {
    if from >= |content| then None
    else match MatchEnd(content, name, from, exact)
      case Some(e) => Some((from, e))
      case None => FirstMatch(content, name, from + 1, exact)
  }

  /** The search the feedback endpoint performs: nothing after the rule name in
      the pattern, so it also matches rules whose name merely starts with it. */
  function SearchAsWritten(content: string, name: string): (r: Option<(nat, nat)>)
    ensures r.Some? ==> MatchesAt(content, name, r.value.0, r.value.1, false)
    ensures r.None? <==> forall p: nat, e: nat :: !MatchesAt(content, name, p, e, false)
  {
    var r := FirstMatch(content, name, 0, false);
    NoneMeansNoMatch(content, name, false, r);
    r
  }

  /** The search the endpoint evidently intends: the rule named exactly `name`. */
  function FindRule(content: string, name: string): (r: Option<(nat, nat)>)
    ensures r.Some? ==> MatchesAt(content, name, r.value.0, r.value.1, true)
    ensures r.Some? ==> forall q | 0 <= q < r.value.0 :: MatchEnd(content, name, q, true).None?
    ensures r.None? <==> forall p: nat, e: nat :: !MatchesAt(content, name, p, e, true)
  {
    var r := FirstMatch(content, name, 0, true);
    NoneMeansNoMatch(content, name, true, r);
    r
  }

  lemma NoneMeansNoMatch(content: string, name: string, exact: bool, r: Option<(nat, nat)>)
    requires r == FirstMatch(content, name, 0, exact)
    ensures r.None? <==> forall p: nat, e: nat :: !MatchesAt(content, name, p, e, exact)
  {
    forall p: nat, e: nat | MatchesAt(content, name, p, e, exact)
      ensures MatchEnd(content, name, p, exact).Some?
    {
      MatchEndSpec(content, name, p, e, exact);
    }
  }

  // ---------------------------------------------------------------------------
  // Splicing the symptoms in
  // ---------------------------------------------------------------------------

  /** The matched rule with `lines` inserted, after a newline and two spaces,
      right after its last `)`; at its very start when it has none. */
  function Spliced(rule: string, lines: string): (r: string)
    ensures |r| == |rule| + 2 + |lines| + 1
  {
    InsertAt(rule, RFind(rule, ')', |rule|) + 1, "\n  " + lines)
  }

  /** The `is_it_` rule the CSV compiler writes, from its header to its `=>`. */
  function CsvRule(key: string, ks: seq<string>): string {
    RuleAround(key, SymptomText(ks))
  }

  /** An `is_it_` rule whose conditions are `text`, laid out as the CSV compiler
      lays them out. */
  function RuleAround(key: string, text: string): string {
    IsItHeader + key + ("\n  " + text + "\n  ") + Arrow
  }

  /** The symptom atoms of two runs of keys are the atoms of each run. */
  lemma AtomsAppend(ks: seq<string>, more: seq<string>)
    ensures SymptomAtoms(ks + more) == SymptomAtoms(ks) + SymptomAtoms(more)
  {
  }

  /** Splicing symptoms into a compiled rule gives the rule compiled with the
      symptoms appended to its own. */
  lemma SpliceExtendsRule(key: string, ks: seq<string>, more: seq<string>)
    requires |ks| > 0 && |more| > 0
    ensures Spliced(CsvRule(key, ks), SymptomText(more)) == CsvRule(key, ks + more)
  {
    var atoms := SymptomAtoms(ks);
    forall i | 0 <= i < |atoms| ensures |atoms[i]| > 0 && atoms[i][|atoms[i]| - 1] == ')' {
      assert atoms[i] == "(has_symptom " + ks[i] + ")";
    }
    LastJoined(atoms);
    SpliceAround(key, SymptomText(ks), SymptomText(more));
    AtomsAppend(ks, more);
    JoinAppend(SymptomAtoms(ks), SymptomAtoms(more), "\n  ");
  }

  /** Lines spliced into a rule whose conditions end with `)` join its conditions. */
  lemma SpliceAround(key: string, text: string, lines: string)
    requires |text| > 0 && text[|text| - 1] == ')'
    ensures Spliced(RuleAround(key, text), lines) == RuleAround(key, text + "\n  " + lines)
  {
    var a, n := IsItHeader + key, "\n  ";
    var front := a + n + text;
    var back := n + Arrow;
    Regroup(a, n, text, Arrow);
    RegroupSpliced(a, n, text, lines, Arrow);
    SpliceAt(front, back, lines);
  }

  /** The rule text split where its conditions end. */
  lemma Regroup<T>(a: seq<T>, n: seq<T>, t: seq<T>, r: seq<T>)
    ensures a + (n + t + n) + r == (a + n + t) + (n + r)
  {
  }

  lemma RegroupSpliced<T>(a: seq<T>, n: seq<T>, t: seq<T>, l: seq<T>, r: seq<T>)
    ensures a + (n + (t + n + l) + n) + r == (a + n + t) + (n + l) + (n + r)
  {
  }

  /** Splicing into text whose last `)` ends `front`. */
  lemma SpliceAt(front: string, back: string, lines: string)
    requires |front| > 0 && front[|front| - 1] == ')' && ')' !in back
    ensures Spliced(front + back, lines) == front + ("\n  " + lines) + back
  {
    RFindLast(front, back, ')');
    InsertAtSlices(front + back, |front|, "\n  " + lines);
    assert (front + back)[..|front|] == front;
    assert (front + back)[|front|..] == back;
  }

  /** A join of symptom atoms ends with the last atom's `)`. */
  lemma {:induction false} LastJoined(atoms: seq<string>)
    requires |atoms| > 0 && forall i | 0 <= i < |atoms| :: |atoms[i]| > 0 && atoms[i][|atoms[i]| - 1] == ')'
    ensures |Join(atoms, "\n  ")| > 0 && Join(atoms, "\n  ")[|Join(atoms, "\n  ")| - 1] == ')'
    decreases |atoms|
  {
    if |atoms| > 1 {
      assert atoms == [atoms[0]] + atoms[1..];
      JoinCons(atoms[0], atoms[1..], "\n  ");
      LastJoined(atoms[1..]);
    }
  }

  // ---------------------------------------------------------------------------
  // The endpoint
  // ---------------------------------------------------------------------------

  /** A satisfied user, or one who names no missed symptom, is only thanked. */
  predicate NothingToAdd(req: Request) {
    req.isSatisfied || req.missedSymptoms == ""
  }

  /** The feedback endpoint on the rule file `rules`. `exact` chooses the rule
      pattern: `false` is the pattern as written, `true` the corrected one that
      demands the rule name end where `disease` ends. */
  function ProcessFeedback(req: Request, rules: Option<string>, exact: bool): (o: Outcome)
    ensures NothingToAdd(req) ==> o == Outcome(Recorded, rules)
    ensures o.reply.ServerError? <==> !NothingToAdd(req) && rules.None?
    ensures o.reply.NotFound? ==> o.reply.message == "Disease rule for " + req.disease + " not found"
    ensures o.reply.Added? ==> o.reply.symptoms == SymptomsToAdd(req.missedSymptoms)
    ensures o.reply.Added? ==> rules.Some? && o.rules.Some?
    ensures !o.reply.Added? ==> o.rules == rules
  {
    if NothingToAdd(req) then Outcome(Recorded, rules)
    else if rules.None? then Outcome(ServerError, rules)
    else
      var content := rules.value;
      match FirstMatch(content, Key(req.disease), 0, exact)
      case None => Outcome(NotFound("Disease rule for " + req.disease + " not found"), rules)
      case Some((p, e)) =>
        var added := SymptomsToAdd(req.missedSymptoms);
        Outcome(Added(added), Some(Edited(content, p, e, SymptomText(added))))
  }

  /** The rule file after the rule matched at `p..e` is given extra conditions
      `lines`: every copy of the matched text is replaced by the spliced one. */
  function Edited(content: string, p: nat, e: nat, lines: string): (t: string)
    requires p < e <= |content|
    ensures |t| > |content|
  {
    var group := content[p..e];
    assert OccursAt(content, group, p);
    ReplaceAll(content, group, Spliced(group, lines))
  }

  /** The rule is reported missing exactly when the pattern matches nowhere. */
  lemma NotFoundIff(req: Request, content: string, exact: bool)
    requires !NothingToAdd(req)
    ensures ProcessFeedback(req, Some(content), exact).reply.NotFound?
      <==> forall p: nat, e: nat :: !MatchesAt(content, Key(req.disease), p, e, exact)
  {
    NoneMeansNoMatch(content, Key(req.disease), exact, FirstMatch(content, Key(req.disease), 0, exact));
  }

  /** A slice of an occurrence of `g` is the same slice of `g`. */
  lemma SliceOfOccurrence(content: string, g: string, q: nat, i: nat, j: nat)
    requires OccursAt(content, g, q) && i <= j <= |g|
    ensures content[q + i..q + j] == g[i..j]
  {
    var w := content[q..q + |g|];
    assert w == g;
    assert forall k | 0 <= k < j - i :: content[q + i..q + j][k] == w[i..j][k];
  }

  /** An occurrence of a matched rule's text elsewhere is a match there too. */
  lemma GroupOccurrenceMatches(content: string, name: string, p: nat, e: nat, q: nat, exact: bool)
    requires MatchesAt(content, name, p, e, exact)
    ensures OccursAt(content, content[p..e], q) ==> MatchesAt(content, name, q, q + (e - p), exact)
  {
    if OccursAt(content, content[p..e], q) {
      CopyMatches(content, name, p, e, q, exact);
    }
  }

  lemma CopyMatches(content: string, name: string, p: nat, e: nat, q: nat, exact: bool)
    requires MatchesAt(content, name, p, e, exact)
    requires OccursAt(content, content[p..e], q)
    ensures MatchesAt(content, name, q, q + (e - p), exact)
  {
    var h := p + |IsItHeader + name|;
    var q2 := q + (e - p);
    var qh := q + |IsItHeader + name|;
    assert OccursAt(content, IsItHeader + name, q) && qh + 2 <= q2 <= |content| by {
      CopyHeader(content, name, p, e, q, exact);
    }
    assert content[q2 - 2..q2] == Arrow && '=' !in content[qh..q2 - 2] by {
      CopyBody(content, name, p, e, q, exact);
    }
    assert exact ==> !IsWordChar(content[qh]) by {
      CopyRange(content, content[p..e], p, q, h, h + 1, qh, qh + 1);
      assert content[qh] == content[qh..qh + 1][0];
      assert content[h] == content[h..h + 1][0];
    }
  }

  lemma CopyHeader(content: string, name: string, p: nat, e: nat, q: nat, exact: bool)
    requires MatchesAt(content, name, p, e, exact)
    requires OccursAt(content, content[p..e], q)
    ensures OccursAt(content, IsItHeader + name, q)
    ensures q + |IsItHeader + name| + 2 <= q + (e - p) <= |content|
  {
    var g := content[p..e];
    CopyRange(content, g, p, q, p, p + |IsItHeader + name|, q, q + |IsItHeader + name|);
  }

  lemma CopyBody(content: string, name: string, p: nat, e: nat, q: nat, exact: bool)
    requires MatchesAt(content, name, p, e, exact)
    requires OccursAt(content, content[p..e], q)
    ensures content[q + (e - p) - 2..q + (e - p)] == Arrow
    ensures '=' !in content[q + |IsItHeader + name|..q + (e - p) - 2]
  {
    var g := content[p..e];
    var h := p + |IsItHeader + name|;
    var q2 := q + (e - p);
    var qh := q + |IsItHeader + name|;
    CopyRange(content, g, p, q, h, e - 2, qh, q2 - 2);
    CopyRange(content, g, p, q, e - 2, e, q2 - 2, q2);
  }

  /** Two occurrences of the same text agree on every slice of it. */
  lemma CopyRange(content: string, g: string, p: nat, q: nat, a: nat, b: nat, c: nat, d: nat)
    requires OccursAt(content, g, p) && OccursAt(content, g, q)
    requires p <= a <= b <= p + |g| && c == q + (a - p) && d == q + (b - p)
    ensures content[c..d] == content[a..b]
  {
    SliceOfOccurrence(content, g, q, a - p, b - p);
    SliceOfOccurrence(content, g, p, a - p, b - p);
  }

  /** What the endpoint writes when it adds symptoms: the text before the first
      match unchanged, the matched rule with the symptoms spliced in, and every
      later copy of the matched text replaced as well. */
  lemma FeedbackEdit(req: Request, content: string, exact: bool) returns (p: nat, e: nat)
    requires !NothingToAdd(req) && FirstMatch(content, Key(req.disease), 0, exact).Some?
    ensures FirstMatch(content, Key(req.disease), 0, exact) == Some((p, e))
    ensures p < e <= |content| && MatchesAt(content, Key(req.disease), p, e, exact)
    ensures ProcessFeedback(req, Some(content), exact).reply == Added(SymptomsToAdd(req.missedSymptoms))
    ensures var lines := SymptomText(SymptomsToAdd(req.missedSymptoms));
      ProcessFeedback(req, Some(content), exact).rules
      == Some(content[..p] + Spliced(content[p..e], lines) + ReplaceAll(content[e..], content[p..e], Spliced(content[p..e], lines)))
  {
    var name := Key(req.disease);
    p, e := FirstMatch(content, name, 0, exact).value.0, FirstMatch(content, name, 0, exact).value.1;
    var lines := SymptomText(SymptomsToAdd(req.missedSymptoms));
    assert ProcessFeedback(req, Some(content), exact).rules == Some(Edited(content, p, e, lines));
    NoEarlierCopy(content, name, p, e, exact);
    EditedShape(content, p, e, lines);
  }

  /** Before the leftmost match there is no copy of the matched text. */
  lemma NoEarlierCopy(content: string, name: string, p: nat, e: nat, exact: bool)
    requires MatchesAt(content, name, p, e, exact)
    requires forall q | 0 <= q < p :: MatchEnd(content, name, q, exact).None?
    ensures forall q | 0 <= q < p :: !OccursAt(content, content[p..e], q)
  {
    forall q | 0 <= q < p
      ensures !OccursAt(content, content[p..e], q)
    {
      MatchEndSpec(content, name, q, q + (e - p), exact);
      GroupOccurrenceMatches(content, name, p, e, q, exact);
    }
  }

  /** With no copy of the matched text before it, the edit keeps the text before
      the match and splices the match itself. */
  lemma EditedShape(content: string, p: nat, e: nat, lines: string)
    requires p < e <= |content|
    requires forall q | 0 <= q < p :: !OccursAt(content, content[p..e], q)
    ensures Edited(content, p, e, lines)
      == content[..p] + Spliced(content[p..e], lines) + ReplaceAll(content[e..], content[p..e], Spliced(content[p..e], lines))
  {
    var rule := content[p..e];
    assert OccursAt(content, rule, p);
    ReplaceFirst(content, rule, Spliced(rule, lines), p);
  }

  // ---------------------------------------------------------------------------
  // Feedback on compiled rules
  // ---------------------------------------------------------------------------

  /** A compiled rule is matched by the corrected pattern from its header to its
      `=>`, wherever it stands. */
  lemma RuleMatchedWhole(pre: string, key: string, ks: seq<string>, post: string)
    requires IsWord(key) && RoundTrip.AllWords(ks)
    ensures MatchesAt(pre + CsvRule(key, ks) + post, key, |pre|, |pre| + |CsvRule(key, ks)|, true)
  {
    var text := SymptomText(ks);
    RoundTrip.AtomsNoArrow(ks);
    PaddedNoEquals(text);
    LaidOutMatches(pre + CsvRule(key, ks) + post, pre, key, "\n  " + text + "\n  ", post);
  }

  /** A compiled rule on its own is matched by the corrected pattern. */
  lemma RuleMatchedAlone(key: string, ks: seq<string>)
    requires IsWord(key) && RoundTrip.AllWords(ks)
    ensures MatchesAt(CsvRule(key, ks), key, 0, |CsvRule(key, ks)|, true)
  {
    var text := SymptomText(ks);
    RoundTrip.AtomsNoArrow(ks);
    PaddedNoEquals(text);
    var mid := "\n  " + text + "\n  ";
    assert CsvRule(key, ks) == "" + (IsItHeader + key + mid + Arrow) + "";
    LaidOutMatches(CsvRule(key, ks), "", key, mid, "");
  }

  lemma PaddedNoEquals(text: string)
    requires '=' !in text
    ensures var mid := "\n  " + text + "\n  "; |mid| > 0 && mid[0] == '\n' && '=' !in mid
  {
  }

  /** A rule laid out as header, name, text starting with a newline and free
      of `=`, then `=>`, is matched by the corrected pattern from end to end. */
  lemma LaidOutMatches(content: string, pre: string, key: string, mid: string, post: string)
    requires |mid| > 0 && mid[0] == '\n' && '=' !in mid
    requires content == pre + (IsItHeader + key + mid + Arrow) + post
    ensures MatchesAt(content, key, |pre|, |pre| + |IsItHeader + key + mid + Arrow|, true)
  {
    var head := IsItHeader + key;
    var rule := head + mid + Arrow;
    var p := |pre|;
    var h := p + |head|;
    var e := h + |mid| + 2;
    assert content[p..h] == head;
    assert content[h..e - 2] == mid;
    assert content[e - 2..e] == Arrow;
    assert content[h] == mid[0];
  }

  /** Feedback on a rule the CSV compiler wrote, with no other rule for the
      disease before it: the rule is rewritten as if the missed symptoms had
      been compiled after its own, and later copies of it likewise. */
  lemma FeedbackExtendsRule(req: Request, pre: string, ks: seq<string>, post: string)
    requires !NothingToAdd(req) && IsWord(Key(req.disease)) && RoundTrip.AllWords(ks) && |ks| > 0
    requires forall q | 0 <= q < |pre| :: !OccursAt(pre + CsvRule(Key(req.disease), ks) + post, IsItHeader + Key(req.disease), q)
    ensures var added := SymptomsToAdd(req.missedSymptoms);
      ProcessFeedback(req, Some(pre + CsvRule(Key(req.disease), ks) + post), true)
      == Outcome(Added(added), Some(pre + CsvRule(Key(req.disease), ks + added)
                                    + ReplaceAll(post, CsvRule(Key(req.disease), ks), CsvRule(Key(req.disease), ks + added))))
  {
    var key := Key(req.disease);
    var rule := CsvRule(key, ks);
    var content := pre + rule + post;
    var added := SymptomsToAdd(req.missedSymptoms);
    CompiledRuleFound(pre, key, ks, post);
    var p, e := FeedbackEdit(req, content, true);
    assert content[p..e] == rule && content[..p] == pre && content[e..] == post by {
      assert p == |pre| && e == |pre| + |rule|;
    }
    SpliceExtendsRule(key, ks, added);
  }

  /** The corrected search finds a compiled rule when no header for the disease
      comes before it. */
  lemma CompiledRuleFound(pre: string, key: string, ks: seq<string>, post: string)
    requires IsWord(key) && RoundTrip.AllWords(ks)
    requires forall q | 0 <= q < |pre| :: !OccursAt(pre + CsvRule(key, ks) + post, IsItHeader + key, q)
    ensures FirstMatch(pre + CsvRule(key, ks) + post, key, 0, true) == Some((|pre|, |pre| + |CsvRule(key, ks)|))
  {
    RuleMatchedWhole(pre, key, ks, post);
    LeftmostMatch(pre + CsvRule(key, ks) + post, key, |pre|, |pre| + |CsvRule(key, ks)|, true);
  }

  /** A match with no header for the name before it is the one the search finds. */
  lemma LeftmostMatch(content: string, name: string, p: nat, e: nat, exact: bool)
    requires MatchesAt(content, name, p, e, exact)
    requires forall q | 0 <= q < p :: !OccursAt(content, IsItHeader + name, q)
    ensures FirstMatch(content, name, 0, exact) == Some((p, e))
  {
    MatchEndSpec(content, name, p, e, exact);
    var found := FirstMatch(content, name, 0, exact);
    NoneMeansNoMatch(content, name, exact, found);
    MatchEndSpec(content, name, found.value.0, found.value.1, exact);
  }

  // ---------------------------------------------------------------------------
  // The rule name boundary
  // ---------------------------------------------------------------------------

  /** Every match of the corrected pattern is a rule the rule reader names
      `name`: the word after the header is exactly `name`. */
  lemma ExactMatchNamesRule(content: string, name: string)
    requires IsWord(name)
    ensures forall p: nat, e: nat | MatchesAt(content, name, p, e, true) ::
      WordRun(content[p + |IsItHeader|..]) == |name|
  {
    forall p: nat, e: nat | MatchesAt(content, name, p, e, true)
      ensures WordRun(content[p + |IsItHeader|..]) == |name|
    {
      var h := p + |IsItHeader + name|;
      var tail := content[h..];
      assert content[p..h] == IsItHeader + name;
      assert content[p + |IsItHeader|..] == name + tail by {
        assert content[p + |IsItHeader|..h] == (IsItHeader + name)[|IsItHeader|..] == name;
      }
      assert tail[0] == content[h];
      RoundTrip.WordRunExact(name, tail);
    }
  }

  /** The pattern as written matches the rule for any longer name `name + suffix`,
      so feedback about `name` edits that rule. The rule reader names it
      `name + suffix`, and the corrected pattern does not match it there. */
  lemma AsWrittenEditsLongerName(req: Request, suffix: string, ks: seq<string>)
    requires !NothingToAdd(req) && IsWord(Key(req.disease)) && IsWord(suffix)
    requires RoundTrip.AllWords(ks) && |ks| > 0
    ensures var rule := CsvRule(Key(req.disease) + suffix, ks);
      var added := SymptomsToAdd(req.missedSymptoms);
      ProcessFeedback(req, Some(rule), false)
        == Outcome(Added(added), Some(CsvRule(Key(req.disease) + suffix, ks + added)))
    ensures WordRun(CsvRule(Key(req.disease) + suffix, ks)[|IsItHeader|..]) == |Key(req.disease)| + |suffix|
    ensures MatchEnd(CsvRule(Key(req.disease) + suffix, ks), Key(req.disease), 0, true).None?
  {
    var name := Key(req.disease);
    var rule := CsvRule(name + suffix, ks);
    var added := SymptomsToAdd(req.missedSymptoms);
    LongerNameMatches(name, suffix, ks);
    LeftmostMatch(rule, name, 0, |rule|, false);
    var p, e := FeedbackEdit(req, rule, false);
    assert rule[p..e] == rule && rule[..p] == "" && rule[e..] == "" by {
      assert p == 0 && e == |rule|;
    }
    assert ReplaceAll("", rule, Spliced(rule, SymptomText(added))) == "";
    SpliceExtendsRule(name + suffix, ks, added);
    assert "" + CsvRule(name + suffix, ks + added) + "" == CsvRule(name + suffix, ks + added);
  }

  /** Feedback about "flu" lands in the compiled rule for "flu_shot". */
  lemma AsWrittenEditsFluShot(missed: string)
    requires missed != ""
    ensures var added := SymptomsToAdd(missed);
      ProcessFeedback(Request("flu", false, missed), Some(CsvRule("flu_shot", ["fever"])), false)
        == Outcome(Added(added), Some(CsvRule("flu_shot", ["fever"] + added)))
    ensures MatchEnd(CsvRule("flu_shot", ["fever"]), "flu", 0, true).None?
  {
    var req := Request("flu", false, missed);
    assert Key("flu") == "flu";
    assert IsWord("flu") && IsWord("_shot") && RoundTrip.AllWords(["fever"]);
    assert "flu" + "_shot" == "flu_shot";
    AsWrittenEditsLongerName(req, "_shot", ["fever"]);
  }

  /** The shape facts behind `AsWrittenEditsLongerName`. */
  lemma LongerNameMatches(name: string, suffix: string, ks: seq<string>)
    requires IsWord(name) && IsWord(suffix) && RoundTrip.AllWords(ks)
    ensures MatchesAt(CsvRule(name + suffix, ks), name, 0, |CsvRule(name + suffix, ks)|, false)
    ensures WordRun(CsvRule(name + suffix, ks)[|IsItHeader|..]) == |name| + |suffix|
    ensures MatchEnd(CsvRule(name + suffix, ks), name, 0, true).None?
  {
    var rule := CsvRule(name + suffix, ks);
    WordsJoin(name, suffix);
    RuleMatchedAlone(name + suffix, ks);
    PrefixMatches(rule, name, suffix, |rule|);
  }

  /** Where the rule for `name + suffix` matches, the pattern as written for
      `name` matches too, and the corrected one does not. */
  lemma PrefixMatches(t: string, name: string, suffix: string, e: nat)
    requires IsWord(name) && IsWord(suffix)
    requires MatchesAt(t, name + suffix, 0, e, true)
    ensures MatchesAt(t, name, 0, e, false)
    ensures WordRun(t[|IsItHeader|..]) == |name| + |suffix|
    ensures MatchEnd(t, name, 0, true).None?
  {
    var h := |IsItHeader + name|;
    var h2 := |IsItHeader + (name + suffix)|;
    assert IsItHeader + (name + suffix) == (IsItHeader + name) + suffix;
    PrefixSplit(t, IsItHeader + name, suffix);
    assert '=' !in t[h..e - 2] by {
      RoundTrip.WordNoPunctuation(suffix);
      assert t[h..e - 2] == t[h..h2] + t[h2..e - 2];
    }
    assert t[h] == suffix[0];
    WordsJoin(name, suffix);
    ExactMatchNamesRule(t, name + suffix);
  }

  lemma WordsJoin(a: string, b: string)
    requires IsWord(a) && IsWord(b)
    ensures IsWord(a + b)
  {
    assert forall i | 0 <= i < |a + b| :: (a + b)[i] == if i < |a| then a[i] else b[i - |a|];
  }

  /** A text that starts with `a + b` has `a`, then `b`. */
  lemma PrefixSplit(t: string, a: string, b: string)
    requires |a + b| <= |t| && t[..|a + b|] == a + b
    ensures t[..|a|] == a && t[|a|..|a + b|] == b
  {
    assert t[..|a|] == t[..|a + b|][..|a|];
    assert t[|a|..|a + b|] == t[..|a + b|][|a|..];
  }

  // ---------------------------------------------------------------------------
  // The missed symptoms
  // ---------------------------------------------------------------------------

  /** Words joined by commas, as a client sends them, come back as the same keys. */
  lemma {:induction false} MissedRoundTrip(ks: seq<string>)
    requires |ks| > 0 && RoundTrip.AllWords(ks)
    ensures SymptomsToAdd(Join(ks, ",")) == ks
  {
    forall i | 0 <= i < |ks| ensures !Contains(ks[i], ",") && Cell(ks[i]) == ks[i] {
      WordCell(ks[i]);
    }
    SplitJoin(ks, ",");
  }

  /** A word has no comma, and is its own key. */
  lemma WordCell(w: string)
    requires IsWord(w)
    ensures !Contains(w, ",") && Cell(w) == w
  {
    RoundTrip.WordNoPunctuation(w);
    forall j | 0 <= j < |w| ensures !OccursAt(w, ",", j) {
      assert IsWordChar(w[j]);
      assert w[j..j + 1] == [w[j]];
    }
    StripNoop(w);
  }
}

=== FILE: frontend.dfy ===
/** The two web front ends (`index.py` and `disease_diagnosis.py`): their own
    `add_new_symptom`, which adds a symptom to the vocabulary only when it is
    not listed yet, and the `addNewDisease` handler of `index.py`, which
    normalises the submitted form, rejects a known disease with 409 and
    otherwise performs the same four appends as the engine, except that a
    symptom is written to the vocabulary only when it is not shown already. */
module Frontend {
  import opened Wrappers
  import opened Strings
  import Names
  import opened Rules
  import Info
  import Engine
  import LineEdit

  /** The vocabulary's lines, stripped: what `add_new_symptom` compares with. */
  function StrippedLines(lines: seq<string>): (r: seq<string>)
    ensures |r| == |lines|
    ensures forall i | 0 <= i < |lines| :: r[i] == Strip(lines[i])
  {
    seq(|lines|, i requires 0 <= i < |lines| => Strip(lines[i]))
  }

  /** The vocabulary step of `add_new_symptom` as written: the symptom and a
      line break are appended unless some stripped line equals the symptom. */
  function AddToVocabularyAsWritten(vocabulary: string, symptom: string): (r: string)
    ensures vocabulary <= r
    ensures r == vocabulary <==> symptom in StrippedLines(SplitLines(vocabulary))
  {
    if symptom in StrippedLines(SplitLines(vocabulary)) then vocabulary
    else vocabulary + symptom + "\n"
  }

  /** A text without line breaks is one line. */
  lemma OneLine(x: string)
    requires |x| > 0 && '\n' !in x
    ensures SplitLines(x) == [x]
  {
    forall k ensures !OccursAt(x, "\n", k) {
      if 0 <= k && k + 1 <= |x| {
        assert x[k..k + 1][0] == x[k];
      }
    }
    SplitLinesNone(x);
  }

  lemma GluedOntoLastLine()
    ensures AddToVocabularyAsWritten("fever", "cough") == "fevercough\n"
  {
    OneLine("fever");
    StripNoop("fever");
    assert StrippedLines(SplitLines("fever")) == ["fever"];
  }

  lemma GluedLineNotRecognised()
    ensures AddToVocabularyAsWritten("fevercough\n", "cough") == "fevercough\n" + "cough\n"
  {
    var x := "fevercough";
    assert '\n' !in x && x != "cough" && x[0] == 'f' && x[|x| - 1] == 'h';
    SingleLineNotListed(x, "cough");
    assert x + "\n" == "fevercough\n" && "cough" + "\n" == "cough\n";
  }

  /** On a one-line vocabulary the step as written adds any symptom other
      than that line's stripped text. */
  lemma SingleLineNotListed(x: string, symptom: string)
    requires |x| > 0 && '\n' !in x && !IsSpace(x[0]) && !IsSpace(x[|x| - 1]) && symptom != x
    ensures AddToVocabularyAsWritten(x + "\n", symptom) == x + "\n" + (symptom + "\n")
  {
    SplitLinesSingle(x);
    StripNewline(x);
    assert StrippedLines(SplitLines(x + "\n")) == [x];
    AppendAssoc(x + "\n", symptom, "\n");
  }

  /** On a vocabulary whose last line has no line break (the CSV compiler
      writes it that way), the symptom is glued onto that line, is not found on
      the next call, and is appended a second time. */
  lemma AsWrittenNotIdempotent()
    ensures var once := AddToVocabularyAsWritten("fever", "cough");
            AddToVocabularyAsWritten(once, "cough") != once
  {
    GluedOntoLastLine();
    GluedLineNotRecognised();
  }

  /** An entry written as `key,` (by the engine, or by the CSV compiler for
      every entry but its last) is not recognised, so the symptom is listed a
      second time. */
  lemma AsWrittenMissesCommaEntry()
    ensures AddToVocabularyAsWritten("cough,\n", "cough") == "cough,\n" + "cough\n"
  {
    var x := "cough,";
    assert '\n' !in x && x != "cough" && x[0] == 'c' && x[|x| - 1] == ',';
    SingleLineNotListed(x, "cough");
    assert x + "\n" == "cough,\n" && "cough" + "\n" == "cough\n";
  }

  /** The name a vocabulary line stands for: the stripped line without the
      trailing comma the other writers put after each entry. */
  function EntryName(stripped: string): (n: string)
    ensures n <= stripped && |stripped| - 1 <= |n|
  {
    if |stripped| > 0 && stripped[|stripped| - 1] == ',' then stripped[..|stripped| - 1] else stripped
  }

  function EntryNames(lines: seq<string>): (r: seq<string>)
    ensures |r| == |lines|
    ensures forall i | 0 <= i < |lines| :: r[i] == EntryName(Strip(lines[i]))
  {
    seq(|lines|, i requires 0 <= i < |lines| => EntryName(Strip(lines[i])))
  }

  /** The text with a final line break added when its last line lacks one. */
  function Terminated(text: string): (r: string)
    ensures r == "" || r[|r| - 1] == '\n'
    ensures text <= r && |r| <= |text| + 1
  {
    if text == "" || text[|text| - 1] == '\n' then text else text + "\n"
  }

  /** A symptom that can stand on a vocabulary line of its own: non-empty, no
      line break, no whitespace at either end and no trailing comma. */
  predicate ValidEntry(s: string) {
    |s| > 0 && '\n' !in s && !IsSpace(s[0]) && !IsSpace(s[|s| - 1]) && s[|s| - 1] != ','
  }

  /** The vocabulary step of `add_new_symptom` as intended: a symptom already
      listed, with or without the trailing comma, is not added again, and a new
      one always starts a line of its own. */
  function AddToVocabulary(vocabulary: string, symptom: string): (r: string)
    ensures vocabulary <= r
    ensures r == vocabulary <==> symptom in EntryNames(SplitLines(vocabulary))
    ensures symptom !in EntryNames(SplitLines(vocabulary)) ==> r == Terminated(vocabulary) + symptom + "\n"
  {
    if symptom in EntryNames(SplitLines(vocabulary)) then vocabulary
    else Terminated(vocabulary) + symptom + "\n"
  }

  /** After the corrected step the symptom is listed. */
  lemma AddedIsListed(vocabulary: string, symptom: string)
    requires ValidEntry(symptom)
    ensures symptom in EntryNames(SplitLines(AddToVocabulary(vocabulary, symptom)))
  {
    if symptom !in EntryNames(SplitLines(vocabulary)) {
      var t := Terminated(vocabulary);
      SplitLinesAppendLine(t, symptom);
      LastLineListed(SplitLines(t), symptom);
    }
  }

  lemma LastLineListed(lines: seq<string>, symptom: string)
    requires ValidEntry(symptom)
    ensures symptom in EntryNames(lines + [symptom + "\n"])
  {
    var all := lines + [symptom + "\n"];
    StripNewline(symptom);
    assert all[|all| - 1] == symptom + "\n";
    assert EntryNames(all)[|all| - 1] == symptom;
  }

  /** The corrected step is idempotent: a second call changes nothing. */
  lemma AddIdempotent(vocabulary: string, symptom: string)
    requires ValidEntry(symptom)
    ensures AddToVocabulary(AddToVocabulary(vocabulary, symptom), symptom) == AddToVocabulary(vocabulary, symptom)
  {
    AddedIsListed(vocabulary, symptom);
  }

  /** The corrected step recognises an entry the engine or the CSV compiler
      wrote as `key,`. */
  lemma RecognisesCommaEntry(vocabulary: string, key: string)
    requires vocabulary == "" || vocabulary[|vocabulary| - 1] == '\n'
    requires ValidEntry(key)
    ensures AddToVocabulary(vocabulary + (key + ",\n"), key) == vocabulary + (key + ",\n")
  {
    Engine.EntryIsLastLine(vocabulary, key);
    var lines := SplitLines(vocabulary + (key + ",\n"));
    assert lines[|lines| - 1] == key + ",\n";
    assert key + ",\n" == (key + ",") + "\n";
    StripNewline(key + ",");
    assert EntryNames(lines)[|lines| - 1] == key;
  }

  /** `add_new_symptom` of both front ends, with the corrected vocabulary step:
      the vocabulary lists the symptom afterwards and is unchanged when it
      already did; the rule file is edited line by line as `update_clips_file`
      does; the tables are untouched. */
  method AddNewSymptom(files: Engine.Files, ruleName: string, symptom: string) returns (r: Engine.Files)
    ensures r.vocabulary == AddToVocabulary(files.vocabulary, symptom)
    ensures files.vocabulary <= r.vocabulary
    ensures ValidEntry(symptom) ==> symptom in EntryNames(SplitLines(r.vocabulary))
    ensures symptom in EntryNames(SplitLines(files.vocabulary)) ==> r.vocabulary == files.vocabulary
    ensures symptom !in EntryNames(SplitLines(files.vocabulary)) ==>
              r.vocabulary == Terminated(files.vocabulary) + symptom + "\n"
    ensures r.rules == Concat(LineEdit.Expected(SplitLines(files.rules), ruleName, symptom))
    ensures (forall i | 0 <= i < |SplitLines(files.rules)| :: !LineEdit.Mentions(SplitLines(files.rules)[i], ruleName)) ==>
              r.rules == files.rules
    ensures r.descriptions == files.descriptions && r.precautions == files.precautions
  {
    var vocabulary := AddToVocabulary(files.vocabulary, symptom);
    if ValidEntry(symptom) {
      AddedIsListed(files.vocabulary, symptom);
    }
    var rules := LineEdit.UpdateClipsFile(files.rules, ruleName, symptom);
    r := files.(vocabulary := vocabulary, rules := rules);
  }

  /** The body of an `addNewDisease` request. */
  datatype Request = Request(diseaseName: string, diseaseDescription: string,
                             diseasePrecautions: string, newSymptoms: string)

  /** The HTTP status code, the answer and the appends performed, in order. */
  datatype Reply = Reply(code: int, status: Engine.Status, writes: seq<Engine.Append>)

  /** `[p.strip() for p in text.split(',')]`. */
  function PrecautionList(text: string): (ps: seq<string>)
    ensures |ps| == |Split(text, ",")|
    ensures forall i | 0 <= i < |ps| :: ps[i] == Strip(Split(text, ",")[i])
  {
    var parts := Split(text, ",");
    seq(|parts|, i requires 0 <= i < |parts| => Strip(parts[i]))
  }

  /** One `key,` line for every key not among `known`, in order. */
  function EntriesNotIn(keys: seq<string>, known: seq<string>): (r: string)
    ensures (forall i | 0 <= i < |keys| :: keys[i] !in known) ==> r == Engine.Entries(keys)
    ensures (forall i | 0 <= i < |keys| :: keys[i] in known) ==> r == ""
  {
    if |keys| == 0 then ""
    else (if keys[0] in known then "" else keys[0] + ",\n") + EntriesNotIn(keys[1..], known)
  }

  /** One key: written as a `key,` line exactly when it is not known. */
  lemma EntriesNotInOne(k: string, known: seq<string>)
    ensures EntriesNotIn([k], known) == if k in known then "" else Engine.Entries([k])
  {
    assert [k][1..] == [];
    assert Engine.Entries([k]) == k + ",\n" + Engine.Entries([]);
  }

  /** Keys are written one at a time, in place: the unknown keys of two lists
      laid end to end are written as the first list's lines, then the second's. */
  lemma {:induction false} EntriesNotInAppend(a: seq<string>, b: seq<string>, known: seq<string>)
    ensures EntriesNotIn(a + b, known) == EntriesNotIn(a, known) + EntriesNotIn(b, known)
  {
    if |a| == 0 {
      assert a + b == b;
    } else {
      assert (a + b)[0] == a[0] && (a + b)[1..] == a[1..] + b;
      EntriesNotInAppend(a[1..], b, known);
      var h := if a[0] in known then "" else a[0] + ",\n";
      AppendAssoc(h, EntriesNotIn(a[1..], known), EntriesNotIn(b, known));
    }
  }

  predicate HasLetter(s: string) {
    exists i | 0 <= i < |s| :: IsAlpha(s[i])
  }

  /** No name shown to users equals a key that holds a letter: the shown name
      has a capital wherever it has a letter first, and keys have none. */
  lemma NoDisplayIsAKey(x: string, k: string)
    requires HasLetter(k) && forall i | 0 <= i < |k| :: !IsUpper(k[i])
    ensures Names.Display(x) != k
  {
    var y := Names.Spaced(x);
    var t := Names.Display(x);
    assert t == Title(y);
    TitleChars(y, false);
    if HasLetter(y) {
      var i :| 0 <= i < |y| && IsAlpha(y[i]);
      var j := TitleHasUpper(y, i);
      assert IsUpper(t[j]);
    } else {
      var i :| 0 <= i < |k| && IsAlpha(k[i]);
      assert |t| == |k| ==> !IsAlpha(t[i]);
    }
  }

  /** The vocabulary write of `addNewDisease` as written compares each key with
      the names the engine shows for its current facts; as no shown name is a
      key, every symptom holding a letter is written again. */
  lemma AsWrittenWritesShownKeys(keys: seq<string>, shown: seq<string>)
    requires forall i | 0 <= i < |keys| :: HasLetter(keys[i]) && forall j | 0 <= j < |keys[i]| :: !IsUpper(keys[i][j])
    requires forall i | 0 <= i < |shown| :: exists x :: shown[i] == Names.Display(x)
    ensures EntriesNotIn(keys, shown) == Engine.Entries(keys)
  {
    forall i | 0 <= i < |keys| ensures keys[i] !in shown {
      forall j | 0 <= j < |shown| ensures shown[j] != keys[i] {
        var x :| shown[j] == Names.Display(x);
        NoDisplayIsAKey(x, keys[i]);
      }
    }
  }

  /** The concrete case: with `cough` asserted, the engine shows `Cough`, and
      `cough` is appended to the vocabulary once more. */
  lemma AsWrittenRewritesCough()
    ensures Names.Display("cough") == "Cough"
    ensures EntriesNotIn(["cough"], [Names.Display("cough")]) == "cough,\n"
  {
    assert Names.Spaced("cough") == "cough";
    assert Title("cough") == "Cough";
  }

  /** The shown names turned back into keys. */
  function ShownKeys(shown: seq<string>): (ks: seq<string>)
    ensures |ks| == |shown|
    ensures forall i | 0 <= i < |shown| :: ks[i] == Names.Normalize(shown[i])
  {
    seq(|shown|, i requires 0 <= i < |shown| => Names.Normalize(shown[i]))
  }

  /** A shown name has a space exactly where its key has an underscore and
      otherwise the key's characters up to case. */
  lemma DisplayChars(k: string)
    requires Info.KeyLike(k)
    ensures var t := Names.Display(k);
            |t| == |k| && forall i | 0 <= i < |k| :: (t[i] == ' ' <==> k[i] == '_') && (k[i] != '_' ==> ToLower(t[i]) == k[i])
  {
    TitleChars(Names.Spaced(k), false);
  }

  /** A shown name normalises back to its key. */
  lemma DisplayNormalizes(k: string)
    requires Info.KeyLike(k)
    ensures Names.Normalize(Names.Display(k)) == k
  {
    var t := Names.Display(k);
    DisplayChars(k);
    assert ToLower(t[0]) == k[0] && ToLower(t[|t| - 1]) == k[|k| - 1];
    StripNoop(t);
    var n := Names.Normalize(t);
    assert n == Lower(ReplaceChar(t, ' ', '_'));
  }

  /** With the corrected comparison, a key whose name is shown is not written
      again. */
  lemma ShownKeysNotRewritten(keys: seq<string>, shown: seq<string>)
    requires forall i | 0 <= i < |keys| :: Info.KeyLike(keys[i]) && Names.Display(keys[i]) in shown
    ensures EntriesNotIn(keys, ShownKeys(shown)) == ""
  {
    forall i | 0 <= i < |keys| ensures keys[i] in ShownKeys(shown) {
      var j :| 0 <= j < |shown| && shown[j] == Names.Display(keys[i]);
      DisplayNormalizes(keys[i]);
      assert ShownKeys(shown)[j] == keys[i];
    }
  }

  /** The `addNewDisease` handler of `index.py`, with the corrected vocabulary
      comparison: the form is normalised, a known disease is answered with 409
      and nothing written, and otherwise the vocabulary, description,
      precaution and rule files are appended to, in that order, with 201. */
  function AddNewDiseaseRoute(files: Engine.Files, request: Request, shown: seq<string>): (o: Reply)
    ensures var name := Names.Normalize(request.diseaseName);
            (o.code == 409 <==> Engine.DiseaseExists(files.rules, name))
            && (o.code == 409 ==> o.writes == [] && o.status == Engine.Failure(Engine.ExistsMessage(name)))
            && (o.code != 409 ==> o.code == 201 && o.status == Engine.Success)
    ensures o.code == 201 ==>
              Engine.Targets(o.writes) == [Engine.Vocabulary, Engine.DescriptionTable, Engine.PrecautionTable, Engine.RuleFile]
  {
    var name := Names.Normalize(request.diseaseName);
    var description := Strip(request.diseaseDescription);
    var precautions := PrecautionList(request.diseasePrecautions);
    var keys := Engine.Keys(Split(request.newSymptoms, ","));
    if Engine.DiseaseExists(files.rules, name) then
      Reply(409, Engine.Failure(Engine.ExistsMessage(name)), [])
    else
      var texts := [EntriesNotIn(keys, ShownKeys(shown)), Info.DescriptionRecord(name, description),
                    Info.PrecautionRecord(name, precautions), DiseaseBlocks(name, keys)];
      Reply(201, Engine.Success, Engine.FourAppends(texts))
  }

  lemma KeysIdempotent(xs: seq<string>)
    ensures Engine.Keys(Engine.Keys(xs)) == Engine.Keys(xs)
  {
    forall i | 0 <= i < |xs| ensures Names.Normalize(Names.Normalize(xs[i])) == Names.Normalize(xs[i]) {
      Names.NormalizeIdempotent(xs[i]);
    }
  }

  /** The handler decides and writes as the engine's `add_new_disease` does on
      the normalised form, except for the vocabulary, where it writes only the
      keys not shown already. */
  lemma RouteAgreesWithEngine(files: Engine.Files, request: Request, shown: seq<string>)
    ensures var name := Names.Normalize(request.diseaseName);
            var description := Strip(request.diseaseDescription);
            var precautions := PrecautionList(request.diseasePrecautions);
            var keys := Engine.Keys(Split(request.newSymptoms, ","));
            var o := AddNewDiseaseRoute(files, request, shown);
            var e := Engine.AddNewDisease(files, name, description, precautions, keys);
            (o.status == e.status)
            && (o.code == 201 ==>
                  o.writes[1..] == e.writes[1..]
                  && o.writes[0].text == EntriesNotIn(keys, ShownKeys(shown))
                  && e.writes[0].text == Engine.Entries(keys))
  {
    KeysIdempotent(Split(request.newSymptoms, ","));
  }
}

=== FILE: info.dfy ===
/** The disease metadata: the description and precaution files, one record
    per line (`name,field,field,…`), read into tables keyed by the normalised
    name, and `detail`, which looks a list of names up in them. Two readers
    exist: one reads every line, the other first skips a header line. */
module Info {
  import opened Wrappers
  import opened Strings
  import Names
  import Tables

  /** `line.strip().split(',')`. */
  function Fields(line: string): (parts: seq<string>)
    ensures |parts| >= 1
  {
    Split(Strip(line), ",")
  }

  /** The table key of a record line: its first field, normalised. */
  function RecordKey(line: string): string {
    Names.InfoKey(Fields(line)[0])
  }

  /** `",".join(parts[1:]).replace('"', '')`: the description of a record line. */
  function DescriptionOf(line: string): (d: string)
    ensures '"' !in d
  {
    RemoveChar(Join(Fields(line)[1..], ","), '"')
  }

  /** `[p.strip().capitalize() for p in ps if p.strip()]`. */
  function CleanPrecautions(ps: seq<string>): (r: seq<string>)
    ensures |r| <= |ps|
    ensures forall i | 0 <= i < |r| :: |r[i]| > 0 && !IsLower(r[i][0])
  {
    if |ps| == 0 then []
    else
      var p := Strip(ps[0]);
      var rest := CleanPrecautions(ps[1..]);
      if p == "" then rest
      else
        var c := Capitalize(p);
        ConsCapitalised(c, rest);
        [c] + rest
  }

  lemma ConsCapitalised(c: string, rest: seq<string>)
    requires |c| > 0 && !IsLower(c[0])
    requires forall i | 0 <= i < |rest| :: |rest[i]| > 0 && !IsLower(rest[i][0])
    ensures forall i | 0 <= i < |[c] + rest| :: |([c] + rest)[i]| > 0 && !IsLower(([c] + rest)[i][0])
  {
    var r := [c] + rest;
    forall i | 0 <= i < |r| ensures |r[i]| > 0 && !IsLower(r[i][0]) {
      if i > 0 { assert r[i] == rest[i - 1]; }
    }
  }

  /** A record has no precautions exactly when every later field is blank. */
  lemma {:induction false} NoPrecautionsIffBlank(ps: seq<string>)
    ensures CleanPrecautions(ps) == [] <==> forall i | 0 <= i < |ps| :: Strip(ps[i]) == ""
  {
    if |ps| > 0 {
      NoPrecautionsIffBlank(ps[1..]);
      assert forall i | 1 <= i < |ps| :: ps[1..][i - 1] == ps[i];
    }
  }

  /** One field: dropped when blank, otherwise stripped and capitalised. */
  lemma CleanPrecautionsOne(p: string)
    ensures CleanPrecautions([p]) == if Strip(p) == "" then [] else [Capitalize(Strip(p))]
  {
    assert [p][1..] == [];
  }

  /** Fields are cleaned one at a time, in place: the result for fields laid end
      to end is the results laid end to end. */
  lemma {:induction false} CleanPrecautionsAppend(a: seq<string>, b: seq<string>)
    ensures CleanPrecautions(a + b) == CleanPrecautions(a) + CleanPrecautions(b)
  {
    if |a| == 0 {
      assert a + b == b;
    } else {
      assert (a + b)[0] == a[0] && (a + b)[1..] == a[1..] + b;
      CleanPrecautionsAppend(a[1..], b);
    }
  }

  /** The precautions of a record line: its non-blank later fields, capitalised. */
  function PrecautionsOf(line: string): seq<string> {
    CleanPrecautions(Fields(line)[1..])
  }

  /** `_getDescriptions` / `get_descriptions` over the lines it reads. */
  function Descriptions(lines: seq<string>): map<string, string> {
    Tables.Table(lines, RecordKey, DescriptionOf)
  }

  /** `_getPrecautions` / `get_precautions` over the lines it reads. */
  function Precautions(lines: seq<string>): map<string, seq<string>> {
    Tables.Table(lines, RecordKey, PrecautionsOf)
  }

  /** `next(f)` before the loop: the lines after the header; an empty file
      raises, which here is `None`. */
  function AfterHeader(lines: seq<string>): (r: Option<seq<string>>)
    ensures r.None? <==> |lines| == 0
    ensures r.Some? ==> lines == [lines[0]] + r.value
  {
    if |lines| == 0 then None else Some(lines[1..])
  }

  /** The header-skipping reader never turns the header line into a key of its
      own (only a later line with the same key can bring that key in). */
  lemma HeaderNotAKey(lines: seq<string>)
    requires |lines| > 0
    requires forall i | 1 <= i < |lines| :: RecordKey(lines[i]) != RecordKey(lines[0])
    ensures RecordKey(lines[0]) !in Descriptions(AfterHeader(lines).value)
    ensures RecordKey(lines[0]) !in Precautions(AfterHeader(lines).value)
  {
    var body := lines[1..];
    assert forall i | 0 <= i < |body| :: body[i] == lines[i + 1];
  }

  /** One entry of `detail`. */
  datatype Record = Record(name: string, description: string, precautions: seq<string>)

  const NoDescription := "Description not available."
  const NoDescriptionAfterHeader := "Description not available"
  const NoPrecautionsAfterHeader := ["Precautions not available"]

  /** `detail`: one record per name, in order, looked up under the writers' key
      of the name, with the reader's defaults for a missing key. */
  function Detail(names: seq<string>, descriptions: map<string, string>, precautions: map<string, seq<string>>,
                  noDescription: string, noPrecautions: seq<string>): (r: seq<Record>)
    ensures |r| == |names|
    ensures forall i | 0 <= i < |names| :: r[i].name == names[i]
    ensures forall i | 0 <= i < |names| ::
      r[i].description == (if Names.Normalize(names[i]) in descriptions
                           then descriptions[Names.Normalize(names[i])] else noDescription)
    ensures forall i | 0 <= i < |names| ::
      r[i].precautions == (if Names.Normalize(names[i]) in precautions
                           then precautions[Names.Normalize(names[i])] else noPrecautions)
  {
    forall i | 0 <= i < |names| ensures Names.InfoKey(names[i]) == Names.Normalize(names[i]) {
      Names.InfoKeyIsNormalize(names[i]);
    }
    seq(|names|, i requires 0 <= i < |names| =>
      var key := Names.InfoKey(names[i]);
      Record(names[i],
             if key in descriptions then descriptions[key] else noDescription,
             if key in precautions then precautions[key] else noPrecautions))
  }

  /** Keys the writers produce that the readers recover from the written name:
      no spaces, capitals, commas or newlines, and no underscore or whitespace
      at either end. */
  predicate KeyLike(d: string) {
    |d| > 0 && d[0] != '_' && !IsSpace(d[0]) && d[|d| - 1] != '_' && !IsSpace(d[|d| - 1])
    && forall i | 0 <= i < |d| :: d[i] != ' ' && !IsUpper(d[i]) && d[i] != ',' && d[i] != '\n'
  }

  /** The written name reads back as the key. */
  lemma KeyRoundTrip(d: string)
    requires KeyLike(d)
    ensures Names.InfoKey(Names.Spaced(d)) == d
  {
    var n := Names.Spaced(d);
    SpacedUnchangedByLower(d, n);
    SpacedEnds(d, n);
    StripNoop(n);
    Unspaced(d, n, ReplaceChar(n, ' ', '_'));
  }

  lemma SpacedUnchangedByLower(d: string, n: string)
    requires forall i | 0 <= i < |d| :: !IsUpper(d[i])
    requires |n| == |d| && forall i | 0 <= i < |d| :: n[i] == (if d[i] == '_' then ' ' else d[i])
    ensures Lower(n) == n
  {
  }

  lemma SpacedEnds(d: string, n: string)
    requires |d| > 0 && d[0] != '_' && !IsSpace(d[0]) && d[|d| - 1] != '_' && !IsSpace(d[|d| - 1])
    requires |n| == |d| && forall i | 0 <= i < |d| :: n[i] == (if d[i] == '_' then ' ' else d[i])
    ensures !IsSpace(n[0]) && !IsSpace(n[|n| - 1])
  {
    assert n[0] == d[0] && n[|n| - 1] == d[|d| - 1];
  }

  lemma Unspaced(d: string, n: string, u: string)
    requires forall i | 0 <= i < |d| :: d[i] != ' '
    requires |n| == |d| && forall i | 0 <= i < |d| :: n[i] == (if d[i] == '_' then ' ' else d[i])
    requires |u| == |n| && forall i | 0 <= i < |n| :: u[i] == (if n[i] == ' ' then '_' else n[i])
    ensures u == d
  {
  }

  /** `update_disease_description` / the `addNewDisease` write: one record line. */
  function DescriptionRecord(d: string, description: string): string {
    Names.Spaced(d) + "," + description + "\n"
  }

  /** `update_disease_precautions` / the `addNewDisease` write: one record line. */
  function PrecautionRecord(d: string, precautions: seq<string>): string {
    Names.Spaced(d) + "," + Join(precautions, ",") + "\n"
  }

  /** The written name of a key-like key: non-empty, no comma or newline, and
      no whitespace in front. */
  lemma SpacedName(d: string)
    requires KeyLike(d)
    ensures var n := Names.Spaced(d); |n| > 0 && ',' !in n && '\n' !in n && !IsSpace(n[0])
  {
  }

  /** A record line `name,rest` splits into the name, then the pieces of the rest. */
  lemma RecordLine(n: string, rest: string)
    requires |n| > 0 && ',' !in n && '\n' !in n && !IsSpace(n[0])
    requires '\n' !in rest && (rest == "" || !IsSpace(rest[|rest| - 1]))
    ensures SplitLines(n + "," + rest + "\n") == [n + "," + rest + "\n"]
    ensures Fields(n + "," + rest + "\n") == [n] + Split(rest, ",")
  {
    var x := n + "," + rest;
    RecordLineEnds(n, rest);
    SplitLinesSingle(x);
    StripNewline(x);
    SplitAtFirstComma(n, rest);
  }

  lemma RecordLineEnds(n: string, rest: string)
    requires |n| > 0 && '\n' !in n && !IsSpace(n[0])
    requires '\n' !in rest && (rest == "" || !IsSpace(rest[|rest| - 1]))
    ensures var x := n + "," + rest; '\n' !in x && !IsSpace(x[0]) && !IsSpace(x[|x| - 1])
  {
    var x := n + "," + rest;
    assert x[0] == n[0] && x[|x| - 1] == (if rest == "" then ',' else rest[|rest| - 1]);
  }

  lemma SplitAtFirstComma(n: string, rest: string)
    requires ',' !in n
    ensures Split(n + "," + rest, ",") == [n] + Split(rest, ",")
  {
    var x := n + "," + rest;
    FirstComma(n, rest);
    assert x[|n| + 1..] == rest;
    SplitUnfold(x, ",", |n|);
    assert x[..|n|] == n;
  }

  lemma FirstComma(n: string, rest: string)
    requires ',' !in n
    ensures IndexOf(n + "," + rest, ",") == Some(|n|)
  {
    forall k | 0 <= k < |n| ensures !OccursAt(n + "," + rest, ",", k) {
      assert (n + "," + rest)[k] == n[k];
    }
    IndexOfAfter(n, ",", rest);
  }

  /** The fields of a written record line: the written name, then the pieces
      of the rest; and the key read from it is the key it was written for. */
  lemma RecordFields(d: string, rest: string)
    requires KeyLike(d) && '\n' !in rest
    requires rest == "" || !IsSpace(rest[|rest| - 1])
    ensures SplitLines(Names.Spaced(d) + "," + rest + "\n") == [Names.Spaced(d) + "," + rest + "\n"]
    ensures Fields(Names.Spaced(d) + "," + rest + "\n") == [Names.Spaced(d)] + Split(rest, ",")
    ensures RecordKey(Names.Spaced(d) + "," + rest + "\n") == d
  {
    SpacedName(d);
    RecordLine(Names.Spaced(d), rest);
    KeyRoundTrip(d);
  }

  /** Appending a description record to a well-terminated file and reading the
      file again gives the old table with the new disease's description. */
  lemma DescriptionRoundTrip(prior: string, d: string, description: string)
    requires prior == "" || prior[|prior| - 1] == '\n'
    requires KeyLike(d) && '\n' !in description
    requires description == "" || !IsSpace(description[|description| - 1])
    ensures Descriptions(SplitLines(prior + DescriptionRecord(d, description)))
         == Descriptions(SplitLines(prior))[d := RemoveChar(description, '"')]
  {
    var line := DescriptionRecord(d, description);
    assert line == Names.Spaced(d) + "," + description + "\n";
    RecordFields(d, description);
    SplitLinesAppend(prior, line);
    Tables.TableAppend(SplitLines(prior), line, RecordKey, DescriptionOf);
    assert Fields(line)[1..] == Split(description, ",");
    JoinSplit(description, ",");
  }

  /** A precaution list written with stripped entries ends in a non-space. */
  lemma {:induction false} JoinStrippedEnd(ps: seq<string>)
    requires forall i | 0 <= i < |ps| :: Strip(ps[i]) == ps[i]
    ensures var j := Join(ps, ","); j == "" || !IsSpace(j[|j| - 1])
  {
    if |ps| >= 2 {
      JoinStrippedEnd(ps[1..]);
      var rest := Join(ps[1..], ",");
      assert Join(ps, ",") == ps[0] + "," + rest;
    }
  }

  /** Appending a precaution record (entries stripped, none holding a comma or
      a newline, as the writers produce them) and reading the file again gives
      the old table with the cleaned precautions of the new disease. */
  lemma PrecautionRoundTrip(prior: string, d: string, precautions: seq<string>)
    requires prior == "" || prior[|prior| - 1] == '\n'
    requires KeyLike(d)
    requires forall i | 0 <= i < |precautions| :: Strip(precautions[i]) == precautions[i]
    requires forall i | 0 <= i < |precautions| :: ',' !in precautions[i] && '\n' !in precautions[i]
    ensures Precautions(SplitLines(prior + PrecautionRecord(d, precautions)))
         == Precautions(SplitLines(prior))[d := CleanPrecautions(precautions)]
  {
    var body := Join(precautions, ",");
    var line := PrecautionRecord(d, precautions);
    JoinStrippedEnd(precautions);
    JoinNoNewline(precautions);
    RecordFields(d, body);
    SplitLinesAppend(prior, line);
    Tables.TableAppend(SplitLines(prior), line, RecordKey, PrecautionsOf);
    assert Fields(line)[1..] == Split(body, ",");
    PiecesReadBack(precautions);
  }

  /** Splitting the joined precautions gives them back, up to blank entries. */
  lemma PiecesReadBack(precautions: seq<string>)
    requires forall i | 0 <= i < |precautions| :: ',' !in precautions[i]
    ensures CleanPrecautions(Split(Join(precautions, ","), ",")) == CleanPrecautions(precautions)
  {
    if |precautions| == 0 {
      assert Split("", ",") == [""];
    } else {
      forall i | 0 <= i < |precautions| ensures !Contains(precautions[i], ",") {
        NoCharNoContains(precautions[i], ',');
      }
      SplitJoin(precautions, ",");
    }
  }

  lemma {:induction false} JoinNoNewline(ps: seq<string>)
    requires forall i | 0 <= i < |ps| :: '\n' !in ps[i]
    ensures '\n' !in Join(ps, ",")
  {
    if |ps| >= 2 {
      JoinNoNewline(ps[1..]);
      var rest := Join(ps[1..], ",");
      assert Join(ps, ",") == ps[0] + "," + rest;
    }
  }

  lemma NoCharNoContains(x: string, c: char)
    requires c !in x
    ensures !Contains(x, [c])
  {
    forall k ensures !OccursAt(x, [c], k) {
      if 0 <= k && k + 1 <= |x| {
        assert x[k..k + 1][0] == x[k];
      }
    }
  }

  /** A description written for a disease is what `detail` later shows for
      that disease's name, whatever spelling of the name normalises to its key. */
  lemma DetailShowsWrittenDescription(prior: string, d: string, description: string, name: string)
    requires prior == "" || prior[|prior| - 1] == '\n'
    requires KeyLike(d) && '\n' !in description
    requires description == "" || !IsSpace(description[|description| - 1])
    requires Names.Normalize(name) == d
    ensures var descriptions := Descriptions(SplitLines(prior + DescriptionRecord(d, description)));
            Detail([name], descriptions, map[], NoDescription, [])[0].description == RemoveChar(description, '"')
  {
    DescriptionRoundTrip(prior, d, description);
  }
}

=== FILE: line_edit.dfy ===
/** The rule-file edit that adds one symptom to an existing rule (the engine's
    `update_clips_file` and the copies of it in both front ends). The lines are
    visited in order: a line that mentions the rule name, ignoring case, arms
    the edit, and the next line holding `=>` (possibly that same line) gets the
    new `has_symptom` atom in front of each of its arrows and disarms it. */
module LineEdit {
  import opened Strings

  predicate HasArrow(line: string) {
    Contains(line, "=>")
  }

  /** `rule_name.lower() in line.lower()`. */
  predicate Mentions(line: string, ruleName: string) {
    Contains(Lower(line), Lower(ruleName))
  }

  /** What each `=>` of an edited line becomes. */
  function Insertion(symptom: string): string {
    "(has_symptom " + symptom + ")\n\t=>"
  }

  /** `line.replace("=>", …)`: an edited line always grows. */
  function Edited(line: string, symptom: string): (r: string)
    requires HasArrow(line)
    ensures |r| > |line|
  {
    ReplaceAll(line, "=>", Insertion(symptom))
  }

  /** Which lines mention the rule. */
  function MentionFlags(lines: seq<string>, ruleName: string): (ms: seq<bool>)
    ensures |ms| == |lines|
    ensures forall i | 0 <= i < |lines| :: ms[i] == Mentions(lines[i], ruleName)
  {
    seq(|lines|, i requires 0 <= i < |lines| => Mentions(lines[i], ruleName))
  }

  /** Which lines hold an arrow. */
  function ArrowFlags(lines: seq<string>): (hs: seq<bool>)
    ensures |hs| == |lines|
    ensures forall i | 0 <= i < |lines| :: hs[i] == HasArrow(lines[i])
  {
    seq(|lines|, i requires 0 <= i < |lines| => HasArrow(lines[i]))
  }

  predicate NoArrowBetween(hs: seq<bool>, j: int, i: int) {
    forall k | j <= k < i && 0 <= k < |hs| :: !hs[k]
  }

  /** Reference definition: line `i` is reached with the edit armed when some
      line at or before it mentions the rule and no line from that one up to
      line `i` (exclusive) holds an arrow. */
  predicate Armed(ms: seq<bool>, hs: seq<bool>, i: int) {
    exists j | 0 <= j <= i && j < |ms| :: ms[j] && NoArrowBetween(hs, j, i)
  }

  /** The flag after the first `i` lines: armed by a mention that no arrow has used up. */
  predicate Pending(ms: seq<bool>, hs: seq<bool>, i: int) {
    exists j | 0 <= j < i && j < |ms| :: ms[j] && NoArrowBetween(hs, j, i)
  }

  /** The edited rule file, line by line, as the reference definition describes it. */
  function Expected(lines: seq<string>, ruleName: string, symptom: string): (r: seq<string>)
    ensures |r| == |lines|
  {
    var ms := MentionFlags(lines, ruleName);
    var hs := ArrowFlags(lines);
    seq(|lines|, i requires 0 <= i < |lines| =>
      if hs[i] && Armed(ms, hs, i) then Edited(lines[i], symptom) else lines[i])
  }

  /** How many positions hold different lines. */
  function Changed(a: seq<string>, b: seq<string>): nat
    requires |a| == |b|
  {
    if |a| == 0 then 0
    else Changed(a[..|a| - 1], b[..|b| - 1]) + (if a[|a| - 1] != b[|b| - 1] then 1 else 0)
  }

  /** How many lines mention the rule. */
  function MentionCount(lines: seq<string>, ruleName: string): nat {
    if |lines| == 0 then 0
    else MentionCount(lines[..|lines| - 1], ruleName) + (if Mentions(lines[|lines| - 1], ruleName) then 1 else 0)
  }

  /** Line `i` is armed exactly when it mentions the rule itself or the flag is
      still up from an earlier mention. */
  lemma ArmedStep(ms: seq<bool>, hs: seq<bool>, i: nat)
    requires i < |ms|
    ensures Armed(ms, hs, i) <==> ms[i] || Pending(ms, hs, i)
  {
    if Armed(ms, hs, i) {
      var j :| 0 <= j <= i && j < |ms| && ms[j] && NoArrowBetween(hs, j, i);
      if j < i {
        assert ms[j] && NoArrowBetween(hs, j, i);
      }
    }
    if ms[i] {
      assert NoArrowBetween(hs, i, i);
    }
  }

  /** The flag stays up past line `i` exactly when line `i` is armed and holds no arrow. */
  lemma PendingStep(ms: seq<bool>, hs: seq<bool>, i: nat)
    requires i < |ms| == |hs|
    ensures Pending(ms, hs, i + 1) <==> !hs[i] && Armed(ms, hs, i)
  {
    if Pending(ms, hs, i + 1) {
      var j :| 0 <= j < i + 1 && j < |ms| && ms[j] && NoArrowBetween(hs, j, i + 1);
      assert !hs[i];
      assert NoArrowBetween(hs, j, i);
    }
    if !hs[i] && Armed(ms, hs, i) {
      var j :| 0 <= j <= i && j < |ms| && ms[j] && NoArrowBetween(hs, j, i);
      assert NoArrowBetween(hs, j, i + 1);
    }
  }

  /** The loop of `update_clips_file`: every line comes out once, in place; a
      line changes exactly when it holds an arrow and is armed, and then every
      arrow gets the new atom in front; and no more lines change than mention
      the rule. */
  method UpdateLines(lines: seq<string>, ruleName: string, symptom: string) returns (r: seq<string>)
    ensures r == Expected(lines, ruleName, symptom)
    ensures Changed(lines, r) <= MentionCount(lines, ruleName)
  {
    ghost var ms := MentionFlags(lines, ruleName);
    ghost var hs := ArrowFlags(lines);
    ghost var expected := Expected(lines, ruleName, symptom);
    var found := false;
    r := [];
    for i := 0 to |lines|
      invariant r == expected[..i]
      invariant found == Flag(ms, hs, i)
      invariant Changed(lines[..i], r) + (if found then 1 else 0) <= MentionCount(lines[..i], ruleName)
    {
      var line := lines[i];
      StepMatchesExpected(lines, ruleName, symptom, i);
      if Mentions(line, ruleName) {
        found := true;
      }
      var newLine := line;
      if HasArrow(line) && found {
        newLine := Edited(line, symptom);
        found := false;
      }
      assert newLine == expected[i];
      SnocCounts(lines, r, ruleName, i, newLine);
      PrefixGrows(expected, i);
      r := r + [newLine];
    }
    assert lines[..|lines|] == lines;
    assert expected[..|lines|] == expected;
  }

  /** The loop's flag after the first `i` lines, step by step. */
  function Flag(ms: seq<bool>, hs: seq<bool>, i: nat): bool
    requires i <= |ms| == |hs|
  {
    if i == 0 then false
    else (ms[i - 1] || Flag(ms, hs, i - 1)) && !hs[i - 1]
  }

  /** The step-by-step flag is the reference definition's pending mention. */
  lemma {:induction false} FlagPending(ms: seq<bool>, hs: seq<bool>, i: nat)
    requires i <= |ms| == |hs|
    ensures Flag(ms, hs, i) <==> Pending(ms, hs, i)
  {
    if i > 0 {
      FlagPending(ms, hs, i - 1);
      ArmedStep(ms, hs, i - 1);
      PendingStep(ms, hs, i - 1);
    }
  }

  /** Line `i` of the expected file from the flag before it. */
  lemma StepMatchesExpected(lines: seq<string>, ruleName: string, symptom: string, i: nat)
    requires i < |lines|
    ensures var armed := Mentions(lines[i], ruleName) || Flag(MentionFlags(lines, ruleName), ArrowFlags(lines), i);
      Expected(lines, ruleName, symptom)[i] == (if HasArrow(lines[i]) && armed then Edited(lines[i], symptom) else lines[i])
  {
    FlagPending(MentionFlags(lines, ruleName), ArrowFlags(lines), i);
    ArmedStep(MentionFlags(lines, ruleName), ArrowFlags(lines), i);
  }

  lemma PrefixGrows(s: seq<string>, i: nat)
    requires i < |s|
    ensures s[..i + 1] == s[..i] + [s[i]]
  {
  }

  /** Both counts grow by at most one per line. */
  lemma SnocCounts(lines: seq<string>, r: seq<string>, ruleName: string, i: nat, newLine: string)
    requires i < |lines| && |r| == i
    ensures Changed(lines[..i + 1], r + [newLine]) == Changed(lines[..i], r) + (if lines[i] != newLine then 1 else 0)
    ensures MentionCount(lines[..i + 1], ruleName) == MentionCount(lines[..i], ruleName) + (if Mentions(lines[i], ruleName) then 1 else 0)
  {
    assert lines[..i + 1][..i] == lines[..i];
    assert (r + [newLine])[..i] == r;
  }

  /** `update_clips_file` on the file's text: read the lines, edit, write them back. */
  method UpdateClipsFile(text: string, ruleName: string, symptom: string) returns (r: string)
    ensures (forall i | 0 <= i < |SplitLines(text)| :: !Mentions(SplitLines(text)[i], ruleName)) ==> r == text
    ensures r == Concat(Expected(SplitLines(text), ruleName, symptom))
  {
    var lines := SplitLines(text);
    var edited := UpdateLines(lines, ruleName, symptom);
    if forall i | 0 <= i < |lines| :: !Mentions(lines[i], ruleName) {
      NeverArmed(lines, ruleName, symptom);
    }
    r := Concat(edited);
  }

  /** A file in which no line mentions the rule is left exactly as it was. */
  lemma NeverArmed(lines: seq<string>, ruleName: string, symptom: string)
    requires forall i | 0 <= i < |lines| :: !Mentions(lines[i], ruleName)
    ensures Expected(lines, ruleName, symptom) == lines
  {
    var ms := MentionFlags(lines, ruleName);
    forall i | 0 <= i < |lines| ensures !Armed(ms, ArrowFlags(lines), i) {
      assert forall j | 0 <= j < |ms| :: !ms[j];
    }
  }

  /** A line that holds an arrow and mentions the rule is always edited: the
      edit does not look at which atoms the rule already lists, so the same
      symptom is added again on a second call. */
  lemma MentioningArrowLineEdited(lines: seq<string>, ruleName: string, symptom: string, i: nat)
    requires i < |lines| && HasArrow(lines[i]) && Mentions(lines[i], ruleName)
    ensures Expected(lines, ruleName, symptom)[i] == Edited(lines[i], symptom)
  {
    var ms := MentionFlags(lines, ruleName);
    var hs := ArrowFlags(lines);
    assert ms[i] && NoArrowBetween(hs, i, i);
  }

  /** The edit touches at most one arrow line per mention: between two edited
      lines there is always a fresh mention. */
  lemma EditsSeparatedByMention(lines: seq<string>, ruleName: string, symptom: string, a: nat, b: nat)
    requires a < b < |lines|
    requires Expected(lines, ruleName, symptom)[a] != lines[a]
    requires Expected(lines, ruleName, symptom)[b] != lines[b]
    ensures exists j | a < j <= b :: Mentions(lines[j], ruleName)
  {
    var ms := MentionFlags(lines, ruleName);
    var hs := ArrowFlags(lines);
    assert hs[a] && Armed(ms, hs, b);
    var j :| 0 <= j <= b && j < |ms| && ms[j] && NoArrowBetween(hs, j, b);
    assert a < j;
    assert Mentions(lines[j], ruleName);
  }
}

=== FILE: matcher.dfy ===
/** The interactive matcher of the first diagnosis service: a disease stays
    possible while its required symptoms include everything selected so far,
    and the diagnosis is final once some possible disease requires exactly the
    selection. */
module Matcher {
  import opened Wrappers
  import opened Rules
  import Order

  /** `load_rules`: the rule file's text, or the empty text when it is missing. */
  function LoadRules(file: Option<string>): (t: string)
    ensures file.None? ==> t == ""
    ensures file.Some? ==> t == file.value
  {
    file.GetOr("")
  }

  /** The diseases of the knowledge base, in dictionary order. */
  function Diseases(kb: KnowledgeBase): (ds: seq<string>)
    ensures |ds| == |kb|
    ensures forall i | 0 <= i < |kb| :: ds[i] == kb[i].disease
  {
    seq(|kb|, i requires 0 <= i < |kb| => kb[i].disease)
  }

  /** `suggest_diseases`: the diseases, in dictionary order, whose required
      symptoms include every selected symptom. */
  function Suggest(kb: KnowledgeBase, sel: set<string>): (r: seq<string>)
    ensures |r| <= |kb|
    ensures forall d :: d in r <==> exists i | 0 <= i < |kb| :: kb[i].disease == d && sel <= kb[i].required
    ensures forall i | 0 <= i < |r| :: r[i] in ToMap(kb)
  {
    if |kb| == 0 then []
    else
      var t := Suggest(kb[1..], sel);
      assert forall d :: d in t <==> exists i | 1 <= i < |kb| :: kb[i].disease == d && sel <= kb[i].required by {
        forall d | d in t ensures exists i | 1 <= i < |kb| :: kb[i].disease == d && sel <= kb[i].required {
          var j :| 0 <= j < |kb| - 1 && kb[1..][j].disease == d && sel <= kb[1..][j].required;
          assert kb[j + 1] == kb[1..][j];
        }
        forall d | (exists i | 1 <= i < |kb| :: kb[i].disease == d && sel <= kb[i].required) ensures d in t {
          var i :| 1 <= i < |kb| && kb[i].disease == d && sel <= kb[i].required;
          assert kb[1..][i - 1] == kb[i];
        }
      }
      if sel <= kb[0].required then [kb[0].disease] + t else t
  }

  /** In dictionary terms: a disease is suggested exactly when it is known and
      its required set includes the selection. */
  lemma SuggestSpec(kb: KnowledgeBase, sel: set<string>, d: string)
    requires WellFormed(kb)
    ensures d in Suggest(kb, sel) <==> d in ToMap(kb) && sel <= ToMap(kb)[d]
  {
  }

  /** Selecting more symptoms never brings a disease back. */
  lemma SuggestAntitone(kb: KnowledgeBase, s1: set<string>, s2: set<string>, d: string)
    requires WellFormed(kb) && s1 <= s2
    ensures d in Suggest(kb, s2) ==> d in Suggest(kb, s1)
  {
    SuggestSpec(kb, s1, d);
    SuggestSpec(kb, s2, d);
  }

  /** With nothing selected every disease is possible, in dictionary order. */
  lemma {:induction false} SuggestNothingSelected(kb: KnowledgeBase)
    ensures Suggest(kb, {}) == Diseases(kb)
  {
    if |kb| > 0 {
      SuggestNothingSelected(kb[1..]);
      assert Diseases(kb) == [kb[0].disease] + Diseases(kb[1..]);
    }
  }

  /** The union of the required sets of the listed diseases (unknown names add nothing). */
  function Relevant(kb: KnowledgeBase, ds: seq<string>): (r: set<string>)
    ensures forall s :: s in r <==> exists i | 0 <= i < |ds| :: ds[i] in ToMap(kb) && s in ToMap(kb)[ds[i]]
  {
    if |ds| == 0 then {}
    else
      var init := ds[..|ds| - 1];
      var last := ds[|ds| - 1];
      UnionStep(ToMap(kb), ds, init, Relevant(kb, init));
      Relevant(kb, init) + (if last in ToMap(kb) then ToMap(kb)[last] else {})
  }

  /** Adding the last listed name's set to the union over the others. */
  lemma UnionStep(m: map<string, set<string>>, ds: seq<string>, init: seq<string>, prev: set<string>)
    requires |ds| > 0 && init == ds[..|ds| - 1]
    requires forall s :: s in prev <==> exists i | 0 <= i < |init| :: init[i] in m && s in m[init[i]]
    ensures var last := ds[|ds| - 1]; var r := prev + (if last in m then m[last] else {});
      forall s :: s in r <==> exists i | 0 <= i < |ds| :: ds[i] in m && s in m[ds[i]]
  {
    var last := ds[|ds| - 1];
    var r := prev + (if last in m then m[last] else {});
    forall s | s in prev ensures exists i | 0 <= i < |ds| :: ds[i] in m && s in m[ds[i]] {
      var i :| 0 <= i < |init| && init[i] in m && s in m[init[i]];
      assert ds[i] == init[i];
    }
    forall s | (exists i | 0 <= i < |ds| :: ds[i] in m && s in m[ds[i]]) ensures s in r {
      var i :| 0 <= i < |ds| && ds[i] in m && s in m[ds[i]];
      if i < |ds| - 1 {
        assert init[i] == ds[i];
      }
    }
  }

  /** `filter_symptoms`: the symptoms of the possible diseases that are not yet
      selected, sorted; nothing when there is no possible disease. */
  method FilterSymptoms(kb: KnowledgeBase, ds: seq<string>, sel: set<string>) returns (r: seq<string>)
    requires forall i | 0 <= i < |ds| :: ds[i] in ToMap(kb)
    ensures |ds| == 0 ==> r == []
    ensures Order.StrictlySorted(r)
    ensures Order.Elems(r) == Relevant(kb, ds) - sel
  {
    if |ds| == 0 {
      return [];
    }
    var relevant: set<string> := {};
    for i := 0 to |ds|
      invariant relevant == Relevant(kb, ds[..i])
    {
      assert ds[..i + 1][..i] == ds[..i];
      relevant := relevant + ToMap(kb)[ds[i]];
    }
    assert ds[..|ds|] == ds;
    r := Order.SortSet(relevant - sel);
  }

  /** `get_initial_symptoms`: every symptom some disease requires, sorted. */
  method InitialSymptoms(kb: KnowledgeBase) returns (r: seq<string>)
    ensures Order.StrictlySorted(r)
    ensures forall s :: s in r <==> exists i | 0 <= i < |kb| :: s in kb[i].required
  {
    var all: set<string> := {};
    for i := 0 to |kb|
      invariant forall s :: s in all <==> exists j | 0 <= j < i :: s in kb[j].required
    {
      all := all + kb[i].required;
    }
    r := Order.SortSet(all);
    assert forall s :: s in r <==> s in Order.Elems(r);
  }

  /** The diseases among `ds`, in order, whose required symptoms are all selected. */
  function Complete(kb: KnowledgeBase, ds: seq<string>, sel: set<string>): (r: seq<string>)
    requires forall i | 0 <= i < |ds| :: ds[i] in ToMap(kb)
    ensures |r| <= |ds|
    ensures forall d :: d in r <==> d in ds && ToMap(kb)[d] <= sel
  {
    if |ds| == 0 then []
    else
      var t := Complete(kb, ds[1..], sel);
      assert forall d :: d in ds <==> d == ds[0] || d in ds[1..];
      if ToMap(kb)[ds[0]] <= sel then [ds[0]] + t else t
  }

  /** `[s for s in xs if s not in sel]`. */
  function Unselected(xs: seq<string>, sel: set<string>): (r: seq<string>)
    ensures forall s :: s in r <==> s in xs && s !in sel
    ensures (forall i | 0 <= i < |xs| :: xs[i] !in sel) ==> r == xs
  {
    if |xs| == 0 then []
    else if xs[0] in sel then Unselected(xs[1..], sel)
    else [xs[0]] + Unselected(xs[1..], sel)
  }

  /** The response of one `/api/diagnose` call. */
  datatype Diagnosis = Diagnosis(
    possible: seq<string>,
    remaining: seq<string>,
    isFinal: bool,
    selected: set<string>,
    matched: nat,
    perDisease: map<string, set<string>>)

  /** `diagnose`: a diagnosis is final exactly when some disease requires exactly
      the selection; it then lists only such diseases, in the order of the
      possible ones, and offers no further symptom. Otherwise every possible disease is listed and the offered
      symptoms are their unselected symptoms. */
  method Diagnose(kb: KnowledgeBase, sel: set<string>) returns (d: Diagnosis)
    requires WellFormed(kb)
    ensures d.isFinal <==> exists x :: x in ToMap(kb) && ToMap(kb)[x] == sel
    ensures d.isFinal ==> d.remaining == []
    ensures d.isFinal ==> forall x :: x in d.possible <==> x in ToMap(kb) && ToMap(kb)[x] == sel
    ensures d.isFinal ==> d.possible == Complete(kb, Suggest(kb, sel), sel)
    ensures !d.isFinal ==> d.possible == Suggest(kb, sel)
    ensures !d.isFinal ==> Order.StrictlySorted(d.remaining)
    ensures !d.isFinal ==> Order.Elems(d.remaining) == Relevant(kb, Suggest(kb, sel)) - sel
    ensures d.selected == sel && d.matched == |sel|
    ensures forall x :: x in d.perDisease <==> x in Suggest(kb, sel)
    ensures forall x | x in d.perDisease :: d.perDisease[x] == ToMap(kb)[x]
  {
    var possible := Suggest(kb, sel);
    forall i | 0 <= i < |possible| ensures possible[i] in ToMap(kb) {
      SuggestSpec(kb, sel, possible[i]);
    }
    var finals := Complete(kb, possible, sel);
    FinalDiseases(kb, sel);
    var filtered: seq<string> := [];
    if |finals| == 0 {
      var remaining := FilterSymptoms(kb, possible, sel);
      filtered := Unselected(remaining, sel);
    }
    var per := map x | x in Order.Elems(possible) :: ToMap(kb)[x];
    d := Diagnosis(if |finals| > 0 then finals else possible, filtered, |finals| > 0, sel, |sel|, per);
  }

  /** The complete diseases among the possible ones are exactly those whose
      required set is the selection, so there are some exactly when one
      disease requires exactly the selection. */
  lemma FinalDiseases(kb: KnowledgeBase, sel: set<string>)
    requires WellFormed(kb)
    ensures forall x :: x in Complete(kb, Suggest(kb, sel), sel) <==> x in ToMap(kb) && ToMap(kb)[x] == sel
    ensures |Complete(kb, Suggest(kb, sel), sel)| > 0 <==> exists x :: x in ToMap(kb) && ToMap(kb)[x] == sel
  {
    var finals := Complete(kb, Suggest(kb, sel), sel);
    forall x ensures x in finals <==> x in ToMap(kb) && ToMap(kb)[x] == sel {
      SuggestSpec(kb, sel, x);
    }
    if |finals| > 0 {
      assert finals[0] in finals;
    }
  }

  /** Every symptom offered next keeps at least one disease possible once it is
      selected: the questioning never runs into a dead end. */
  lemma RemainingKeepsCandidates(kb: KnowledgeBase, sel: set<string>, s: string)
    requires WellFormed(kb)
    requires s in Relevant(kb, Suggest(kb, sel)) - sel
    ensures |Suggest(kb, sel + {s})| > 0
  {
    var ds := Suggest(kb, sel);
    var i :| 0 <= i < |ds| && ds[i] in ToMap(kb) && s in ToMap(kb)[ds[i]];
    SuggestSpec(kb, sel, ds[i]);
    SuggestSpec(kb, sel + {s}, ds[i]);
  }
}

=== FILE: names.dfy ===
/** The identifier normaliser: free text to a stable key and back to a display name. */
module Names {
  import opened Strings

  /** `s.strip().replace(' ', '_').lower()`: the key every writer of the rule file,
      the vocabulary and the metadata files uses. */
  function Normalize(s: string): (k: string)
    ensures ' ' !in k
    ensures forall i | 0 <= i < |k| :: !IsUpper(k[i])
    ensures Strip(k) == k
    ensures |k| <= |s|
  {
    var t := Strip(s);
    KeyShape(t);
    Lower(ReplaceChar(t, ' ', '_'))
  }

  /** Underscores for spaces, then lower case, on text with no blank ends. */
  lemma KeyShape(t: string)
    requires t == "" || (!IsSpace(t[0]) && !IsSpace(t[|t| - 1]))
    ensures var k := Lower(ReplaceChar(t, ' ', '_'));
      ' ' !in k && (forall i | 0 <= i < |k| :: !IsUpper(k[i])) && Strip(k) == k
  {
    var u := ReplaceChar(t, ' ', '_');
    var k := Lower(u);
    KeyNoSpace(u, k);
    KeyEnds(t, u, k);
  }

  lemma KeyNoSpace(u: string, k: string)
    requires ' ' !in u
    requires |k| == |u| && forall i | 0 <= i < |u| :: k[i] == ToLower(u[i])
    ensures ' ' !in k
  {
    forall i | 0 <= i < |k| ensures k[i] != ' ' {
      assert u[i] != ' ';
    }
  }

  lemma KeyEnds(t: string, u: string, k: string)
    requires t == "" || (!IsSpace(t[0]) && !IsSpace(t[|t| - 1]))
    requires |u| == |t| && forall i | 0 <= i < |t| :: u[i] == (if t[i] == ' ' then '_' else t[i])
    requires |k| == |u| && forall i | 0 <= i < |u| :: k[i] == ToLower(u[i])
    ensures Strip(k) == k
  {
    if k != "" {
      assert k[0] == ToLower(u[0]) && k[|k| - 1] == ToLower(u[|u| - 1]);
    }
    StripNoop(k);
  }

  /** `s.lower().strip().replace(" ", "_")`: how the metadata readers turn a name
      into a key. */
  function InfoKey(s: string): (k: string)
    ensures ' ' !in k
    ensures |k| <= |s|
  {
    ReplaceChar(Strip(Lower(s)), ' ', '_')
  }

  /** `key.replace('_', ' ')`: the name written into printouts and metadata records. */
  function Spaced(k: string): string {
    ReplaceChar(k, '_', ' ')
  }

  /** `key.replace('_', ' ').title()`: the name shown to users. */
  function Display(k: string): (r: string)
    ensures |r| == |k|
    ensures '_' !in r
  {
    var t := Spaced(k);
    TitleChars(t, false);
    Title(t)
  }

  lemma {:induction false} TrimStartLower(s: string)
    ensures TrimStart(Lower(s)) == Lower(TrimStart(s))
    decreases |s|
  {
    if |s| > 0 {
      assert Lower(s)[1..] == Lower(s[1..]);
      TrimStartLower(s[1..]);
    }
  }

  lemma {:induction false} TrimEndLower(s: string)
    ensures TrimEnd(Lower(s)) == Lower(TrimEnd(s))
    decreases |s|
  {
    if |s| > 0 {
      assert Lower(s)[..|s| - 1] == Lower(s[..|s| - 1]);
      TrimEndLower(s[..|s| - 1]);
    }
  }

  lemma StripLower(s: string)
    ensures Strip(Lower(s)) == Lower(Strip(s))
  {
    TrimStartLower(s);
    TrimEndLower(TrimStart(s));
  }

  lemma LowerReplaceSpace(t: string)
    ensures ReplaceChar(Lower(t), ' ', '_') == Lower(ReplaceChar(t, ' ', '_'))
  {
  }

  /** The metadata readers' key and the writers' key agree on every input, so a
      record written under `Normalize(name)` is found again by `InfoKey(name)`. */
  lemma InfoKeyIsNormalize(s: string)
    ensures InfoKey(s) == Normalize(s)
  {
    StripLower(s);
    LowerReplaceSpace(Strip(s));
  }

  /** Normalising a key again changes nothing. */
  lemma NormalizeIdempotent(s: string)
    ensures Normalize(Normalize(s)) == Normalize(s)
  {
    var k := Normalize(s);
    assert ReplaceChar(k, ' ', '_') == k;
    assert Lower(k) == k;
  }
}

=== FILE: order.dfy ===
/** Python's ordering of `str` values and `sorted(...)` of a set of strings. */
module Order {

  /** `a < b` on Python strings: lexicographic by code point, where a proper
      prefix comes first. */
  predicate Less(a: string, b: string)
    decreases |a|
  {
    |b| > 0 && (|a| == 0 || a[0] < b[0] || (a[0] == b[0] && Less(a[1..], b[1..])))
  }

  lemma {:induction false} LessIrreflexive(a: string)
    ensures !Less(a, a)
    decreases |a|
  {
    if |a| > 0 {
      LessIrreflexive(a[1..]);
    }
  }

  lemma {:induction false} LessTransitive(a: string, b: string, c: string)
    requires Less(a, b) && Less(b, c)
    ensures Less(a, c)
    decreases |a|
  {
    if |a| > 0 && a[0] == b[0] && b[0] == c[0] {
      LessTransitive(a[1..], b[1..], c[1..]);
    }
  }

  lemma {:induction false} LessTotal(a: string, b: string)
    requires a != b
    ensures Less(a, b) || Less(b, a)
    decreases |a|
  {
    if |a| > 0 && |b| > 0 && a[0] == b[0] {
      assert a == [a[0]] + a[1..] && b == [b[0]] + b[1..];
      LessTotal(a[1..], b[1..]);
    }
  }

  /** Strictly increasing, hence also free of duplicates. */
  predicate StrictlySorted(s: seq<string>) {
    forall i, j | 0 <= i < j < |s| :: Less(s[i], s[j])
  }

  function Elems(s: seq<string>): set<string> {
    set x | x in s
  }

  /** Everything in a strictly sorted list is larger than anything smaller than its head. */
  lemma BelowHead(x: string, s: seq<string>)
    requires StrictlySorted(s) && |s| > 0 && Less(x, s[0])
    ensures forall j | 0 <= j < |s| :: Less(x, s[j])
  {
    forall j | 0 < j < |s|
      ensures Less(x, s[j])
    {
      LessTransitive(x, s[0], s[j]);
    }
  }

  lemma LessAsymmetric(a: string, b: string)
    ensures !(Less(a, b) && Less(b, a))
  {
    LessIrreflexive(a);
    if Less(a, b) && Less(b, a) {
      LessTransitive(a, b, a);
    }
  }

  /** The head of a strictly sorted list is below everything in its tail. */
  lemma TailAbove(s: seq<string>)
    requires StrictlySorted(s) && |s| > 0
    ensures forall y | y in Elems(s[1..]) :: Less(s[0], y)
  {
    forall y | y in Elems(s[1..])
      ensures Less(s[0], y)
    {
      var k :| 0 <= k < |s| - 1 && s[1..][k] == y;
      assert s[k + 1] == y;
    }
  }

  lemma ConsSorted(h: string, t: seq<string>)
    requires StrictlySorted(t)
    requires forall y | y in Elems(t) :: Less(h, y)
    ensures StrictlySorted([h] + t)
  {
    var r := [h] + t;
    forall i, j | 0 <= i < j < |r|
      ensures Less(r[i], r[j])
    {
      if i == 0 {
        assert r[j] == t[j - 1];
        assert t[j - 1] in Elems(t);
      } else {
        assert r[i] == t[i - 1] && r[j] == t[j - 1];
      }
    }
  }

  /** Adds `x` to a strictly sorted list unless it is already there. */
  function Insert(x: string, s: seq<string>): (r: seq<string>)
    requires StrictlySorted(s)
    ensures StrictlySorted(r)
    ensures Elems(r) == Elems(s) + {x}
    ensures x in Elems(s) ==> r == s
    ensures x !in Elems(s) ==> |r| == |s| + 1
  {
    if |s| == 0 then [x]
    else if x == s[0] then s
    else if Less(x, s[0]) then
      InsertFirst(x, s);
      [x] + s
    else
      LessTotal(x, s[0]);
      var r' := Insert(x, s[1..]);
      InsertAfterHead(x, s, r');
      [s[0]] + r'
  }

  lemma InsertFirst(x: string, s: seq<string>)
    requires StrictlySorted(s) && |s| > 0 && Less(x, s[0])
    ensures StrictlySorted([x] + s)
    ensures x !in Elems(s) && Elems([x] + s) == Elems(s) + {x}
  {
    BelowHead(x, s);
    LessIrreflexive(x);
    ConsSorted(x, s);
  }

  /** The head stays first when `x` goes somewhere into the tail. */
  lemma InsertAfterHead(x: string, s: seq<string>, t: seq<string>)
    requires StrictlySorted(s) && |s| > 0 && Less(s[0], x)
    requires StrictlySorted(t) && Elems(t) == Elems(s[1..]) + {x}
    requires x in Elems(s[1..]) ==> t == s[1..]
    requires x !in Elems(s[1..]) ==> |t| == |s[1..]| + 1
    ensures StrictlySorted([s[0]] + t)
    ensures Elems([s[0]] + t) == Elems(s) + {x}
    ensures x in Elems(s) ==> [s[0]] + t == s
    ensures x !in Elems(s) ==> |[s[0]] + t| == |s| + 1
  {
    TailAbove(s);
    LessIrreflexive(x);
    assert Elems(s) == {s[0]} + Elems(s[1..]) by {
      assert s == [s[0]] + s[1..];
    }
    assert Elems([s[0]] + t) == {s[0]} + Elems(t);
    ConsSorted(s[0], t);
  }

  /** A strictly sorted list has as many entries as distinct elements. */
  lemma {:induction false} SortedCard(s: seq<string>)
    requires StrictlySorted(s)
    ensures |Elems(s)| == |s|
  {
    if |s| > 0 {
      LessIrreflexive(s[0]);
      assert Elems(s) == {s[0]} + Elems(s[1..]) by {
        assert s == [s[0]] + s[1..];
      }
      assert s[0] !in Elems(s[1..]);
      SortedCard(s[1..]);
    }
  }

  /** Two strictly sorted lists with the same elements are the same list: the
      output of `sorted(set)` is determined by the set. */
  lemma {:induction false} SortedUnique(a: seq<string>, b: seq<string>)
    requires StrictlySorted(a) && StrictlySorted(b)
    requires Elems(a) == Elems(b)
    ensures a == b
  {
    assert |a| > 0 ==> a[0] in Elems(a);
    assert |b| > 0 ==> b[0] in Elems(b);
    if |a| > 0 {
      TailAbove(a);
      TailAbove(b);
      assert Elems(a) == {a[0]} + Elems(a[1..]) by {
        assert a == [a[0]] + a[1..];
      }
      assert Elems(b) == {b[0]} + Elems(b[1..]) by {
        assert b == [b[0]] + b[1..];
      }
      LessAsymmetric(a[0], b[0]);
      assert a[0] == b[0];
      LessIrreflexive(a[0]);
      assert Elems(a[1..]) == Elems(b[1..]);
      SortedUnique(a[1..], b[1..]);
      assert a == [a[0]] + a[1..] && b == [b[0]] + b[1..];
    }
  }

  /** `sorted(s)` for a set of strings. */
  method SortSet(s: set<string>) returns (r: seq<string>)
    ensures StrictlySorted(r)
    ensures Elems(r) == s
    ensures |r| == |s|
  {
    r := [];
    var rest := s;
    while rest != {}
      invariant StrictlySorted(r)
      invariant Elems(r) + rest == s
      invariant Elems(r) !! rest
      invariant |r| + |rest| == |s|
      decreases rest
    {
      var x :| x in rest;
      r := Insert(x, r);
      rest := rest - {x};
    }
  }
}

=== FILE: ranked_matcher.dfy ===
/** The ranked matcher of the second diagnosis service: the same candidate
    filter, plus a match percentage per candidate, candidates listed by
    decreasing percentage, and a diagnosis that is final once no candidate
    has an unselected symptom left. Percentages are exact rationals. */
module RankedMatcher {
  import opened Rules
  import Order
  import Strings
  import Matcher

  /** One entry of `calculate_disease_matches`. */
  datatype Match = Match(disease: string, percentage: real, matched: nat, total: nat)

  /** The match of one disease: how many of its required symptoms are selected,
      as a count and as a percentage of its required symptoms (0 when it
      requires none). */
  function MatchOf(kb: KnowledgeBase, d: string, sel: set<string>): (m: Match)
    requires d in ToMap(kb)
    ensures m.disease == d && m.total == |ToMap(kb)[d]|
    ensures m.matched == |sel * ToMap(kb)[d]| && m.matched <= m.total
    ensures 0.0 <= m.percentage <= 100.0
    ensures m.percentage == 100.0 <==> m.total > 0 && ToMap(kb)[d] <= sel
    ensures m.total > 0 ==> m.percentage * (m.total as real) == (m.matched as real) * 100.0
  {
    var req := ToMap(kb)[d];
    var matched := |sel * req|;
    var total := |req|;
    MatchedCount(req, sel);
    var p := if total > 0 then Percent(matched, total) else 0.0;
    Match(d, p, matched, total)
  }

  /** `(matched / total) * 100`, computed exactly. */
  function Percent(matched: nat, total: nat): (p: real)
    requires 0 < total && matched <= total
    ensures 0.0 <= p <= 100.0
    ensures p * (total as real) == (matched as real) * 100.0
    ensures p == 100.0 <==> matched == total
  {
    var q := (matched as real) / (total as real);
    assert q * (total as real) == matched as real;
    assert q <= 1.0 by {
      if q > 1.0 {
        MulGreater(q, 1.0, total as real);
      }
    }
    q * 100.0
  }

  lemma MulGreater(a: real, b: real, t: real)
    requires a > b && t > 0.0
    ensures a * t > b * t
  {
  }

  /** The selected required symptoms are at most all of them, and all of them
      exactly when every required symptom is selected. */
  lemma MatchedCount(req: set<string>, sel: set<string>)
    ensures |sel * req| <= |req|
    ensures |sel * req| == |req| <==> req <= sel
  {
    SubsetCard(sel * req, req);
    if |sel * req| == |req| {
      assert |req - sel * req| == 0;
      assert req - sel * req == {};
    }
  }

  lemma SubsetCard(a: set<string>, b: set<string>)
    requires a <= b
    ensures |b| == |a| + |b - a|
  {
    assert b == a + (b - a);
    assert a !! (b - a);
  }

  /** The matches of the listed diseases, in the listed order. */
  function Matches(kb: KnowledgeBase, ds: seq<string>, sel: set<string>): (ms: seq<Match>)
    requires forall i | 0 <= i < |ds| :: ds[i] in ToMap(kb)
    ensures |ms| == |ds|
    ensures forall i | 0 <= i < |ds| :: ms[i] == MatchOf(kb, ds[i], sel)
  {
    seq(|ds|, i requires 0 <= i < |ds| => MatchOf(kb, ds[i], sel))
  }

  predicate Descending(ms: seq<Match>) {
    forall i, j | 0 <= i < j < |ms| :: ms[i].percentage >= ms[j].percentage
  }

  /** The entries with percentage `p`, in order. */
  function WithPercentage(ms: seq<Match>, p: real): (r: seq<Match>)
    ensures |r| <= |ms|
  {
    if |ms| == 0 then []
    else (if ms[0].percentage == p then [ms[0]] else []) + WithPercentage(ms[1..], p)
  }

  lemma {:induction false} WithPercentageAppend(a: seq<Match>, b: seq<Match>, p: real)
    ensures WithPercentage(a + b, p) == WithPercentage(a, p) + WithPercentage(b, p)
    decreases |a|
  {
    if |a| > 0 {
      assert (a + b)[1..] == a[1..] + b;
      assert (a + b)[0] == a[0];
      WithPercentageAppend(a[1..], b, p);
    } else {
      assert a + b == b;
    }
  }

  /** Places `m` after every entry whose percentage is at least its own. */
  function InsertDesc(m: Match, s: seq<Match>): (r: seq<Match>)
    requires Descending(s)
    ensures Descending(r)
    ensures multiset(r) == multiset(s) + multiset{m}
  {
    if |s| == 0 then [m]
    else if s[0].percentage >= m.percentage then
      var t := InsertDesc(m, s[1..]);
      KeepHead(m, s, t);
      [s[0]] + t
    else
      PutFirst(m, s);
      [m] + s
  }

  /** The head of a descending list stays in front of the rest with `m` inserted. */
  lemma KeepHead(m: Match, s: seq<Match>, t: seq<Match>)
    requires Descending(s) && |s| > 0 && s[0].percentage >= m.percentage
    requires Descending(t) && multiset(t) == multiset(s[1..]) + multiset{m}
    ensures Descending([s[0]] + t)
    ensures multiset([s[0]] + t) == multiset(s) + multiset{m}
  {
    assert s == [s[0]] + s[1..];
    forall i | 0 <= i < |t| ensures s[0].percentage >= t[i].percentage {
      assert t[i] in multiset(t);
      if t[i] != m {
        assert t[i] in multiset(s[1..]);
        var j :| 0 <= j < |s| - 1 && s[1..][j] == t[i];
        assert s[j + 1] == t[i];
      }
    }
    var r := [s[0]] + t;
    forall i, j | 0 <= i < j < |r| ensures r[i].percentage >= r[j].percentage {
      assert r[j] == t[j - 1];
      if i > 0 {
        assert r[i] == t[i - 1];
      }
    }
  }

  /** An entry above the head of a descending list goes first. */
  lemma PutFirst(m: Match, s: seq<Match>)
    requires Descending(s) && |s| > 0 && s[0].percentage < m.percentage
    ensures Descending([m] + s)
  {
    var r := [m] + s;
    forall i, j | 0 <= i < j < |r| ensures r[i].percentage >= r[j].percentage {
      assert r[j] == s[j - 1];
      if i > 0 {
        assert r[i] == s[i - 1];
      }
    }
  }

  /** Inserting `m` appends it to the entries of its own percentage and leaves
      every other percentage's entries alone. */
  lemma {:induction false} InsertDescStable(m: Match, s: seq<Match>, p: real)
    requires Descending(s)
    ensures WithPercentage(InsertDesc(m, s), p)
         == WithPercentage(s, p) + (if m.percentage == p then [m] else [])
    decreases |s|
  {
    if |s| == 0 {
      WithPercentageCons(m, [], p);
    } else if s[0].percentage >= m.percentage {
      var t := InsertDesc(m, s[1..]);
      InsertDescStable(m, s[1..], p);
      StableKeep(m, s, t, p);
    } else {
      StablePutFirst(m, s, p);
    }
  }

  lemma WithPercentageCons(x: Match, t: seq<Match>, p: real)
    ensures WithPercentage([x] + t, p) == (if x.percentage == p then [x] else []) + WithPercentage(t, p)
  {
    assert ([x] + t)[1..] == t;
  }

  /** The head stays in front of the rest, which already had `m` inserted. */
  lemma StableKeep(m: Match, s: seq<Match>, t: seq<Match>, p: real)
    requires |s| > 0
    requires WithPercentage(t, p) == WithPercentage(s[1..], p) + (if m.percentage == p then [m] else [])
    ensures WithPercentage([s[0]] + t, p) == WithPercentage(s, p) + (if m.percentage == p then [m] else [])
  {
    var head := if s[0].percentage == p then [s[0]] else [];
    WithPercentageCons(s[0], t, p);
    Strings.AppendAssoc(head, WithPercentage(s[1..], p), if m.percentage == p then [m] else []);
  }

  /** `m` goes first only when it beats every entry, so none shares its percentage. */
  lemma StablePutFirst(m: Match, s: seq<Match>, p: real)
    requires Descending(s) && |s| > 0 && s[0].percentage < m.percentage
    ensures WithPercentage([m] + s, p) == WithPercentage(s, p) + (if m.percentage == p then [m] else [])
  {
    WithPercentageCons(m, s, p);
    if m.percentage == p {
      assert forall i | 0 <= i < |s| :: s[i].percentage < p by {
        forall i | 0 <= i < |s| ensures s[i].percentage < p {
          if i > 0 { assert s[0].percentage >= s[i].percentage; }
        }
      }
      NoneWithPercentage(s, p);
    }
  }

  lemma {:induction false} NoneWithPercentage(s: seq<Match>, p: real)
    requires forall i | 0 <= i < |s| :: s[i].percentage < p
    ensures WithPercentage(s, p) == []
    decreases |s|
  {
    if |s| > 0 {
      NoneWithPercentage(s[1..], p);
    }
  }

  /** `sorted(matches, key=percentage, reverse=True)`: Python's sort is stable,
      also when reversed, so entries with equal percentages keep their order. */
  function SortDesc(ms: seq<Match>): (r: seq<Match>)
    ensures Descending(r)
    ensures multiset(r) == multiset(ms)
  {
    if |ms| == 0 then []
    else
      var init := ms[..|ms| - 1];
      assert ms == init + [ms[|ms| - 1]];
      InsertDesc(ms[|ms| - 1], SortDesc(init))
  }

  /** Stability: for every percentage, the entries with that percentage come out
      in the order they went in. */
  lemma {:induction false} SortDescStable(ms: seq<Match>, p: real)
    ensures WithPercentage(SortDesc(ms), p) == WithPercentage(ms, p)
    decreases |ms|
  {
    if |ms| > 0 {
      var init := ms[..|ms| - 1];
      var last := ms[|ms| - 1];
      var tailPart := if last.percentage == p then [last] else [];
      calc {
        WithPercentage(SortDesc(ms), p);
        WithPercentage(InsertDesc(last, SortDesc(init)), p);
        { InsertDescStable(last, SortDesc(init), p); }
        WithPercentage(SortDesc(init), p) + tailPart;
        { SortDescStable(init, p); }
        WithPercentage(init, p) + tailPart;
        { WithPercentageAppend(init, [last], p); assert [last][1..] == []; }
        WithPercentage(init + [last], p);
        { assert ms == init + [last]; }
        WithPercentage(ms, p);
      }
    }
  }

  /** `filter_remaining_symptoms`: the union over the possible diseases of their
      unselected symptoms, sorted; nothing when there is no possible disease. */
  method FilterRemaining(kb: KnowledgeBase, ds: seq<string>, sel: set<string>) returns (r: seq<string>)
    requires forall i | 0 <= i < |ds| :: ds[i] in ToMap(kb)
    ensures |ds| == 0 ==> r == []
    ensures Order.StrictlySorted(r)
    ensures Order.Elems(r) == Matcher.Relevant(kb, ds) - sel
  {
    if |ds| == 0 {
      return [];
    }
    var relevant: set<string> := {};
    for i := 0 to |ds|
      invariant relevant == Matcher.Relevant(kb, ds[..i]) - sel
    {
      assert ds[..i + 1][..i] == ds[..i];
      relevant := relevant + (ToMap(kb)[ds[i]] - sel);
    }
    assert ds[..|ds|] == ds;
    r := Order.SortSet(relevant);
  }

  /** Both services offer the same next symptoms for the same candidates:
      removing the selection per disease or from the union gives the same
      sorted list. */
  lemma SameRemaining(kb: KnowledgeBase, ds: seq<string>, sel: set<string>, r1: seq<string>, r2: seq<string>)
    requires Order.StrictlySorted(r1) && Order.Elems(r1) == Matcher.Relevant(kb, ds) - sel
    requires Order.StrictlySorted(r2) && Order.Elems(r2) == Matcher.Relevant(kb, ds) - sel
    ensures r1 == r2
  {
    Order.SortedUnique(r1, r2);
  }

  /** `get_all_symptoms_from_rules` is the first service's initial symptom list. */
  method AllSymptoms(kb: KnowledgeBase) returns (r: seq<string>)
    ensures Order.StrictlySorted(r)
    ensures forall s :: s in r <==> exists i | 0 <= i < |kb| :: s in kb[i].required
  {
    r := Matcher.InitialSymptoms(kb);
  }

  /** The disease of each match, in the matches' order. */
  function DiseasesOf(ms: seq<Match>): (ds: seq<string>)
    ensures |ds| == |ms|
    ensures forall i | 0 <= i < |ms| :: ds[i] == ms[i].disease
  {
    if |ms| == 0 then [] else [ms[0].disease] + DiseasesOf(ms[1..])
  }

  /** The response of one `/api/diagnose` call of the second service. */
  datatype Diagnosis = Diagnosis(
    possible: seq<string>,
    remaining: seq<string>,
    isFinal: bool,
    matched: nat,
    matches: seq<Match>,
    perDisease: map<string, set<string>>)

  /** Every listed candidate contains the selection, so each of its matches
      counts the whole selection. */
  lemma MatchedWholeSelection(kb: KnowledgeBase, sel: set<string>, sorted: seq<Match>)
    requires WellFormed(kb)
    requires multiset(sorted) == multiset(Matches(kb, Matcher.Suggest(kb, sel), sel))
    ensures forall i | 0 <= i < |sorted| :: sorted[i].matched == |sel|
  {
    var possible := Matcher.Suggest(kb, sel);
    var ms := Matches(kb, possible, sel);
    forall i | 0 <= i < |sorted| ensures sorted[i].matched == |sel| {
      assert sorted[i] in multiset(ms);
      var j :| 0 <= j < |ms| && ms[j] == sorted[i];
      Matcher.SuggestSpec(kb, sel, possible[j]);
      assert sel * ToMap(kb)[possible[j]] == sel;
    }
  }

  /** For candidates that each contain the selection, no symptom is left to
      offer exactly when every candidate requires nothing beyond the selection. */
  lemma NothingLeftIff(kb: KnowledgeBase, ds: seq<string>, sel: set<string>)
    requires forall i | 0 <= i < |ds| :: ds[i] in ToMap(kb) && sel <= ToMap(kb)[ds[i]]
    ensures Matcher.Relevant(kb, ds) - sel == {}
        <==> forall i | 0 <= i < |ds| :: ToMap(kb)[ds[i]] == sel
  {
    if Matcher.Relevant(kb, ds) - sel == {} {
      NothingLeftAllEqual(kb, ds, sel);
    }
    if forall i | 0 <= i < |ds| :: ToMap(kb)[ds[i]] == sel {
      RelevantWithin(kb, ds, sel);
    }
  }

  lemma NothingLeftAllEqual(kb: KnowledgeBase, ds: seq<string>, sel: set<string>)
    requires forall i | 0 <= i < |ds| :: ds[i] in ToMap(kb) && sel <= ToMap(kb)[ds[i]]
    requires Matcher.Relevant(kb, ds) - sel == {}
    ensures forall i | 0 <= i < |ds| :: ToMap(kb)[ds[i]] == sel
  {
    var r := Matcher.Relevant(kb, ds);
    forall i | 0 <= i < |ds| ensures ToMap(kb)[ds[i]] == sel {
      RequiredInRelevant(kb, ds, i);
      Squeezed(ToMap(kb)[ds[i]], r, sel);
    }
  }

  /** A set between `sel` and a set with nothing outside `sel` is `sel`. */
  lemma Squeezed(a: set<string>, r: set<string>, sel: set<string>)
    requires sel <= a <= r && r - sel == {}
    ensures a == sel
  {
    forall x | x in a ensures x in sel {
      assert x !in r - sel;
    }
  }

  lemma RequiredInRelevant(kb: KnowledgeBase, ds: seq<string>, i: nat)
    requires i < |ds| && ds[i] in ToMap(kb)
    ensures ToMap(kb)[ds[i]] <= Matcher.Relevant(kb, ds)
  {
  }

  lemma RelevantWithin(kb: KnowledgeBase, ds: seq<string>, sel: set<string>)
    requires forall i | 0 <= i < |ds| :: ds[i] in ToMap(kb) && ToMap(kb)[ds[i]] == sel
    ensures Matcher.Relevant(kb, ds) <= sel
  {
    forall s | s in Matcher.Relevant(kb, ds) ensures s in sel {
      var i :| 0 <= i < |ds| && ds[i] in ToMap(kb) && s in ToMap(kb)[ds[i]];
    }
  }

  lemma NoElems(s: seq<string>)
    ensures |s| == 0 <==> Order.Elems(s) == {}
  {
    if |s| > 0 {
      assert s[0] in Order.Elems(s);
    }
  }

  /** `diagnose` of the second service. */
  method Diagnose(kb: KnowledgeBase, sel: set<string>) returns (d: Diagnosis)
    requires WellFormed(kb)
    ensures multiset(d.matches) == multiset(Matches(kb, Matcher.Suggest(kb, sel), sel))
    ensures Descending(d.matches)
    ensures forall p :: WithPercentage(d.matches, p) == WithPercentage(Matches(kb, Matcher.Suggest(kb, sel), sel), p)
    ensures d.possible == DiseasesOf(d.matches)
    ensures forall i | 0 <= i < |d.matches| :: d.matches[i].matched == |sel|
    ensures Order.StrictlySorted(d.remaining)
    ensures Order.Elems(d.remaining) == Matcher.Relevant(kb, Matcher.Suggest(kb, sel)) - sel
    ensures d.isFinal <==> var ds := Matcher.Suggest(kb, sel);
                           |ds| > 0 && forall i | 0 <= i < |ds| :: ToMap(kb)[ds[i]] == sel
    ensures d.matched == |sel|
    ensures forall x :: x in d.perDisease <==> x in Matcher.Suggest(kb, sel)
    ensures forall x | x in d.perDisease :: d.perDisease[x] == ToMap(kb)[x]
  {
    var possible := Matcher.Suggest(kb, sel);
    var ms := Matches(kb, possible, sel);
    var sorted := SortDesc(ms);
    forall p ensures WithPercentage(sorted, p) == WithPercentage(ms, p) {
      SortDescStable(ms, p);
    }
    MatchedWholeSelection(kb, sel, sorted);
    var remaining: seq<string> := [];
    if |possible| > 0 {
      remaining := FilterRemaining(kb, possible, sel);
    }
    NoElems(remaining);
    forall i | 0 <= i < |possible| ensures sel <= ToMap(kb)[possible[i]] {
      Matcher.SuggestSpec(kb, sel, possible[i]);
    }
    NothingLeftIff(kb, possible, sel);
    var per := if |possible| > 0 then map x | x in Order.Elems(possible) :: ToMap(kb)[x] else map[];
    d := Diagnosis(DiseasesOf(sorted), remaining, |remaining| == 0 && |possible| > 0, |sel|, sorted, per);
  }
}

=== FILE: roundtrip.dfy ===
/** What the rule writers and the rule reader promise each other: the text a
    writer appends reads back as exactly one block naming the disease with the
    keys written, and appending it to a rule file changes the parsed dictionary
    at that disease only. */
module RoundTrip {
  import Wrappers
  import opened Strings
  import opened Names
  import opened Rules
  import Order

  lemma NotHeaderAt(t: string, i: nat)
    requires i < |IsItHeader| && i < |t| && t[i] != IsItHeader[i]
    ensures !(IsItHeader <= t)
  {
  }

  /** Text without an opening parenthesis contributes no block. */
  lemma {:induction false} SkipNoParen(a: string, b: string)
    requires '(' !in a
    ensures Scan(a + b) == Scan(b)
    decreases |a|
  {
    if |a| > 0 {
      NotHeaderAt(a + b, 0);
      assert (a + b)[1..] == a[1..] + b;
      SkipNoParen(a[1..], b);
    } else {
      assert a + b == b;
    }
  }

  lemma WordNoPunctuation(w: string)
    requires forall i | 0 <= i < |w| :: IsWordChar(w[i])
    ensures '(' !in w && '=' !in w && ' ' !in w && '\n' !in w
  {
    assert forall c | c in w :: IsWordChar(c);
  }

  /** The word run of a word followed by a non-word character is the whole word. */
  lemma {:induction false} WordRunExact(w: string, tail: string)
    requires forall i | 0 <= i < |w| :: IsWordChar(w[i])
    requires tail == "" || !IsWordChar(tail[0])
    ensures WordRun(w + tail) == |w|
    decreases |w|
  {
    if |w| > 0 {
      assert (w + tail)[0] == w[0];
      assert (w + tail)[1..] == w[1..] + tail;
      WordRunExact(w[1..], tail);
    } else {
      assert w + tail == tail;
    }
  }

  /** `(defrule <key>` is not `(defrule is_it_` when the key does not itself
      start with `is_it_` and a non-word character follows it. */
  lemma DefruleNotHeader(key: string, x: string)
    requires IsWord(key) && !("is_it_" <= key)
    requires |x| > 0 && !IsWordChar(x[0])
    ensures !(IsItHeader <= "(defrule " + key + x)
  {
    var t := "(defrule " + key + x;
    assert IsItHeader[9..15] == "is_it_";
    if |key| >= 6 {
      assert t[9..15] == key[..6];
      assert key[..6] != "is_it_";
      assert |t| >= 15 && t[..15][9..15] == t[9..15];
    } else {
      assert t[9 + |key|] == x[0];
      assert forall j | 9 <= j < 15 :: IsWordChar(IsItHeader[j]);
    }
  }

  /** A well-formed `is_it_` rule is read as one block, and scanning resumes
      right after its arrow. */
  lemma ScanHeader(key: string, body: string, post: string)
    requires IsWord(key)
    requires |body| > 0 && !IsWordChar(body[0]) && '=' !in body
    ensures Scan(IsItHeader + key + body + Arrow + post) == [Block(key, SymptomTokens(body))] + Scan(post)
  {
    HeaderPieces(key, body, post);
    ScanBlock(IsItHeader + key + body + Arrow + post, |key|, |body|, key, body, post);
  }

  /** The pieces the block scanner finds in a well-formed `is_it_` rule. */
  lemma HeaderPieces(key: string, body: string, post: string)
    requires IsWord(key)
    requires |body| > 0 && !IsWordChar(body[0]) && '=' !in body
    ensures var t := IsItHeader + key + body + Arrow + post;
      && IsItHeader <= t
      && WordRun(t[|IsItHeader|..]) == |key| > 0
      && IndexOf(t[|IsItHeader|..][|key|..], Arrow) == Wrappers.Some(|body|)
      && t[|IsItHeader|..][..|key|] == key
      && t[|IsItHeader|..][|key|..|key| + |body|] == body
      && t[|IsItHeader|..][|key| + |body| + 2..] == post
  {
    var u := body + Arrow + post;
    var t := IsItHeader + key + body + Arrow + post;
    var r := key + u;
    assert IsItHeader <= t && t[|IsItHeader|..] == r by {
      assert t == IsItHeader + r;
    }
    WordRunExact(key, u);
    NoArrowInBody(body, post);
    IndexOfAfter(body, Arrow, post);
    assert r[|key|..] == u && r[..|key|] == key;
    assert r[|key|..|key| + |body|] == body;
    assert r[|key| + |body| + 2..] == post;
  }

  lemma NoArrowInBody(body: string, post: string)
    requires '=' !in body
    ensures forall k | 0 <= k < |body| :: !OccursAt(body + Arrow + post, Arrow, k)
  {
    forall k | 0 <= k < |body|
      ensures !OccursAt(body + Arrow + post, Arrow, k)
    {
      var u := body + Arrow + post;
      assert u[k..k + 2][0] == body[k];
      assert body[k] in body;
    }
  }

  /** One step of the block scanner at a header: the word after it names the
      block, the text up to the first arrow holds its symptoms, and scanning
      resumes after the arrow. */
  lemma ScanBlock(t: string, n: nat, k: nat, key: string, body: string, post: string)
    requires IsItHeader <= t
    requires WordRun(t[|IsItHeader|..]) == n > 0
    requires IndexOf(t[|IsItHeader|..][n..], Arrow) == Wrappers.Some(k)
    requires t[|IsItHeader|..][..n] == key
    requires t[|IsItHeader|..][n..n + k] == body
    requires t[|IsItHeader|..][n + k + 2..] == post
    ensures Scan(t) == [Block(key, SymptomTokens(body))] + Scan(post)
  {
  }

  /** Text whose blocks are not disturbed by whatever is appended after it. */
  ghost predicate Closed(t: string) {
    forall rest {:trigger Scan(t + rest)} :: Scan(t + rest) == Scan(t) + Scan(rest)
  }

  lemma UseClosed(t: string, rest: string)
    requires Closed(t)
    ensures Scan(t + rest) == Scan(t) + Scan(rest)
  {
  }

  lemma ClosedConcat(a: string, b: string)
    requires Closed(a) && Closed(b)
    ensures Closed(a + b)
    ensures Scan(a + b) == Scan(a) + Scan(b)
  {
    UseClosed(a, b);
    forall rest ensures Scan(a + b + rest) == Scan(a + b) + Scan(rest) {
      AppendAssoc(a, b, rest);
      UseClosed(a, b + rest);
      UseClosed(b, rest);
      AppendAssoc(Scan(a), Scan(b), Scan(rest));
    }
  }

  lemma NoParenClosed(t: string)
    requires '(' !in t
    ensures Closed(t) && Scan(t) == []
  {
    SkipNoParen(t, "");
    assert t + "" == t;
    forall rest ensures Scan(t + rest) == Scan(t) + Scan(rest) {
      SkipNoParen(t, rest);
    }
  }

  /** A piece that opens a parenthesis once, at its start, and differs from the
      header at position `i` contributes no block. */
  lemma OpenSkip(p: string, i: nat, rest: string)
    requires |p| > 0 && p[0] == '(' && '(' !in p[1..]
    requires i < |p| && i < |IsItHeader| && p[i] != IsItHeader[i]
    ensures Scan(p + rest) == Scan(rest)
  {
    NotHeaderAt(p + rest, i);
    assert (p + rest)[1..] == p[1..] + rest;
    SkipNoParen(p[1..], rest);
  }

  lemma OpenClosed(p: string, i: nat)
    requires |p| > 0 && p[0] == '(' && '(' !in p[1..]
    requires i < |p| && i < |IsItHeader| && p[i] != IsItHeader[i]
    ensures Closed(p) && Scan(p) == []
  {
    OpenEmpty(p, i);
    OpenSkipAll(p, i);
    ClosedWhenSkipped(p);
  }

  lemma OpenSkipAll(p: string, i: nat)
    requires |p| > 0 && p[0] == '(' && '(' !in p[1..]
    requires i < |p| && i < |IsItHeader| && p[i] != IsItHeader[i]
    ensures forall rest :: Scan(p + rest) == Scan(rest)
  {
    forall rest ensures Scan(p + rest) == Scan(rest) {
      OpenSkip(p, i, rest);
    }
  }

  lemma ClosedWhenSkipped(p: string)
    requires Scan(p) == []
    requires forall rest :: Scan(p + rest) == Scan(rest)
    ensures Closed(p)
  {
  }

  lemma OpenEmpty(p: string, i: nat)
    requires |p| > 0 && p[0] == '(' && '(' !in p[1..]
    requires i < |p| && i < |IsItHeader| && p[i] != IsItHeader[i]
    ensures Scan(p) == []
  {
    OpenSkip(p, i, "");
    assert p + "" == p;
  }

  /** A literal that opens a parenthesis at its start, followed by text without
      one, is closed when the literal already differs from the header. */
  lemma OpenLiteralClosed(lit: string, x: string, i: nat)
    requires |lit| > 0 && lit[0] == '(' && '(' !in lit[1..] && '(' !in x
    requires i < |lit| && i < |IsItHeader| && lit[i] != IsItHeader[i]
    ensures Closed(lit + x) && Scan(lit + x) == []
  {
    assert (lit + x)[1..] == lit[1..] + x;
    assert (lit + x)[i] == lit[i];
    OpenClosed(lit + x, i);
  }

  /** The literals that open the printout rule's pattern, its action and the
      consequent: each differs from the header early on. */
  lemma OpenLiterals()
    ensures "(disease_is "[0] == '(' && '(' !in "(disease_is "[1..] && "(disease_is "[2] != IsItHeader[2]
    ensures "(printout t \""[0] == '(' && '(' !in "(printout t \""[1..] && "(printout t \""[1] != IsItHeader[1]
    ensures "(assert "[0] == '(' && '(' !in "(assert "[1..] && "(assert "[1] != IsItHeader[1]
  {
    assert "(disease_is "[1..] == "disease_is ";
    assert "(printout t \""[1..] == "printout t \"";
    assert "(assert "[1..] == "assert ";
  }

  /** `(disease_is <key>...`: the fact pattern of the printout rule and the
      assertion of the `is_it_` rule. */
  lemma DiseaseIsClosed(key: string, tail: string)
    requires IsWord(key) && '(' !in tail
    ensures Closed("(disease_is " + key + tail) && Scan("(disease_is " + key + tail) == []
  {
    assert '(' !in key + tail by {
      WordNoPunctuation(key);
    }
    OpenLiterals();
    AppendAssoc("(disease_is ", key, tail);
    OpenLiteralClosed("(disease_is ", key + tail, 2);
  }

  lemma PrintoutClosed(shown: string, tail: string)
    requires '(' !in shown && '(' !in tail
    ensures Closed("(printout t \"" + shown + tail) && Scan("(printout t \"" + shown + tail) == []
  {
    OpenLiterals();
    AppendAssoc("(printout t \"", shown, tail);
    OpenLiteralClosed("(printout t \"", shown + tail, 1);
  }

  lemma AssertClosed()
    ensures Closed("(assert ") && Scan("(assert ") == []
  {
    OpenLiterals();
    OpenLiteralClosed("(assert ", "", 1);
    assert "(assert " + "" == "(assert ";
  }

  lemma DefruleClosed(key: string)
    requires IsWord(key) && !("is_it_" <= key)
    ensures Closed("(defrule " + key + "\n  ") && Scan("(defrule " + key + "\n  ") == []
  {
    WordNoPunctuation(key);
    var p := "(defrule " + key + "\n  ";
    assert '(' !in p[1..] by {
      assert p[1..] == "defrule " + key + "\n  ";
    }
    forall rest ensures Scan(p + rest) == Scan(rest) {
      assert p + rest == "(defrule " + key + ("\n  " + rest);
      DefruleNotHeader(key, "\n  " + rest);
      assert (p + rest)[1..] == p[1..] + rest;
      SkipNoParen(p[1..], rest);
    }
    assert p + "" == p;
  }

  lemma HeaderClosed(key: string, body: string)
    requires IsWord(key)
    requires |body| > 0 && !IsWordChar(body[0]) && '=' !in body
    ensures Closed(IsItHeader + key + body + Arrow)
    ensures Scan(IsItHeader + key + body + Arrow) == [Block(key, SymptomTokens(body))]
  {
    var h := IsItHeader + key + body + Arrow;
    ScanHeader(key, body, "");
    assert h + "" == h;
    forall rest ensures Scan(h + rest) == Scan(h) + Scan(rest) {
      ScanHeader(key, body, rest);
    }
  }

  /** The printout rule of a fragment contributes no block. */
  lemma PrintoutRuleClosed(key: string, shown: string)
    requires IsWord(key) && !("is_it_" <= key) && '(' !in shown
    ensures Closed("\n" + ("(defrule " + key + "\n  ") + ("(disease_is " + key + ")\n  =>\n  ")
                   + ("(printout t \"" + shown + "\" crlf)\n)\n\n"))
    ensures Scan("\n" + ("(defrule " + key + "\n  ") + ("(disease_is " + key + ")\n  =>\n  ")
                 + ("(printout t \"" + shown + "\" crlf)\n)\n\n")) == []
  {
    var p1 := "\n";
    var p2 := "(defrule " + key + "\n  ";
    var p3 := "(disease_is " + key + ")\n  =>\n  ";
    var p4 := "(printout t \"" + shown + "\" crlf)\n)\n\n";
    NoParenClosed(p1);
    DefruleClosed(key);
    DiseaseIsClosed(key, ")\n  =>\n  ");
    PrintoutClosed(shown, "\" crlf)\n)\n\n");
    ClosedConcat(p1, p2);
    ClosedConcat(p1 + p2, p3);
    ClosedConcat(p1 + p2 + p3, p4);
  }

  /** Up to the assertion of its consequent, the fragment reads as one block. */
  lemma FragmentHeadClosed(key: string, shown: string, body: string)
    requires IsWord(key) && !("is_it_" <= key) && '(' !in shown
    requires |body| > 0 && !IsWordChar(body[0]) && '=' !in body
    ensures Closed("\n" + ("(defrule " + key + "\n  ") + ("(disease_is " + key + ")\n  =>\n  ")
                   + ("(printout t \"" + shown + "\" crlf)\n)\n\n")
                   + (IsItHeader + key + body + Arrow) + "\n  ")
    ensures Scan("\n" + ("(defrule " + key + "\n  ") + ("(disease_is " + key + ")\n  =>\n  ")
                 + ("(printout t \"" + shown + "\" crlf)\n)\n\n")
                 + (IsItHeader + key + body + Arrow) + "\n  ") == [Block(key, SymptomTokens(body))]
  {
    var a := "\n" + ("(defrule " + key + "\n  ") + ("(disease_is " + key + ")\n  =>\n  ")
             + ("(printout t \"" + shown + "\" crlf)\n)\n\n");
    var h := IsItHeader + key + body + Arrow;
    assert Closed(a + h) && Scan(a + h) == [Block(key, SymptomTokens(body))] by {
      PrintoutRuleClosed(key, shown);
      HeaderClosed(key, body);
      ClosedConcat(a, h);
    }
    NoParenClosed("\n  ");
    ClosedConcat(a + h, "\n  ");
  }

  /** The consequent `(assert (disease_is <key>))` and the trail add no block
      to whatever closed text precedes them. */
  lemma ConsequentClosed(x: string, b: seq<Block>, key: string, trail: string)
    requires Closed(x) && Scan(x) == b
    requires IsWord(key) && '(' !in trail
    ensures Closed(x + "(assert " + ("(disease_is " + key + "))\n)\n") + trail)
    ensures Scan(x + "(assert " + ("(disease_is " + key + "))\n)\n") + trail) == b
  {
    var p7 := "(disease_is " + key + "))\n)\n";
    assert Closed(x + "(assert ") && Scan(x + "(assert ") == b by {
      AssertClosed();
      ClosedConcat(x, "(assert ");
    }
    assert Closed(x + "(assert " + p7) && Scan(x + "(assert " + p7) == b by {
      DiseaseIsClosed(key, "))\n)\n");
      ClosedConcat(x + "(assert ", p7);
    }
    NoParenClosed(trail);
    ClosedConcat(x + "(assert " + p7, trail);
  }

  /** The appended fragment reads as exactly one block, whatever follows it. */
  lemma FragmentClosed(key: string, shown: string, body: string, trail: string)
    requires IsWord(key) && !("is_it_" <= key)
    requires '(' !in shown && '(' !in trail
    requires |body| > 0 && !IsWordChar(body[0]) && '=' !in body
    ensures Closed(Fragment(key, shown, body, trail))
    ensures Scan(Fragment(key, shown, body, trail)) == [Block(key, SymptomTokens(body))]
  {
    FragmentHeadClosed(key, shown, body);
    ConsequentClosed("\n" + ("(defrule " + key + "\n  ") + ("(disease_is " + key + ")\n  =>\n  ")
                     + ("(printout t \"" + shown + "\" crlf)\n)\n\n")
                     + (IsItHeader + key + body + Arrow) + "\n  ",
                     [Block(key, SymptomTokens(body))], key, trail);
  }

  /** The symptom scanner skips text without an opening parenthesis. */
  lemma {:induction false} TokensSkipNoParen(a: string, b: string)
    requires '(' !in a
    ensures SymptomTokens(a + b) == SymptomTokens(b)
    decreases |a|
  {
    if |a| > 0 {
      assert (a + b)[0] == a[0];
      assert !(SymptomOpen <= a + b);
      assert (a + b)[1..] == a[1..] + b;
      TokensSkipNoParen(a[1..], b);
    } else {
      assert a + b == b;
    }
  }

  /** `(has_symptom k)` with a word `k` is read as the token `k`. */
  lemma TokensHead(k: string, post: string)
    requires IsWord(k)
    ensures SymptomTokens(Atom(k) + post) == [k] + SymptomTokens(post)
  {
    var t := Atom(k) + post;
    assert t[..|SymptomOpen|] == SymptomOpen;
    var rest := t[|SymptomOpen|..];
    assert rest == k + (")" + post);
    WordRunExact(k, ")" + post);
    assert rest[|k|] == ')';
    assert rest[..|k|] == k;
    assert rest[|k| + 1..] == post;
  }

  /** Text whose symptom tokens are not disturbed by whatever is appended after it. */
  ghost predicate TokensClosed(t: string) {
    forall rest {:trigger SymptomTokens(t + rest)} :: SymptomTokens(t + rest) == SymptomTokens(t) + SymptomTokens(rest)
  }

  lemma UseTokensClosed(t: string, rest: string)
    requires TokensClosed(t)
    ensures SymptomTokens(t + rest) == SymptomTokens(t) + SymptomTokens(rest)
  {
  }

  lemma TokensClosedConcat(a: string, b: string)
    requires TokensClosed(a) && TokensClosed(b)
    ensures TokensClosed(a + b)
    ensures SymptomTokens(a + b) == SymptomTokens(a) + SymptomTokens(b)
  {
    UseTokensClosed(a, b);
    forall rest ensures SymptomTokens(a + b + rest) == SymptomTokens(a + b) + SymptomTokens(rest) {
      AppendAssoc(a, b, rest);
      UseTokensClosed(a, b + rest);
      UseTokensClosed(b, rest);
      AppendAssoc(SymptomTokens(a), SymptomTokens(b), SymptomTokens(rest));
    }
  }

  lemma TokensNoParenClosed(t: string)
    requires '(' !in t
    ensures TokensClosed(t) && SymptomTokens(t) == []
  {
    TokensSkipNoParen(t, "");
    assert t + "" == t;
    forall rest ensures SymptomTokens(t + rest) == SymptomTokens(t) + SymptomTokens(rest) {
      TokensSkipNoParen(t, rest);
    }
  }

  lemma AtomClosed(k: string)
    requires IsWord(k)
    ensures TokensClosed(Atom(k)) && SymptomTokens(Atom(k)) == [k]
  {
    TokensHead(k, "");
    assert Atom(k) + "" == Atom(k);
    forall rest ensures SymptomTokens(Atom(k) + rest) == SymptomTokens(Atom(k)) + SymptomTokens(rest) {
      TokensHead(k, rest);
    }
  }

  predicate AllWords(ks: seq<string>) {
    forall i | 0 <= i < |ks| :: IsWord(ks[i])
  }

  /** The symptom lines of the rule writers read back as the keys written. */
  lemma {:induction false} LinesClosed(ks: seq<string>)
    requires AllWords(ks)
    ensures TokensClosed(SymptomLines(ks)) && SymptomTokens(SymptomLines(ks)) == ks
    decreases |ks|
  {
    if |ks| == 0 {
      TokensNoParenClosed("");
    } else {
      LineClosed(ks[0]);
      LinesClosed(ks[1..]);
      TokensClosedConcat(SymptomLine(ks[0]), SymptomLines(ks[1..]));
      assert ks == [ks[0]] + ks[1..];
    }
  }

  lemma LineClosed(k: string)
    requires IsWord(k)
    ensures TokensClosed(SymptomLine(k)) && SymptomTokens(SymptomLine(k)) == [k]
  {
    TokensNoParenClosed("  ");
    TokensNoParenClosed("\n");
    AtomClosed(k);
    TokensClosedConcat("  ", Atom(k));
    TokensClosedConcat("  " + Atom(k), "\n");
  }

  /** The joined symptom atoms of the CSV compiler read back as the keys written. */
  lemma {:induction false} AtomsClosed(ks: seq<string>)
    requires AllWords(ks)
    ensures TokensClosed(Join(SymptomAtoms(ks), "\n  "))
    ensures SymptomTokens(Join(SymptomAtoms(ks), "\n  ")) == ks
    decreases |ks|
  {
    var atoms := SymptomAtoms(ks);
    if |ks| == 0 {
      TokensNoParenClosed("");
    } else {
      AtomClosed(ks[0]);
      if |ks| > 1 {
        assert atoms[1..] == SymptomAtoms(ks[1..]);
        AtomsClosed(ks[1..]);
        SeparatedClosed(atoms[0], Join(atoms[1..], "\n  "));
        assert ks == [ks[0]] + ks[1..];
      }
    }
  }

  lemma SeparatedClosed(a: string, b: string)
    requires TokensClosed(a) && TokensClosed(b)
    ensures TokensClosed(a + "\n  " + b)
    ensures SymptomTokens(a + "\n  " + b) == SymptomTokens(a) + SymptomTokens(b)
  {
    var sep := "\n  ";
    assert TokensClosed(sep) && SymptomTokens(sep) == [] by {
      TokensNoParenClosed(sep);
    }
    assert TokensClosed(a + sep) && SymptomTokens(a + sep) == SymptomTokens(a) by {
      TokensClosedConcat(a, sep);
    }
    TokensClosedConcat(a + sep, b);
  }

  lemma {:induction false} LinesNoArrow(ks: seq<string>)
    requires AllWords(ks)
    ensures '=' !in SymptomLines(ks)
    decreases |ks|
  {
    if |ks| > 0 {
      WordNoPunctuation(ks[0]);
      LinesNoArrow(ks[1..]);
    }
  }

  lemma {:induction false} AtomsNoArrow(ks: seq<string>)
    requires AllWords(ks)
    ensures '=' !in Join(SymptomAtoms(ks), "\n  ")
    decreases |ks|
  {
    if |ks| > 0 {
      WordNoPunctuation(ks[0]);
      if |ks| > 1 {
        assert SymptomAtoms(ks)[1..] == SymptomAtoms(ks[1..]);
        AtomsNoArrow(ks[1..]);
      }
    }
  }

  /** The fragment of `update_disease_rules` is read back as one block naming `d`
      with exactly the keys written, in order, whatever follows it. */
  lemma DiseaseBlocksClosed(d: string, ks: seq<string>)
    requires IsWord(d) && !("is_it_" <= d) && AllWords(ks)
    ensures Closed(DiseaseBlocks(d, ks))
    ensures Scan(DiseaseBlocks(d, ks)) == [Block(d, ks)]
  {
    WordNoPunctuation(d);
    assert forall i | 0 <= i < |Spaced(d)| :: Spaced(d)[i] != '(';
    assert '(' !in Spaced(d) by {
      assert forall c | c in Spaced(d) :: exists i | 0 <= i < |Spaced(d)| :: Spaced(d)[i] == c;
    }
    LinesClosed(ks);
    LinesNoArrow(ks);
    TokensNoParenClosed("\n");
    TokensNoParenClosed("  ");
    TokensClosedConcat("\n", SymptomLines(ks));
    TokensClosedConcat("\n" + SymptomLines(ks), "  ");
    var body := "\n" + SymptomLines(ks) + "  ";
    assert SymptomTokens(body) == ks;
    FragmentClosed(d, Spaced(d), body, "");
  }

  /** The CSV compiler's fragment for a row with at least one symptom is read back
      as one block naming the row's key with exactly its symptoms. */
  lemma CsvFragmentClosed(name: string, key: string, ks: seq<string>)
    requires '(' !in name
    requires IsWord(key) && !("is_it_" <= key)
    requires AllWords(ks)
    ensures Closed(CsvFragment(name, key, ks))
    ensures Scan(CsvFragment(name, key, ks)) == [Block(key, ks)]
  {
    var joined := Join(SymptomAtoms(ks), "\n  ");
    var body := "\n  " + joined + "\n  ";
    assert SymptomTokens(body) == ks && '=' !in body by {
      AtomsClosed(ks);
      AtomsNoArrow(ks);
      PaddedTokens(joined);
    }
    assert |body| > 0 && !IsWordChar(body[0]);
    FragmentClosed(key, name, body, "  ");
  }

  lemma PaddedTokens(joined: string)
    requires TokensClosed(joined)
    ensures SymptomTokens("\n  " + joined + "\n  ") == SymptomTokens(joined)
    ensures '=' in "\n  " + joined + "\n  " ==> '=' in joined
  {
    TokensNoParenClosed("\n  ");
    TokensClosedConcat("\n  ", joined);
    TokensClosedConcat("\n  " + joined, "\n  ");
  }

  /** A rule file without any `(defrule is_it_` header parses to an empty knowledge base. */
  lemma {:induction false} NoHeaderParsesEmpty(t: string)
    requires !Contains(t, IsItHeader)
    ensures Scan(t) == [] && Parse(t) == []
    decreases |t|
  {
    if |t| > 0 {
      assert !OccursAt(t, IsItHeader, 0);
      NoOccurrenceInTail(t, IsItHeader);
      NoHeaderParsesEmpty(t[1..]);
    }
  }

  /** Reading back what `update_disease_rules` writes into an empty file gives
      the disease with exactly the set of keys written. */
  lemma DiseaseBlocksRoundTrip(d: string, ks: seq<string>)
    requires IsWord(d) && !("is_it_" <= d) && AllWords(ks)
    ensures ToMap(Parse(DiseaseBlocks(d, ks))) == map[d := Order.Elems(ks)]
  {
    DiseaseBlocksClosed(d, ks);
    var bs := Scan(DiseaseBlocks(d, ks));
    assert bs[1..] == [];
    var kb := Upsert([], d, Order.Elems(ks));
    assert Parse(DiseaseBlocks(d, ks)) == Build(kb, []);
    assert kb == [Entry(d, Order.Elems(ks))];
  }

  /** Parsing closed text followed by more text is parsing the first, then
      applying the blocks of the second in order. */
  lemma ParseAppend(prior: string, frag: string)
    requires Closed(prior)
    ensures Parse(prior + frag) == Build(Parse(prior), Scan(frag))
  {
    BuildAppend([], Scan(prior), Scan(frag));
  }

  lemma BuildOne(kb: KnowledgeBase, b: Block)
    requires WellFormed(kb)
    ensures ToMap(Build(kb, [b])) == ToMap(kb)[b.disease := Order.Elems(b.symptoms)]
  {
    assert [b][1..] == [];
  }

  /** Appending a disease's rules to a rule file sets that disease's entry to the
      keys written and leaves every other entry as it was; the file stays closed,
      so the next append behaves the same way. */
  lemma AppendDiseaseBlocks(prior: string, d: string, ks: seq<string>)
    requires Closed(prior)
    requires IsWord(d) && !("is_it_" <= d) && AllWords(ks)
    ensures ToMap(Parse(prior + DiseaseBlocks(d, ks))) == ToMap(Parse(prior))[d := Order.Elems(ks)]
    ensures Closed(prior + DiseaseBlocks(d, ks))
  {
    DiseaseBlocksClosed(d, ks);
    ParseAppend(prior, DiseaseBlocks(d, ks));
    BuildOne(Parse(prior), Block(d, ks));
    ClosedConcat(prior, DiseaseBlocks(d, ks));
  }

  /** The same for one row of the CSV compiler. */
  lemma AppendCsvFragment(prior: string, name: string, key: string, ks: seq<string>)
    requires Closed(prior)
    requires '(' !in name
    requires IsWord(key) && !("is_it_" <= key)
    requires AllWords(ks)
    ensures ToMap(Parse(prior + CsvFragment(name, key, ks))) == ToMap(Parse(prior))[key := Order.Elems(ks)]
    ensures Closed(prior + CsvFragment(name, key, ks))
  {
    CsvFragmentClosed(name, key, ks);
    ParseAppend(prior, CsvFragment(name, key, ks));
    BuildOne(Parse(prior), Block(key, ks));
    ClosedConcat(prior, CsvFragment(name, key, ks));
  }
}

=== FILE: rules.dfy ===
/** The rule-text codec: reading the disease -> required-symptoms association out
    of a CLIPS rule file, and the two-block fragment every writer appends.

    The reader is the pair of regular expressions of `parse_rules`:
    `\(defrule is_it_(\w+)(.*?)=>` (dot matches newlines) finds the blocks, and
    `\(has_symptom (\w+)\)` finds the symptom tokens inside each block's text.
    Both are written out here as scanners over the text. */
module Rules {
  import opened Wrappers
  import opened Strings
  import opened Names
  import Order

  const IsItHeader: string := "(defrule is_it_"
  const SymptomOpen: string := "(has_symptom "
  const Arrow: string := "=>"

  /** One match of the block expression: the disease token, and the symptom tokens
      found between it and the first `=>` after it, in text order. */
  datatype Block = Block(disease: string, symptoms: seq<string>)

  /** One disease of the knowledge base with its required-symptom set. */
  datatype Entry = Entry(disease: string, required: set<string>)

  /** The parsed `disease_symptoms` dictionary: entries in the dictionary's
      iteration order (first insertion), one per disease. */
  type KnowledgeBase = seq<Entry>

  predicate WellFormed(kb: KnowledgeBase) {
    forall i, j | 0 <= i < j < |kb| :: kb[i].disease != kb[j].disease
  }

  /** The dictionary view of the knowledge base. */
  function ToMap(kb: KnowledgeBase): (m: map<string, set<string>>)
    ensures forall d :: d in m <==> exists i | 0 <= i < |kb| :: kb[i].disease == d
    ensures WellFormed(kb) ==> forall i | 0 <= i < |kb| :: m[kb[i].disease] == kb[i].required
  {
    if |kb| == 0 then map[]
    else
      ToMapStep(kb, ToMap(kb[1..]));
      ToMap(kb[1..])[kb[0].disease := kb[0].required]
  }

  /** Putting the first entry over the map of the rest. */
  lemma ToMapStep(kb: KnowledgeBase, prev: map<string, set<string>>)
    requires |kb| > 0
    requires forall d :: d in prev <==> exists i | 0 <= i < |kb[1..]| :: kb[1..][i].disease == d
    requires WellFormed(kb[1..]) ==> forall i | 0 <= i < |kb[1..]| :: prev[kb[1..][i].disease] == kb[1..][i].required
    ensures var m := prev[kb[0].disease := kb[0].required];
      (forall d :: d in m <==> exists i | 0 <= i < |kb| :: kb[i].disease == d)
      && (WellFormed(kb) ==> forall i | 0 <= i < |kb| :: m[kb[i].disease] == kb[i].required)
  {
    var m := prev[kb[0].disease := kb[0].required];
    var t := kb[1..];
    forall d | d in m ensures exists i | 0 <= i < |kb| :: kb[i].disease == d {
      if d != kb[0].disease {
        var i :| 0 <= i < |t| && t[i].disease == d;
        assert kb[i + 1].disease == d;
      }
    }
    forall d | (exists i | 0 <= i < |kb| :: kb[i].disease == d) ensures d in m {
      var i :| 0 <= i < |kb| && kb[i].disease == d;
      if i > 0 { assert t[i - 1].disease == d; }
    }
    if WellFormed(kb) {
      assert WellFormed(t) by {
        forall i, j | 0 <= i < j < |t| ensures t[i].disease != t[j].disease {
          assert t[i] == kb[i + 1] && t[j] == kb[j + 1];
        }
      }
      forall i | 0 <= i < |kb| ensures m[kb[i].disease] == kb[i].required {
        if i > 0 { assert t[i - 1] == kb[i]; }
      }
    }
  }

  lemma ToMapCons(e: Entry, t: KnowledgeBase)
    ensures ToMap([e] + t) == ToMap(t)[e.disease := e.required]
  {
    assert ([e] + t)[1..] == t;
  }

  lemma UpdateCommutes(m: map<string, set<string>>, a: string, x: set<string>, b: string, y: set<string>)
    requires a != b
    ensures m[a := x][b := y] == m[b := y][a := x]
  {
  }

  /** A well-formed knowledge base does not name its first disease again. */
  lemma HeadNotInTail(kb: KnowledgeBase)
    requires WellFormed(kb) && |kb| > 0
    ensures WellFormed(kb[1..])
    ensures kb[0].disease !in ToMap(kb[1..])
  {
    forall i | 0 <= i < |kb| - 1
      ensures kb[1..][i].disease != kb[0].disease
    {
      assert kb[1..][i] == kb[i + 1];
    }
  }

  lemma ConsWellFormed(e: Entry, t: KnowledgeBase)
    requires WellFormed(t) && e.disease !in ToMap(t)
    ensures WellFormed([e] + t)
  {
    forall i | 0 <= i < |t| ensures t[i].disease != e.disease {
      assert t[i].disease in ToMap(t);
    }
  }

  /** `disease_symptoms[d] = s`: a new disease goes to the end, a known one keeps
      its position and gets the new set. */
  function Upsert(kb: KnowledgeBase, d: string, s: set<string>): (r: KnowledgeBase)
    requires WellFormed(kb)
    ensures WellFormed(r)
    ensures ToMap(r) == ToMap(kb)[d := s]
    ensures |r| == if d in ToMap(kb) then |kb| else |kb| + 1
    ensures forall i | 0 <= i < |kb| :: r[i].disease == kb[i].disease
    ensures d !in ToMap(kb) ==> r[|kb|] == Entry(d, s)
  {
    if |kb| == 0 then [Entry(d, s)]
    else if kb[0].disease == d then
      UpsertHere(kb, d, s);
      [Entry(d, s)] + kb[1..]
    else
      var t := Upsert(kb[1..], d, s);
      UpsertLater(kb, d, s, t);
      [kb[0]] + t
  }

  /** Replacing the first entry's set. */
  lemma UpsertHere(kb: KnowledgeBase, d: string, s: set<string>)
    requires WellFormed(kb) && |kb| > 0 && kb[0].disease == d
    ensures var r := [Entry(d, s)] + kb[1..];
      && WellFormed(r)
      && ToMap(r) == ToMap(kb)[d := s]
      && d in ToMap(kb)
      && |r| == |kb|
      && forall i | 0 <= i < |kb| :: r[i].disease == kb[i].disease
  {
    HeadNotInTail(kb);
    ToMapCons(kb[0], kb[1..]);
    assert kb == [kb[0]] + kb[1..];
    ToMapCons(Entry(d, s), kb[1..]);
    ConsWellFormed(Entry(d, s), kb[1..]);
  }

  /** Keeping the first entry in front of the upserted rest. */
  lemma UpsertLater(kb: KnowledgeBase, d: string, s: set<string>, t: KnowledgeBase)
    requires WellFormed(kb) && |kb| > 0 && kb[0].disease != d
    requires WellFormed(t)
    requires ToMap(t) == ToMap(kb[1..])[d := s]
    requires |t| == if d in ToMap(kb[1..]) then |kb| - 1 else |kb|
    requires forall i | 0 <= i < |kb| - 1 :: t[i].disease == kb[i + 1].disease
    requires d !in ToMap(kb[1..]) ==> t[|kb| - 1] == Entry(d, s)
    ensures var r := [kb[0]] + t;
      && WellFormed(r)
      && ToMap(r) == ToMap(kb)[d := s]
      && |r| == (if d in ToMap(kb) then |kb| else |kb| + 1)
      && (forall i | 0 <= i < |kb| :: r[i].disease == kb[i].disease)
      && (d !in ToMap(kb) ==> r[|kb|] == Entry(d, s))
  {
    UpsertLaterMap(kb, d, s, t);
    UpsertLaterShape(kb, d, s, t);
  }

  lemma UpsertLaterMap(kb: KnowledgeBase, d: string, s: set<string>, t: KnowledgeBase)
    requires WellFormed(kb) && |kb| > 0 && kb[0].disease != d
    requires WellFormed(t)
    requires ToMap(t) == ToMap(kb[1..])[d := s]
    ensures WellFormed([kb[0]] + t)
    ensures ToMap([kb[0]] + t) == ToMap(kb)[d := s]
    ensures d in ToMap(kb) <==> d in ToMap(kb[1..])
  {
    HeadNotInTail(kb);
    ToMapCons(kb[0], kb[1..]);
    assert kb == [kb[0]] + kb[1..];
    ToMapCons(kb[0], t);
    UpdateCommutes(ToMap(kb[1..]), d, s, kb[0].disease, kb[0].required);
    ConsWellFormed(kb[0], t);
  }

  lemma UpsertLaterShape(kb: KnowledgeBase, d: string, s: set<string>, t: KnowledgeBase)
    requires |kb| > 0
    requires |t| >= |kb| - 1
    requires forall i | 0 <= i < |kb| - 1 :: t[i].disease == kb[i + 1].disease
    ensures forall i | 0 <= i < |kb| :: ([kb[0]] + t)[i].disease == kb[i].disease
    ensures |t| == |kb| ==> ([kb[0]] + t)[|kb|] == t[|kb| - 1]
  {
    var r := [kb[0]] + t;
    forall i | 1 <= i < |kb| ensures r[i].disease == kb[i].disease {
      assert r[i] == t[i - 1];
    }
  }

  /** Folds the matched blocks into the dictionary, later blocks overriding earlier ones. */
  function Build(kb: KnowledgeBase, bs: seq<Block>): (r: KnowledgeBase)
    requires WellFormed(kb)
    ensures WellFormed(r)
    decreases |bs|
  {
    if |bs| == 0 then kb
    else Build(Upsert(kb, bs[0].disease, Order.Elems(bs[0].symptoms)), bs[1..])
  }

  /** The length of the longest prefix of `t` made of `\w` characters. */
  function WordRun(t: string): (n: nat)
    ensures n <= |t|
    ensures forall i | 0 <= i < n :: IsWordChar(t[i])
    ensures n < |t| ==> !IsWordChar(t[n])
  {
    if |t| > 0 && IsWordChar(t[0]) then 1 + WordRun(t[1..]) else 0
  }

  /** `re.findall(r'\(has_symptom (\w+)\)', t)`. */
  function SymptomTokens(t: string): (ks: seq<string>)
    decreases |t|
    ensures forall i | 0 <= i < |ks| :: IsWord(ks[i])
  {
    if |t| == 0 then []
    else if SymptomOpen <= t then
      var rest := t[|SymptomOpen|..];
      var n := WordRun(rest);
      if 0 < n < |rest| && rest[n] == ')' then [rest[..n]] + SymptomTokens(rest[n + 1..])
      else SymptomTokens(t[1..])
    else SymptomTokens(t[1..])
  }

  /** `re.findall(r'\(defrule is_it_(\w+)(.*?)=>', t, re.DOTALL)`, each match paired
      with the symptom tokens of its second group. */
  function Scan(t: string): (bs: seq<Block>)
    decreases |t|
    ensures forall i | 0 <= i < |bs| :: IsWord(bs[i].disease)
  {
    if |t| == 0 then []
    else if IsItHeader <= t then
      var rest := t[|IsItHeader|..];
      var n := WordRun(rest);
      if n == 0 then Scan(t[1..])
      else match IndexOf(rest[n..], Arrow)
        case None => Scan(t[1..])
        case Some(k) => [Block(rest[..n], SymptomTokens(rest[n..n + k]))] + Scan(rest[n + k + 2..])
    else Scan(t[1..])
  }

  /** `parse_rules(rules_text)`. */
  function Parse(t: string): (kb: KnowledgeBase)
    ensures WellFormed(kb)
  {
    Build([], Scan(t))
  }

  /** `Build` over two runs of blocks is `Build` over the first, then the second. */
  lemma {:induction false} BuildAppend(kb: KnowledgeBase, a: seq<Block>, b: seq<Block>)
    requires WellFormed(kb)
    ensures Build(kb, a + b) == Build(Build(kb, a), b)
    decreases |a|
  {
    if |a| > 0 {
      assert (a + b)[1..] == a[1..] + b;
      assert (a + b)[0] == a[0];
      BuildAppend(Upsert(kb, a[0].disease, Order.Elems(a[0].symptoms)), a[1..], b);
    } else {
      assert a + b == b;
    }
  }

  /** A disease no block names keeps whatever the starting dictionary had for it. */
  lemma {:induction false} BuildUntouched(kb: KnowledgeBase, bs: seq<Block>, d: string)
    requires WellFormed(kb)
    requires forall i | 0 <= i < |bs| :: bs[i].disease != d
    ensures d in ToMap(Build(kb, bs)) <==> d in ToMap(kb)
    ensures d in ToMap(kb) ==> ToMap(Build(kb, bs))[d] == ToMap(kb)[d]
    decreases |bs|
  {
    if |bs| > 0 {
      BuildUntouched(Upsert(kb, bs[0].disease, Order.Elems(bs[0].symptoms)), bs[1..], d);
    }
  }

  /** The dictionary built from the blocks maps every disease that some block
      names to the symptom set of the LAST block naming it; the keys are the
      starting keys plus the block names. */
  lemma {:induction false} BuildLastWins(kb: KnowledgeBase, bs: seq<Block>, i: nat)
    requires WellFormed(kb)
    requires i < |bs|
    requires forall j | i < j < |bs| :: bs[j].disease != bs[i].disease
    ensures bs[i].disease in ToMap(Build(kb, bs))
    ensures ToMap(Build(kb, bs))[bs[i].disease] == Order.Elems(bs[i].symptoms)
    decreases |bs|
  {
    if i == 0 {
      LaterBlocks(bs, 0);
      var kb' := Upsert(kb, bs[0].disease, Order.Elems(bs[0].symptoms));
      BuildUntouched(kb', bs[1..], bs[0].disease);
    } else {
      LaterBlocks(bs, i);
      var kb' := Upsert(kb, bs[0].disease, Order.Elems(bs[0].symptoms));
      BuildLastWins(kb', bs[1..], i - 1);
    }
  }

  /** Block `i` is the last to name its disease, seen from the blocks after the first. */
  lemma LaterBlocks(bs: seq<Block>, i: nat)
    requires i < |bs|
    requires forall j | i < j < |bs| :: bs[j].disease != bs[i].disease
    ensures i > 0 ==> bs[1..][i - 1] == bs[i]
    ensures forall j | i <= j < |bs| - 1 :: bs[1..][j].disease != bs[i].disease
  {
    forall j | i <= j < |bs| - 1 ensures bs[1..][j].disease != bs[i].disease {
      assert bs[1..][j] == bs[j + 1];
    }
  }

  lemma {:induction false} BuildKeys(kb: KnowledgeBase, bs: seq<Block>, d: string)
    requires WellFormed(kb)
    ensures d in ToMap(Build(kb, bs)) <==> d in ToMap(kb) || exists i | 0 <= i < |bs| :: bs[i].disease == d
    decreases |bs|
  {
    if |bs| > 0 {
      var kb' := Upsert(kb, bs[0].disease, Order.Elems(bs[0].symptoms));
      BuildKeys(kb', bs[1..], d);
      NamedInTail(bs, d);
    }
  }

  /** Some block names `d` exactly when the first does or a later one does. */
  lemma NamedInTail(bs: seq<Block>, d: string)
    requires |bs| > 0
    ensures (exists i | 0 <= i < |bs| :: bs[i].disease == d)
        <==> bs[0].disease == d || exists i | 0 <= i < |bs[1..]| :: bs[1..][i].disease == d
  {
    var t := bs[1..];
    if exists i | 0 <= i < |t| :: t[i].disease == d {
      var i :| 0 <= i < |t| && t[i].disease == d;
      assert bs[i + 1].disease == d;
    }
    if exists i | 0 <= i < |bs| :: bs[i].disease == d {
      var i :| 0 <= i < |bs| && bs[i].disease == d;
      if i > 0 { assert t[i - 1].disease == d; }
    }
  }

  /** `parse_rules`: the keys are exactly the diseases named by some
      `(defrule is_it_<d>` block, and each maps to the symptom tokens of the last
      block naming it. */
  lemma ParseSemantics(t: string, d: string)
    ensures d in ToMap(Parse(t)) <==> exists i | 0 <= i < |Scan(t)| :: Scan(t)[i].disease == d
    ensures forall i | 0 <= i < |Scan(t)| && Scan(t)[i].disease == d
                        && (forall j | i < j < |Scan(t)| :: Scan(t)[j].disease != d) ::
              ToMap(Parse(t))[d] == Order.Elems(Scan(t)[i].symptoms)
  {
    BuildKeys([], Scan(t), d);
    assert d !in ToMap([]);
    assert Parse(t) == Build([], Scan(t));
    forall i | 0 <= i < |Scan(t)| && Scan(t)[i].disease == d
               && (forall j | i < j < |Scan(t)| :: Scan(t)[j].disease != d)
      ensures ToMap(Parse(t))[d] == Order.Elems(Scan(t)[i].symptoms)
    {
      BuildLastWins([], Scan(t), i);
    }
  }

  /** The pair of rules every writer appends for one disease: a printout rule
      naming `shown`, then the `is_it_` rule whose left-hand side is `body`.
      `trail` is what the writer leaves after the final parenthesis. The text is
      written as pieces cut before each opening parenthesis. */
  function Fragment(key: string, shown: string, body: string, trail: string): string {
    "\n" + ("(defrule " + key + "\n  ") + ("(disease_is " + key + ")\n  =>\n  ")
    + ("(printout t \"" + shown + "\" crlf)\n)\n\n")
    + (IsItHeader + key + body + Arrow)
    + "\n  " + "(assert " + ("(disease_is " + key + "))\n)\n") + trail
  }

  /** `(has_symptom k)`. */
  function Atom(k: string): string {
    "(has_symptom " + k + ")"
  }

  function SymptomLine(k: string): string {
    "  " + Atom(k) + "\n"
  }

  /** One `  (has_symptom k)` line per key, in order. */
  function SymptomLines(ks: seq<string>): string {
    if |ks| == 0 then "" else SymptomLine(ks[0]) + SymptomLines(ks[1..])
  }

  /** The text `update_disease_rules` and the `addNewDisease` route append for
      disease key `d` with symptom keys `ks`. */
  function DiseaseBlocks(d: string, ks: seq<string>): string {
    Fragment(d, Spaced(d), "\n" + SymptomLines(ks) + "  ", "")
  }

  function SymptomAtoms(ks: seq<string>): (atoms: seq<string>)
    ensures |atoms| == |ks|
    ensures forall i | 0 <= i < |ks| :: atoms[i] == Atom(ks[i])
  {
    seq(|ks|, i requires 0 <= i < |ks| => Atom(ks[i]))
  }

  /** The text the CSV compiler appends for one row: display `name`, key `key`,
      symptom atoms joined by a newline and two spaces. */
  function CsvFragment(name: string, key: string, ks: seq<string>): string {
    Fragment(key, name, "\n  " + Join(SymptomAtoms(ks), "\n  ") + "\n  ", "  ")
  }
}

=== FILE: strings.dfy ===
/** The fragment of Python's `str` API the knowledge-base engine relies on,
    restricted to ASCII: character classes, case mapping, `strip`, `replace`,
    `find`/`in`, `split`/`join` and line iteration over a file's text. */
module Strings {
  import opened Wrappers

  /** `str.isspace` on ASCII: tab, newline, vertical tab, form feed, carriage
      return, the four information separators 0x1C-0x1F, and the space. */
  predicate IsSpace(c: char) {
    (9 <= c as int <= 13) || (28 <= c as int <= 32)
  }

  predicate IsUpper(c: char) { 'A' <= c <= 'Z' }
  predicate IsLower(c: char) { 'a' <= c <= 'z' }
  predicate IsAlpha(c: char) { IsUpper(c) || IsLower(c) }
  predicate IsDigit(c: char) { '0' <= c <= '9' }

  /** The regular-expression class `\w`, restricted to ASCII. */
  predicate IsWordChar(c: char) { IsAlpha(c) || IsDigit(c) || c == '_' }

  /** A non-empty run of `\w` characters, i.e. a full match of `\w+`. */
  predicate IsWord(s: string) {
    |s| > 0 && forall i | 0 <= i < |s| :: IsWordChar(s[i])
  }

  function ToLower(c: char): (d: char)
    ensures IsAlpha(c) <==> IsAlpha(d)
    ensures !IsUpper(d)
    ensures IsSpace(d) <==> IsSpace(c)
    ensures IsWordChar(d) <==> IsWordChar(c)
    ensures !IsUpper(c) ==> d == c
  {
    if IsUpper(c) then (c as int + 32) as char else c
  }

  function ToUpper(c: char): (d: char)
    ensures IsAlpha(c) <==> IsAlpha(d)
    ensures !IsLower(d)
    ensures !IsLower(c) ==> d == c
  {
    if IsLower(c) then (c as int - 32) as char else c
  }

  /** `str.lower`. */
  function Lower(s: string): (r: string)
    ensures |r| == |s|
    ensures forall i | 0 <= i < |s| :: r[i] == ToLower(s[i])
  {
    seq(|s|, i requires 0 <= i < |s| => ToLower(s[i]))
  }

  /** `str.replace(a, b)` for one-character `a` and `b`. */
  function ReplaceChar(s: string, a: char, b: char): (r: string)
    ensures |r| == |s|
    ensures forall i | 0 <= i < |s| :: r[i] == (if s[i] == a then b else s[i])
  {
    seq(|s|, i requires 0 <= i < |s| => if s[i] == a then b else s[i])
  }

  /** `str.replace(c, "")`: every occurrence of `c` deleted, the rest kept in
      order (the counts are `RemoveCharCount`, the order `RemoveCharAppend`). */
  function RemoveChar(s: string, c: char): (r: string)
    ensures c !in r
    ensures |r| <= |s|
    ensures forall x :: x in r <==> x in s && x != c
    ensures c !in s ==> r == s
  {
    if |s| == 0 then ""
    else
      assert s == [s[0]] + s[1..];
      (if s[0] == c then "" else [s[0]]) + RemoveChar(s[1..], c)
  }

  /** `RemoveChar` deletes every `c` and keeps every other character as often
      as it occurs. */
  lemma {:induction false} RemoveCharCount(s: string, c: char)
    ensures multiset(RemoveChar(s, c)) == multiset(s)[c := 0]
  {
    if |s| > 0 {
      assert s == [s[0]] + s[1..];
      RemoveCharCount(s[1..], c);
    }
  }

  /** Deleting a character from two texts laid end to end deletes it from each
      in place: nothing is reordered. */
  lemma {:induction false} RemoveCharAppend(a: string, b: string, c: char)
    ensures RemoveChar(a + b, c) == RemoveChar(a, c) + RemoveChar(b, c)
  {
    if |a| == 0 {
      assert a + b == b;
    } else {
      var h := if a[0] == c then "" else [a[0]];
      assert (a + b)[0] == a[0] && (a + b)[1..] == a[1..] + b;
      assert RemoveChar(a + b, c) == h + RemoveChar(a[1..] + b, c);
      assert RemoveChar(a, c) == h + RemoveChar(a[1..], c);
      RemoveCharAppend(a[1..], b, c);
      AppendAssoc(h, RemoveChar(a[1..], c), RemoveChar(b, c));
    }
  }

  /** `str.lstrip()`: the longest suffix of `s` that does not start with whitespace. */
  function TrimStart(s: string): (r: string)
    ensures |r| <= |s| && r == s[|s| - |r|..]
    ensures forall i | 0 <= i < |s| - |r| :: IsSpace(s[i])
    ensures r == "" || !IsSpace(r[0])
  {
    if |s| > 0 && IsSpace(s[0]) then TrimStart(s[1..]) else s
  }

  /** `str.rstrip()`: the longest prefix of `s` that does not end with whitespace. */
  function TrimEnd(s: string): (r: string)
    ensures |r| <= |s| && r == s[..|r|]
    ensures forall i | |r| <= i < |s| :: IsSpace(s[i])
    ensures r == "" || !IsSpace(r[|r| - 1])
  {
    if |s| > 0 && IsSpace(s[|s| - 1]) then TrimEnd(s[..|s| - 1]) else s
  }

  /** The number of whitespace characters `s` starts with. */
  function LeadingSpaces(s: string): (n: nat)
    ensures n <= |s|
    ensures forall i | 0 <= i < n :: IsSpace(s[i])
    ensures n == |s| || !IsSpace(s[n])
  {
    var t := TrimStart(s);
    assert t != "" ==> s[|s| - |t|] == t[0];
    |s| - |t|
  }

  /** The number of whitespace characters `s` ends with. */
  function TrailingSpaces(s: string): (n: nat)
    decreases |s|
    ensures n <= |s|
    ensures forall i | |s| - n <= i < |s| :: IsSpace(s[i])
    ensures n == |s| || !IsSpace(s[|s| - n - 1])
  {
    if |s| > 0 && IsSpace(s[|s| - 1]) then
      var m := TrailingSpaces(s[..|s| - 1]);
      assert forall i | |s| - 1 - m <= i < |s| - 1 :: s[i] == s[..|s| - 1][i];
      1 + m
    else 0
  }

  /** `str.strip()`: the text between the leading and the trailing whitespace,
      empty when there is nothing else. */
  function Strip(s: string): (r: string)
    ensures |r| <= |s|
    ensures r == "" <==> forall i | 0 <= i < |s| :: IsSpace(s[i])
    ensures r == "" || (!IsSpace(r[0]) && !IsSpace(r[|r| - 1]))
  {
    var t := TrimStart(s);
    var u := TrimEnd(t);
    assert t != "" ==> s[|s| - |t|] == t[0] && (IsSpace(t[0]) || u != "");
    u
  }

  /** What `strip()` keeps: the slice of `s` that starts after its leading
      whitespace. */
  lemma {:induction false} StripContent(s: string)
    ensures LeadingSpaces(s) + |Strip(s)| <= |s|
    ensures Strip(s) == s[LeadingSpaces(s)..LeadingSpaces(s) + |Strip(s)|]
  {
    PrefixOfSuffix(s, TrimStart(s), Strip(s), LeadingSpaces(s));
  }

  /** What `strip()` removes: a non-blank `s` is its leading whitespace, the
      result and its trailing whitespace, nothing else. */
  lemma {:induction false} StripLengths(s: string)
    ensures Strip(s) != "" ==> LeadingSpaces(s) + |Strip(s)| + TrailingSpaces(s) == |s|
  {
    StripLengthsAt(s, TrimStart(s), Strip(s));
  }

  /** The same for `t` and `u` known to be `lstrip()` of `s` and `rstrip()` of `t`. */
  lemma {:induction false} StripLengthsAt(s: string, t: string, u: string)
    requires t == TrimStart(s) && u == TrimEnd(t)
    ensures u != "" ==> |u| + TrailingSpaces(s) == |t|
  {
    if u != "" {
      assert t[|u| - 1] == u[|u| - 1];
      TrailingRun(s, |s| - |t|, t, |u|);
    }
  }

  /** A prefix `u` of a suffix `t` of `s` is the slice of `s` where `t` starts. */
  lemma PrefixOfSuffix<T>(s: seq<T>, t: seq<T>, u: seq<T>, n: nat)
    requires |t| <= |s| && t == s[|s| - |t|..]
    requires |u| <= |t| && u == t[..|u|]
    requires n + |t| == |s|
    ensures n + |u| <= |s| && u == s[n..n + |u|]
  {
  }

  /** A suffix holds the characters of the sequence it is cut from, shifted. */
  lemma DropAt<T>(s: seq<T>, n: nat, t: seq<T>)
    requires n <= |s| && t == s[n..]
    ensures n + |t| == |s| && forall i | 0 <= i < |t| :: t[i] == s[n + i]
  {
  }

  /** A slice holds the elements of the sequence it is cut from, shifted. */
  lemma SliceAt<T>(s: seq<T>, n: nat, t: seq<T>, len: nat)
    requires n + len <= |s| && t == s[n..n + len]
    ensures |t| == len && forall i | 0 <= i < len :: t[i] == s[n + i]
  {
  }

  /** When the suffix `t` of `s` is non-space at `m - 1` and whitespace from `m`
      on, that whitespace is the whole trailing whitespace of `s`. */
  lemma {:induction false} TrailingRun(s: string, n: nat, t: string, m: nat)
    requires n + |t| == |s| && t == s[n..]
    requires 0 < m <= |t| && !IsSpace(t[m - 1])
    requires forall j | m <= j < |t| :: IsSpace(t[j])
    ensures m + TrailingSpaces(s) == |t|
  {
    DropAt(s, n, t);
    assert s[n + m - 1] == t[m - 1];
    forall i | n + m <= i < |s|
      ensures IsSpace(s[i])
    {
      assert s[i] == t[i - n];
    }
  }

  /** `strip()` only removes characters. */
  lemma StripChars(s: string, c: char)
    requires c in Strip(s)
    ensures c in s
  {
    var t := TrimStart(s);
    InPrefixOfSuffix(s, t, Strip(s), c);
  }

  /** What a prefix of a suffix holds, the whole sequence holds. */
  lemma InPrefixOfSuffix<T>(s: seq<T>, t: seq<T>, u: seq<T>, x: T)
    requires |t| <= |s| && t == s[|s| - |t|..]
    requires |u| <= |t| && u == t[..|u|]
    requires x in u
    ensures x in s
  {
    var i :| 0 <= i < |u| && u[i] == x;
    assert s[|s| - |t| + i] == x;
  }

  /** Text whose ends are not whitespace is its own `strip()`. */
  lemma StripNoop(s: string)
    requires s == "" || (!IsSpace(s[0]) && !IsSpace(s[|s| - 1]))
    ensures Strip(s) == s
  {
  }

  predicate OccursAt(s: string, pat: string, k: int) {
    0 <= k && k + |pat| <= |s| && s[k..k + |pat|] == pat
  }

  /** `s.find(pat, i)`: the first occurrence of `pat` at or after `i`. */
  function IndexFrom(s: string, pat: string, i: nat): (r: Option<nat>)
    decreases |s| - i
    ensures r.Some? ==> i <= r.value && OccursAt(s, pat, r.value)
    ensures r.Some? ==> forall k | i <= k < r.value :: !OccursAt(s, pat, k)
    ensures r.None? ==> forall k | i <= k :: !OccursAt(s, pat, k)
  {
    if i + |pat| > |s| then None
    else if s[i..i + |pat|] == pat then Some(i)
    else IndexFrom(s, pat, i + 1)
  }

  /** `s.find(pat)`, with `None` for Python's `-1`. */
  function IndexOf(s: string, pat: string): (r: Option<nat>)
    ensures r.Some? ==> OccursAt(s, pat, r.value)
    ensures r.Some? ==> forall k | 0 <= k < r.value :: !OccursAt(s, pat, k)
    ensures r.None? ==> forall k :: !OccursAt(s, pat, k)
  {
    IndexFrom(s, pat, 0)
  }

  /** Python's `pat in s`. */
  function Contains(s: string, pat: string): (b: bool)
    ensures b <==> exists k :: OccursAt(s, pat, k)
  {
    IndexOf(s, pat).Some?
  }

  /** A text that does not contain `pat` does not contain it after its first character either. */
  lemma NoOccurrenceInTail(t: string, pat: string)
    requires |t| > 0 && !Contains(t, pat)
    ensures !Contains(t[1..], pat)
  {
    forall k | 0 <= k
      ensures !OccursAt(t[1..], pat, k)
    {
      assert !OccursAt(t, pat, k + 1);
      if k + |pat| <= |t| - 1 {
        var u := t[1..];
        var v := u[k..k + |pat|];
        var w := t[k + 1..k + 1 + |pat|];
        forall j | 0 <= j < |pat| ensures v[j] == w[j] {
          assert u[k + j] == t[k + 1 + j];
        }
        assert v == w;
      }
    }
  }

  /** An occurrence in `a` is an occurrence in `a + b`. */
  lemma OccursInPrefix(a: string, b: string, pat: string, k: int)
    requires OccursAt(a, pat, k)
    ensures OccursAt(a + b, pat, k)
  {
    assert (a + b)[k..k + |pat|] == a[k..k + |pat|];
  }

  /** The first occurrence of `pat` in `a + pat + b` is at `|a|` when no occurrence
      starts inside `a`. */
  lemma IndexOfAfter(a: string, pat: string, b: string)
    requires forall k | 0 <= k < |a| :: !OccursAt(a + pat + b, pat, k)
    ensures IndexOf(a + pat + b, pat) == Some(|a|)
  {
    var s := a + pat + b;
    assert s[|a|..|a| + |pat|] == pat;
    assert OccursAt(s, pat, |a|);
  }

  /** `s.rfind(c, 0, n)`: the last index of `c` below `n`, or `-1` (see
      `RFindIsLast`). The facts about what it finds are kept out of its own
      contract, where their quantifier would fire on every slice searched. */
  function RFind(s: string, c: char, n: nat): (r: int)
    requires n <= |s|
    ensures -1 <= r < n
  {
    if n == 0 then -1
    else if s[n - 1] == c then n - 1
    else RFind(s, c, n - 1)
  }

  /** `s[:i] + x + s[i:]`, written by recursion so that it unfolds one character
      at a time (see `InsertAtSlices`). */
  function InsertAt(s: string, i: nat, x: string): (r: string)
    requires i <= |s|
    ensures |r| == |s| + |x|
    decreases i
  {
    if i == 0 then x + s else [s[0]] + InsertAt(s[1..], i - 1, x)
  }

  lemma {:induction false} InsertAtSlices(s: string, i: nat, x: string)
    requires i <= |s|
    ensures InsertAt(s, i, x) == s[..i] + x + s[i..]
    decreases i
  {
    if i > 0 {
      InsertAtSlices(s[1..], i - 1, x);
      assert s[..i] == [s[0]] + s[1..][..i - 1];
      assert s[i..] == s[1..][i - 1..];
    }
  }

  /** `rfind` finds `c`, and no `c` below `n` comes after what it finds. */
  lemma {:induction false} RFindIsLast(s: string, c: char, n: nat)
    requires n <= |s|
    ensures RFind(s, c, n) >= 0 ==> s[RFind(s, c, n)] == c
    ensures forall k | RFind(s, c, n) < k < n :: s[k] != c
    decreases n
  {
    if n > 0 && s[n - 1] != c {
      RFindIsLast(s, c, n - 1);
    }
  }

  /** `s.replace(pat, rep)` for a non-empty `pat`: occurrences are replaced left to
      right without overlapping. */
  function ReplaceAll(s: string, pat: string, rep: string): (r: string)
    requires |pat| > 0
    decreases |s|
    ensures !Contains(s, pat) ==> r == s
    ensures |rep| >= |pat| ==> |r| >= |s|
    ensures Contains(s, pat) && |rep| > |pat| ==> |r| > |s|
  {
    if |s| < |pat| then s
    else if s[..|pat|] == pat then
      assert OccursAt(s, pat, 0);
      rep + ReplaceAll(s[|pat|..], pat, rep)
    else
      var rest := s[1..];
      assert Contains(s, pat) ==> Contains(rest, pat) by {
        if Contains(s, pat) {
          var k :| OccursAt(s, pat, k);
          assert k != 0;
          assert rest[k - 1..k - 1 + |pat|] == s[k..k + |pat|];
          assert OccursAt(rest, pat, k - 1);
        }
      }
      assert !Contains(s, pat) ==> !Contains(rest, pat) by {
        if Contains(rest, pat) {
          var k :| OccursAt(rest, pat, k);
          assert s[k + 1..k + 1 + |pat|] == rest[k..k + |pat|];
          assert OccursAt(s, pat, k + 1);
        }
      }
      [s[0]] + ReplaceAll(rest, pat, rep)
  }

  /** `replace` leaves the text before the first occurrence as it was. */
  lemma {:induction false} ReplaceKeepsPrefix(s: string, pat: string, rep: string, p: nat)
    requires |pat| > 0 && p <= |s|
    requires forall k | 0 <= k < p :: !OccursAt(s, pat, k)
    ensures ReplaceAll(s, pat, rep) == s[..p] + ReplaceAll(s[p..], pat, rep)
    decreases p
  {
    if p == 0 {
      assert s[..0] + ReplaceAll(s[0..], pat, rep) == ReplaceAll(s, pat, rep);
    } else if |s| < |pat| {
      assert s[..p] + s[p..] == s;
    } else {
      var rest := s[1..];
      ReplaceStep(s, pat, rep);
      NoOccurrenceShift(s, pat, p);
      ReplaceKeepsPrefix(rest, pat, rep, p - 1);
      assert rest[p - 1..] == s[p..];
      ConsPrefix(s, p, ReplaceAll(s[p..], pat, rep));
    }
  }

  /** Where `pat` does not start the text, `replace` keeps the first character. */
  lemma ReplaceStep(s: string, pat: string, rep: string)
    requires |pat| > 0 && |pat| <= |s|
    requires !OccursAt(s, pat, 0)
    ensures ReplaceAll(s, pat, rep) == [s[0]] + ReplaceAll(s[1..], pat, rep)
  {
  }

  lemma NoOccurrenceShift(s: string, pat: string, p: nat)
    requires 0 < p <= |s|
    requires forall k | 0 <= k < p :: !OccursAt(s, pat, k)
    ensures forall k | 0 <= k < p - 1 :: !OccursAt(s[1..], pat, k)
  {
    var rest := s[1..];
    forall k | 0 <= k < p - 1
      ensures !OccursAt(rest, pat, k)
    {
      assert !OccursAt(s, pat, k + 1);
      if k + |pat| <= |rest| {
        assert rest[k..k + |pat|] == s[k + 1..k + 1 + |pat|];
      }
    }
  }

  lemma ConsPrefix(s: string, p: nat, t: string)
    requires 0 < p <= |s|
    ensures [s[0]] + (s[1..][..p - 1] + t) == s[..p] + t
  {
    assert [s[0]] + s[1..][..p - 1] == s[..p];
    AppendAssoc([s[0]], s[1..][..p - 1], t);
  }

  /** `replace` when the first occurrence of `pat` is at `p`. */
  lemma ReplaceFirst(s: string, pat: string, rep: string, p: nat)
    requires |pat| > 0 && OccursAt(s, pat, p)
    requires forall k | 0 <= k < p :: !OccursAt(s, pat, k)
    ensures ReplaceAll(s, pat, rep) == s[..p] + rep + ReplaceAll(s[p + |pat|..], pat, rep)
  {
    var rest := s[p..];
    assert ReplaceAll(rest, pat, rep) == rep + ReplaceAll(s[p + |pat|..], pat, rep) by {
      assert rest[..|pat|] == pat;
      assert rest[|pat|..] == s[p + |pat|..];
    }
    ReplaceKeepsPrefix(s, pat, rep, p);
  }

  lemma AppendAssoc<T>(a: seq<T>, b: seq<T>, c: seq<T>)
    ensures a + b + c == a + (b + c)
  {
  }

  /** `file.writelines(lines)` / `"".join(parts)`. */
  function Concat(parts: seq<string>): (r: string)
    ensures |parts| == 0 ==> r == ""
  {
    if |parts| == 0 then "" else parts[0] + Concat(parts[1..])
  }

  lemma ConcatAppend(a: seq<string>, b: seq<string>)
    ensures Concat(a + b) == Concat(a) + Concat(b)
  {
    if |a| > 0 {
      assert (a + b)[1..] == a[1..] + b;
      ConcatAppend(a[1..], b);
    } else {
      assert a + b == b;
    }
  }

  /** `sep.join(parts)`. */
  function Join(parts: seq<string>, sep: string): (r: string)
    ensures |parts| == 0 ==> r == ""
    ensures |parts| == 1 ==> r == parts[0]
  {
    if |parts| == 0 then ""
    else if |parts| == 1 then parts[0]
    else parts[0] + sep + Join(parts[1..], sep)
  }

  /** `s.split(sep)` for a non-empty separator: the pieces between the
      occurrences of `sep` found from left to right. */
  function Split(s: string, sep: string): (r: seq<string>)
    requires |sep| > 0
    decreases |s|
    ensures |r| >= 1
  {
    match IndexOf(s, sep)
    case None => [s]
    case Some(k) => [s[..k]] + Split(s[k + |sep|..], sep)
  }

  /** Text without the separator splits into itself alone. */
  lemma SplitWithoutSeparator(s: string, sep: string)
    requires |sep| > 0 && !Contains(s, sep)
    ensures Split(s, sep) == [s]
  {
  }

  /** `join` undoes `split`. */
  lemma {:induction false} JoinSplit(s: string, sep: string)
    requires |sep| > 0
    ensures Join(Split(s, sep), sep) == s
    decreases |s|
  {
    var i := IndexOf(s, sep);
    if i.Some? {
      var k := i.value;
      var rest := s[k + |sep|..];
      var tail := Split(rest, sep);
      calc {
        Join(Split(s, sep), sep);
        { SplitUnfold(s, sep, k); }
        Join([s[..k]] + tail, sep);
        { JoinCons(s[..k], tail, sep); }
        s[..k] + sep + Join(tail, sep);
        { JoinSplit(rest, sep); }
        s[..k] + sep + rest;
        { SplitAround(s, sep, k); }
        s;
      }
    }
  }

  lemma SplitAround(s: string, sep: string, k: nat)
    requires OccursAt(s, sep, k)
    ensures s == s[..k] + sep + s[k + |sep|..]
  {
    assert s == s[..k] + s[k..k + |sep|] + s[k + |sep|..];
  }

  lemma SplitUnfold(s: string, sep: string, k: nat)
    requires |sep| > 0 && IndexOf(s, sep) == Some(k)
    ensures Split(s, sep) == [s[..k]] + Split(s[k + |sep|..], sep)
  {
    match IndexOf(s, sep)
    case Some(k') =>
      assert k' == k;
  }

  lemma JoinCons(head: string, tail: seq<string>, sep: string)
    requires |tail| >= 1
    ensures Join([head] + tail, sep) == head + sep + Join(tail, sep)
  {
    assert ([head] + tail)[1..] == tail;
  }

  /** Joining two non-empty runs joins each and puts one separator between them. */
  lemma {:induction false} JoinAppend(a: seq<string>, b: seq<string>, sep: string)
    requires |a| > 0 && |b| > 0
    ensures Join(a + b, sep) == Join(a, sep) + sep + Join(b, sep)
    decreases |a|
  {
    if |a| == 1 {
      assert a + b == [a[0]] + b;
      JoinCons(a[0], b, sep);
    } else {
      JoinAppend(a[1..], b, sep);
      assert a + b == [a[0]] + (a[1..] + b);
      JoinCons(a[0], a[1..] + b, sep);
      assert a == [a[0]] + a[1..];
      JoinCons(a[0], a[1..], sep);
    }
  }

  /** The last `c` of `x + y` is the last character of `x` when `y` has none. */
  lemma RFindLast(x: string, y: string, c: char)
    requires |x| > 0 && x[|x| - 1] == c && c !in y
    ensures RFind(x + y, c, |x + y|) == |x| - 1
  {
    RFindIsLast(x + y, c, |x + y|);
    assert (x + y)[|x| - 1] == c;
    assert forall k | |x| <= k < |x + y| :: (x + y)[k] == y[k - |x|];
  }

  /** Separators whose occurrences cannot straddle the end of a piece: one
      character, or two different characters (",\n"). */
  predicate SimpleSeparator(sep: string) {
    |sep| == 1 || (|sep| == 2 && sep[0] != sep[1])
  }

  /** With a simple separator, `x + sep + rest` has no occurrence of `sep` that
      starts inside `x` when `x` itself does not contain it. */
  lemma FirstSeparatorAfter(x: string, sep: string, rest: string)
    requires SimpleSeparator(sep) && !Contains(x, sep)
    ensures IndexOf(x + sep + rest, sep) == Some(|x|)
  {
    var s := x + sep + rest;
    assert s[..|x|] == x;
    forall k | 0 <= k < |x|
      ensures !OccursAt(s, sep, k)
    {
      assert s[|x|] == sep[0];
      if k + |sep| <= |x| {
        assert x[k..k + |sep|] == s[k..k + |sep|];
        assert !OccursAt(x, sep, k);
      } else {
        assert s[k + 1] == s[|x|];
      }
    }
    IndexOfAfter(x, sep, rest);
  }

  /** `split` undoes `join` when no piece contains the separator. */
  lemma {:induction false} SplitJoin(parts: seq<string>, sep: string)
    requires SimpleSeparator(sep)
    requires |parts| >= 1
    requires forall i | 0 <= i < |parts| :: !Contains(parts[i], sep)
    ensures Split(Join(parts, sep), sep) == parts
  {
    if |parts| > 1 {
      var x := parts[0];
      var rest := Join(parts[1..], sep);
      var s := x + sep + rest;
      assert parts == [x] + parts[1..];
      JoinCons(x, parts[1..], sep);
      FirstSeparatorAfter(x, sep, rest);
      SplitUnfold(s, sep, |x|);
      assert s[..|x|] == x;
      assert s[|x| + |sep|..] == rest;
      SplitJoin(parts[1..], sep);
    } else {
      SplitWithoutSeparator(parts[0], sep);
    }
  }

  /** No piece `split` returns contains the separator. */
  lemma {:induction false} SplitPiecesFree(s: string, sep: string)
    requires |sep| > 0
    ensures forall i | 0 <= i < |Split(s, sep)| :: !Contains(Split(s, sep)[i], sep)
    decreases |s|
  {
    match IndexOf(s, sep)
    case None =>
    case Some(k) =>
      var tail := Split(s[k + |sep|..], sep);
      SplitPiecesFree(s[k + |sep|..], sep);
      FirstPieceFree(s, sep, k);
      SplitUnfold(s, sep, k);
      ConsAll(x => !Contains(x, sep), s[..k], tail);
  }

  lemma ConsAll<T>(p: T -> bool, h: T, t: seq<T>)
    requires p(h) && forall i | 0 <= i < |t| :: p(t[i])
    ensures forall i | 0 <= i < |[h] + t| :: p(([h] + t)[i])
  {
    var r := [h] + t;
    forall i | 0 <= i < |r| ensures p(r[i]) {
      if i > 0 { assert r[i] == t[i - 1]; }
    }
  }

  /** The text before the first occurrence of `sep` does not contain it. */
  lemma FirstPieceFree(s: string, sep: string, k: nat)
    requires |sep| > 0 && IndexOf(s, sep) == Some(k)
    ensures !Contains(s[..k], sep)
  {
    var head := s[..k];
    forall j | 0 <= j && j + |sep| <= |head|
      ensures !OccursAt(head, sep, j)
    {
      assert !OccursAt(s, sep, j);
      assert head[j..j + |sep|] == s[j..j + |sep|];
    }
  }

  /** Iterating over a file's text as Python does: every line keeps its
      terminating '\n'; a last line without one is still a line. */
  function SplitLines(s: string): (lines: seq<string>)
    decreases |s|
    ensures Concat(lines) == s
    ensures forall i | 0 <= i < |lines| :: |lines[i]| > 0
    ensures |s| == 0 <==> |lines| == 0
  {
    if |s| == 0 then []
    else match IndexOf(s, "\n")
      case None => [s]
      case Some(k) =>
        assert s[..k + 1] + s[k + 1..] == s;
        [s[..k + 1]] + SplitLines(s[k + 1..])
  }

  /** One step of `SplitLines`: a text without a line break is one line. */
  lemma SplitLinesNone(s: string)
    requires |s| > 0 && IndexOf(s, "\n").None?
    ensures SplitLines(s) == [s]
  {
  }

  /** One step of `SplitLines`: the first line runs up to the first line break. */
  lemma SplitLinesSome(s: string, j: nat)
    requires IndexOf(s, "\n") == Some(j)
    ensures j < |s| && s[j] == '\n'
    ensures SplitLines(s) == [s[..j + 1]] + SplitLines(s[j + 1..])
  {
    NewlineAt(s, j);
    var r := IndexOf(s, "\n");
    assert |s| != 0 && r.Some? && r.value == j;
  }

  lemma NewlineAt(s: string, j: nat)
    requires OccursAt(s, "\n", j)
    ensures j < |s| && s[j] == '\n'
  {
    var w := s[j..j + 1];
    assert s[j] == w[0];
  }

  /** A line without an inner newline, terminated by one, is a single line. */
  lemma SplitLinesSingle(x: string)
    requires '\n' !in x
    ensures SplitLines(x + "\n") == [x + "\n"]
  {
    var s := x + "\n";
    forall k | 0 <= k < |x| ensures !OccursAt(s + "", "\n", k) {
      assert s[k] == x[k];
    }
    IndexOfAfter(x, "\n", "");
    assert s + "" == s;
    assert s[..|x| + 1] == s;
    assert s[|x| + 1..] == "";
  }

  /** Appending one terminated line to a text that ends with a line break
      adds exactly that line. */
  lemma SplitLinesAppendLine(a: string, x: string)
    requires a == "" || a[|a| - 1] == '\n'
    requires '\n' !in x
    ensures SplitLines(a + x + "\n") == SplitLines(a) + [x + "\n"]
  {
    assert a + x + "\n" == a + (x + "\n");
    SplitLinesAppend(a, x + "\n");
    SplitLinesSingle(x);
  }

  /** `(x + "\n").strip()` is `x` when `x` neither starts nor ends with whitespace. */
  lemma StripNewline(x: string)
    requires |x| > 0 && !IsSpace(x[0]) && !IsSpace(x[|x| - 1])
    ensures Strip(x + "\n") == x
  {
    var s := x + "\n";
    assert TrimStart(s) == s;
    assert s[..|s| - 1] == x;
    assert TrimEnd(s) == TrimEnd(x);
  }

  /** A first occurrence inside `a` is still the first one in `a + b`. */
  lemma IndexOfPrefix(a: string, b: string, pat: string)
    requires IndexOf(a, pat).Some?
    ensures IndexOf(a + b, pat) == IndexOf(a, pat)
  {
    var k := IndexOf(a, pat).value;
    OccursInPrefix(a, b, pat, k);
    forall j | 0 <= j < k
      ensures !OccursAt(a + b, pat, j)
    {
      assert (a + b)[j..j + |pat|] == a[j..j + |pat|];
      assert !OccursAt(a, pat, j);
    }
  }

  /** A text that ends with a line break splits into the lines before the break
      and the lines after it. */
  lemma {:induction false} SplitLinesAppend(a: string, b: string)
    requires a == "" || a[|a| - 1] == '\n'
    ensures SplitLines(a + b) == SplitLines(a) + SplitLines(b)
  {
    if |a| > 0 {
      assert OccursAt(a, "\n", |a| - 1);
      IndexOfPrefix(a, b, "\n");
      var k := IndexOf(a, "\n").value;
      var a' := a[k + 1..];
      SplitLinesSome(a, k);
      SplitLinesSome(a + b, k);
      FirstLineOfAppend(a, b, k);
      SplitLinesAppend(a', b);
      AppendAssoc([a[..k + 1]], SplitLines(a'), SplitLines(b));
    } else {
      assert a + b == b;
    }
  }

  lemma FirstLineOfAppend(a: string, b: string, k: nat)
    requires k < |a|
    ensures (a + b)[..k + 1] == a[..k + 1]
    ensures (a + b)[k + 1..] == a[k + 1..] + b
    ensures k + 1 < |a| ==> a[k + 1..][|a| - k - 2] == a[|a| - 1]
  {
  }

  /** `str.title()`: a letter is upper-cased when the character before it is not
      a letter and lower-cased otherwise; other characters are kept. */
  function TitleFrom(s: string, afterLetter: bool): (r: string)
    ensures |r| == |s|
  {
    if |s| == 0 then ""
    else if IsAlpha(s[0]) then
      [if afterLetter then ToLower(s[0]) else ToUpper(s[0])] + TitleFrom(s[1..], true)
    else [s[0]] + TitleFrom(s[1..], false)
  }

  function Title(s: string): (r: string)
    ensures |r| == |s|
  {
    TitleFrom(s, false)
  }

  lemma LowerOfUpper(c: char)
    ensures ToLower(ToUpper(c)) == ToLower(c)
  {
  }

  /** `title()` changes letters only, and only their case. */
  lemma {:induction false} TitleChars(s: string, afterLetter: bool)
    ensures var r := TitleFrom(s, afterLetter);
            forall i | 0 <= i < |s| :: IsAlpha(r[i]) == IsAlpha(s[i])
              && (!IsAlpha(s[i]) ==> r[i] == s[i]) && ToLower(r[i]) == ToLower(s[i])
    decreases |s|
  {
    if |s| > 0 {
      var r := TitleFrom(s, afterLetter);
      var t := TitleFrom(s[1..], IsAlpha(s[0]));
      TitleChars(s[1..], IsAlpha(s[0]));
      LowerOfUpper(s[0]);
      assert r == [r[0]] + t;
      assert forall i | 1 <= i < |s| :: r[i] == t[i - 1] && s[i] == s[1..][i - 1];
    }
  }

  /** Title case puts a capital at or before any letter. */
  lemma {:induction false} TitleHasUpper(s: string, i: nat) returns (j: nat)
    requires i < |s| && IsAlpha(s[i])
    ensures j <= i && IsUpper(Title(s)[j])
  {
    if IsAlpha(s[0]) {
      j := 0;
    } else {
      var j' := TitleHasUpper(s[1..], i - 1);
      assert Title(s) == [s[0]] + Title(s[1..]);
      j := j' + 1;
    }
  }

  /** `str.capitalize()`: first character upper-case, the rest lower-case. */
  function Capitalize(s: string): (r: string)
    ensures |r| == |s|
    ensures |s| > 0 ==> r[0] == ToUpper(s[0]) && !IsLower(r[0])
    ensures forall i | 1 <= i < |s| :: r[i] == ToLower(s[i]) && !IsUpper(r[i])
  {
    if |s| == 0 then ""
    else
      var r := [ToUpper(s[0])] + Lower(s[1..]);
      assert forall i | 1 <= i < |s| :: r[i] == Lower(s[1..])[i - 1] && s[1..][i - 1] == s[i];
      r
  }
}

=== FILE: tables.dfy ===
/** A file read into a dictionary, one record per line: `data[key(line)] =
    value(line)` for every line in turn, so a later line overrides an earlier
    one with the same key. */
module Tables {
  /** No line after line `i` and before line `n` has the same key as line `i`. */
  predicate LastWithKey(lines: seq<string>, key: string -> string, i: int, n: int)
    requires 0 <= i < |lines|
  {
    forall j | i < j < n && j < |lines| :: key(lines[j]) != key(lines[i])
  }

  /** Some line before line `n` has key `k`. */
  predicate HasKey(lines: seq<string>, key: string -> string, k: string, n: int) {
    exists i | 0 <= i < n && i < |lines| :: key(lines[i]) == k
  }

  /** Where each key of the first `n` lines was seen last. */
  function LastIndex(lines: seq<string>, key: string -> string, n: nat): (t: map<string, nat>)
    requires n <= |lines|
    ensures forall k :: k in t <==> HasKey(lines, key, k, n)
    ensures forall k | k in t :: t[k] < n && key(lines[t[k]]) == k && LastWithKey(lines, key, t[k], n)
  {
    if n == 0 then map[]
    else
      var prev := LastIndex(lines, key, n - 1);
      LastIndexStep(lines, key, n, prev);
      prev[key(lines[n - 1]) := n - 1]
  }

  /** Recording line `n - 1` as the last one with its key keeps the index right. */
  lemma LastIndexStep(lines: seq<string>, key: string -> string, n: nat, prev: map<string, nat>)
    requires 0 < n <= |lines|
    requires forall k :: k in prev <==> HasKey(lines, key, k, n - 1)
    requires forall k | k in prev :: prev[k] < n - 1 && key(lines[prev[k]]) == k && LastWithKey(lines, key, prev[k], n - 1)
    ensures var t := prev[key(lines[n - 1]) := n - 1];
      && (forall k :: k in t <==> HasKey(lines, key, k, n))
      && (forall k | k in t :: t[k] < n && key(lines[t[k]]) == k && LastWithKey(lines, key, t[k], n))
  {
    var last := key(lines[n - 1]);
    var t := prev[last := n - 1];
    forall k ensures k in t <==> HasKey(lines, key, k, n) {
      if k == last {
        assert HasKey(lines, key, k, n);
      } else {
        HasKeyStep(lines, key, k, n);
      }
    }
    forall k | k in t ensures t[k] < n && key(lines[t[k]]) == k && LastWithKey(lines, key, t[k], n) {
      if k != last {
        assert LastWithKey(lines, key, prev[k], n - 1);
      }
    }
  }

  lemma HasKeyStep(lines: seq<string>, key: string -> string, k: string, n: nat)
    requires 0 < n <= |lines| && key(lines[n - 1]) != k
    ensures HasKey(lines, key, k, n) <==> HasKey(lines, key, k, n - 1)
  {
    if HasKey(lines, key, k, n) {
      var i :| 0 <= i < n && i < |lines| && key(lines[i]) == k;
      assert i < n - 1;
    }
  }

  /** The table read from all lines: the keys are the lines' keys, and each
      holds the value of the last line carrying it. */
  function Table<V>(lines: seq<string>, key: string -> string, value: string -> V): (t: map<string, V>)
    ensures forall k :: k in t <==> HasKey(lines, key, k, |lines|)
    ensures forall i | 0 <= i < |lines| :: key(lines[i]) in t
    ensures forall i | 0 <= i < |lines| && LastWithKey(lines, key, i, |lines|) :: t[key(lines[i])] == value(lines[i])
  {
    var last := LastIndex(lines, key, |lines|);
    forall i | 0 <= i < |lines| ensures key(lines[i]) in last {
      assert HasKey(lines, key, key(lines[i]), |lines|);
    }
    forall i | 0 <= i < |lines| && LastWithKey(lines, key, i, |lines|) ensures last[key(lines[i])] == i {
      var j := last[key(lines[i])];
      assert key(lines[j]) == key(lines[i]);
    }
    map k | k in last :: value(lines[last[k]])
  }

  /** Reading one more line sets its key to its value and keeps every other entry. */
  lemma TableAppend<V>(lines: seq<string>, line: string, key: string -> string, value: string -> V)
    ensures Table(lines + [line], key, value) == Table(lines, key, value)[key(line) := value(line)]
  {
    var t := Table(lines, key, value);
    var u := Table(lines + [line], key, value);
    assert forall k :: k in u <==> k in t || k == key(line) by {
      forall k ensures k in u <==> k in t || k == key(line) {
        AppendKeys(lines, line, key, k);
      }
    }
    assert forall k | k in t && k != key(line) :: u[k] == t[k] by {
      forall k | k in t && k != key(line) ensures u[k] == t[k] {
        AppendKeeps(lines, line, key, value, k);
      }
    }
    AppendSets(lines, line, key, value);
    MapUpdated(t, u, key(line), value(line));
  }

  /** A map that agrees with `t` off `k0`, has `k0`, holds `v0` there, and
      has no other key, is `t[k0 := v0]`. */
  lemma MapUpdated<K, V>(t: map<K, V>, u: map<K, V>, k0: K, v0: V)
    requires forall k :: k in u <==> k in t || k == k0
    requires forall k | k in t && k != k0 :: u[k] == t[k]
    requires k0 in u && u[k0] == v0
    ensures u == t[k0 := v0]
  {
  }

  lemma AppendKeys(lines: seq<string>, line: string, key: string -> string, k: string)
    ensures HasKey(lines + [line], key, k, |lines| + 1) <==> HasKey(lines, key, k, |lines|) || k == key(line)
  {
    var all := lines + [line];
    var n := |lines|;
    assert all[n] == line;
    if k != key(line) {
      HasKeyStep(all, key, k, n + 1);
      HasKeyPrefix(lines, line, key, k);
    } else {
      assert key(all[n]) == k;
    }
  }

  lemma AppendKeeps<V>(lines: seq<string>, line: string, key: string -> string, value: string -> V, k: string)
    requires k in Table(lines, key, value) && k != key(line)
    ensures k in Table(lines + [line], key, value)
    ensures Table(lines + [line], key, value)[k] == Table(lines, key, value)[k]
  {
    var all := lines + [line];
    var n := |lines|;
    var i := LastIndex(lines, key, n)[k];
    assert all[i] == lines[i];
    assert all[n] == line;
    assert LastWithKey(all, key, i, n + 1);
  }

  lemma AppendSets<V>(lines: seq<string>, line: string, key: string -> string, value: string -> V)
    ensures key(line) in Table(lines + [line], key, value)
    ensures Table(lines + [line], key, value)[key(line)] == value(line)
  {
    var all := lines + [line];
    var n := |lines|;
    assert all[n] == line;
    assert LastWithKey(all, key, n, n + 1);
  }

  lemma HasKeyPrefix(lines: seq<string>, line: string, key: string -> string, k: string)
    ensures HasKey(lines + [line], key, k, |lines|) <==> HasKey(lines, key, k, |lines|)
  {
    var all := lines + [line];
    if HasKey(all, key, k, |lines|) {
      var i :| 0 <= i < |lines| && i < |all| && key(all[i]) == k;
      assert all[i] == lines[i];
    }
    if HasKey(lines, key, k, |lines|) {
      var i :| 0 <= i < |lines| && key(lines[i]) == k;
      assert all[i] == lines[i];
    }
  }
}

=== FILE: wrappers.dfy ===
/** Small failure-carrying datatypes shared by every module of the model. */
module Wrappers {

  /** A value that may be absent: a missing dictionary key, a search that found nothing. */
  datatype Option<+T> = None | Some(value: T) {

    /** The wrapped value, or `default` when there is none (Python's `dict.get(k, default)`). */
    function GetOr(default: T): T {
      match this
      case Some(v) => v
      case None => default
    }
  }
}
